=== FILE: README.md ===
# SIDE-B content-image ledger, in Dafny

SIDE-B is a blog whose admin pages let an author upload images into the
post body. Every uploaded body image is recorded as a row of the `images`
table (the ledger), and the row's `status` follows the image's life:

- **Upload and record.** An upload stores a blob under `content/` and
  inserts a `temp` row for the signed-in author. When the insert fails,
  the blob is removed again.
- **Save-time sync.** Saving a post re-scans its markdown with
  `/!\[.*?\]\((.*?)\)/g`. The author's `temp` rows whose URL is embedded
  become `active`. The author's `active` rows whose URL is no longer
  embedded fall back to `temp`.
- **Scheduled sweep.** An edge function removes the blobs of `temp` rows
  older than a threshold (24 hours by default) and marks those rows
  `deleted`.
- **Post deletion.** Deleting a post from the dashboard purges every row
  whose URL the post embeds or uses as its cover, before the post itself is
  deleted.
- **Backfill.** A migration script registers, as `active`, the embedded
  URLs that have no row yet, when their blob exists.

The model keeps the ledger as a sequence of `ImageRow` records and the
bucket as a set of paths (`ImageLedger.Store`). Each operation is a pure
function from a store, the operation's inputs and the replies of the remote
calls it makes to a new store and a report. Alongside the lifecycle, the
model covers the small pure helpers the admin and reader pages rely on:
slug derivation, srcset and optimized-URL building, page grouping, lookups
with fallbacks, the navigation table and error-message classification.

Modules, one per file:

| file | module | models |
|---|---|---|
| base.dfy | `Base` | options, results, database replies, sequence and string helpers |
| ledger.dfy | `ImageLedger` | the `images` row, the ledger, the bucket, status updates by id |
| scanner.dfy | `MarkdownScanner` | the regular expression scan shared by the write page, the dashboard and the migration |
| post_form.dfy | `PostForm` | the write form: slug derivation, file extensions, snippet insertion |
| content_images.dfy | `ContentImages` | upload and record, save-time sync, `handleSubmit` |
| cleanup.dfy | `TempImageSweep` | the scheduled sweep of stale `temp` rows |
| dashboard.dfy | `PostDeletion` | `deletePostImages` and `handleDelete` |
| migrate.dfy | `ImageBackfill` | the migration script's storage-path extraction and registration loop |
| lifecycle.dfy | `ImageLifecycle` | all writers side by side: `deleted` is final; upload then save gives `active` |
| image_utils.dfy | `ImageUtils` | `generateSrcSet`, `getOptimizedImageUrl` |
| pages.dfy | `Pages` | page lookups and grouping by section |
| categories.dfy | `Categories` | built-in categories and lookups with fallbacks |
| authors.dfy | `Authors` | author lookups |
| navigation.dfy | `Navigation` | the static menu table |
| error_handler.dfy | `ErrorHandler` | `formatErrorMessage` |

## Model

| member | source | states |
|---|---|---|
| ImageLedger.SetStatus | app/routes/admin.write.tsx:449-470 | an update `.in("id", ids)` changes only the status of exactly the rows whose id is listed, and keeps every row's identity and order |
| ImageLedger.PublicUrls | scripts/migrate-images-to-table.ts:148-161 | the set of registered URLs holds a URL iff some row of the ledger carries it |
| MarkdownScanner.FindOnLineSpec | app/routes/admin.write.tsx:388 | a lazy `.*?` followed by a literal stops at the first occurrence of the literal before any line terminator, and fails only when every occurrence comes after a line break |
| MarkdownScanner.FindOnLineStopsAtLineEnd | app/routes/admin.write.tsx:388 | text after a line terminator cannot change where the lazy search stops |
| MarkdownScanner.MatchHereIsLeastMatch | app/routes/admin.write.tsx:388 | a successful attempt reports the match a backtracking engine picks (shortest alt text, then shortest URL), and its URL holds no `)` and no line break |
| MarkdownScanner.LazyMatchFound | app/routes/admin.write.tsx:388 | the offsets where the two lazy searches stop form a match of the regular expression |
| MarkdownScanner.LazyMatchMinimal | app/routes/admin.write.tsx:388 | no other match of the regular expression at that position has shorter alt text, or equal alt text and a shorter URL |
| MarkdownScanner.MatchHereComplete | app/routes/admin.write.tsx:388 | whenever the regular expression can match at a position at all, the attempt there succeeds |
| MarkdownScanner.CapturesEmbedded | app/routes/admin.write.tsx:391-392 | every capture of the `exec` loop stands in the content right after a `](` that follows a `![` on the same line, and is closed by a `)` |
| MarkdownScanner.IndexOf | app/routes/admin.write.tsx:394 | the first position of a value, which lies past the end exactly when the value is absent |
| MarkdownScanner.KeepFirstSeenSpec | app/routes/admin.write.tsx:392-396 | the accumulation keeps each non-empty capture exactly once, ordered by its first occurrence among the captures |
| MarkdownScanner.ExtractImageUrls | app/routes/admin.write.tsx:387-400 | the extracted URLs are duplicate-free, are exactly the non-empty captures, and keep first-seen order |
| MarkdownScanner.ExtractedUrlsAreEmbedded | app/routes/admin.write.tsx:387-400 | every extracted URL is non-empty, has no `)` and no line break, and is embedded with image syntax in the content |
| MarkdownScanner.ImageMarkdownRoundTrip | app/routes/admin.write.tsx:359-400 | scanning the snippet `![alt](url)` gives back exactly `[url]` when the alt text has no `](` and no line break and the URL is non-empty with no `)` and no line break |
| MarkdownScanner.MatchImageMarkdown | app/routes/admin.write.tsx:360 | an attempt at the start of a snippet consumes exactly the snippet, whatever text follows |
| MarkdownScanner.CapturesSplitAtLineEnd | app/routes/admin.write.tsx:388 | no capture spans a line break: the captures of two texts joined after a line terminator are the captures of each |
| MarkdownScanner.SnippetAtLineStartIsExtracted | app/routes/admin.write.tsx:359-400 | a snippet that starts a line has its URL extracted, whatever the rest of the content holds |
| PostForm.LowerAll | app/routes/admin.write.tsx:133 | lower-casing leaves no ASCII capital, Kelvin sign or dotted capital I, never shortens the text, and changes nothing in a text without them |
| PostForm.LowerAllAppend | app/routes/admin.write.tsx:133 | `toLowerCase` works character by character: lowering a concatenation is concatenating the lowered parts |
| PostForm.LowerAllIdempotent | app/routes/admin.write.tsx:133 | lowering a lowered text changes nothing |
| PostForm.DottedCapitalIKeepsItsI | app/routes/admin.write.tsx:131-135 | the title `İs` derives the slug `i-s`, because `İ` lowers to `i` and a combining dot |
| PostForm.CollapseRuns | app/routes/admin.write.tsx:134 | replacing every run of non-`[a-z0-9]` characters by one `-` leaves only `[a-z0-9-]`, never `--`, and keeps the letters and digits in order |
| PostForm.SkipRunStopsAtWord | app/routes/admin.write.tsx:134 | a run of non-`[a-z0-9]` characters is consumed up to exactly the next letter or digit |
| PostForm.CollapseRunsSeparatesWord | app/routes/admin.write.tsx:134 | a word of `[a-z0-9]` followed by a non-empty run of other characters becomes the word and one `-`, in place, before what follows |
| PostForm.CollapseRunsKeepsWord | app/routes/admin.write.tsx:134 | a word of `[a-z0-9]` alone is left as it is |
| PostForm.TrimDashes | app/routes/admin.write.tsx:135 | removing a leading and a trailing `-` from a collapsed string gives a slug and keeps its letters and digits |
| PostForm.Slugify | app/routes/admin.write.tsx:131-135 | the derived slug contains only `[a-z0-9-]`, has no leading or trailing `-` and no `--`, and holds exactly the letters and digits of the lower-cased title |
| PostForm.SlugifySeparatesWords | app/routes/admin.write.tsx:131-135 | two words of `[a-z0-9]` with a run of other, unfoldable characters between them derive `word-word` |
| PostForm.SpaceBecomesDash | app/routes/admin.write.tsx:131-135 | the title `a b` derives the slug `a-b` |
| PostForm.SlugifyFixesSlugs | app/routes/admin.write.tsx:131-135 | a string that already is a slug derives to itself |
| PostForm.SlugifyIdempotent | app/routes/admin.write.tsx:131-135 | deriving a slug from a derived slug changes nothing |
| PostForm.HandleInputChange | app/routes/admin.write.tsx:123-140 | the edited field takes the new value; typing a title derives the slug only while the slug is empty; no other field changes |
| PostForm.SlugStaysOnceSet | app/routes/admin.write.tsx:129-136 | once the slug is set, edits of other fields never change it |
| PostForm.DerivedSlugIsSlug | app/routes/admin.write.tsx:129-136 | a slug derived from a title typed into an empty slug field is well formed |
| PostForm.FileExtension | app/routes/admin.write.tsx:281 | the extension holds no `.` |
| PostForm.FileExtensionFollowsLastDot | app/routes/admin.write.tsx:281 | for a name with a dot, the extension is what follows the last `.` |
| PostForm.InsertMarkdown | app/routes/admin.write.tsx:359-381 | the snippet and a newline replace the selection, the text around it is kept, and the cursor lands right after the inserted newline; without a text area nothing changes |
| PostForm.InsertionIsReversible | app/routes/admin.write.tsx:359-381 | cutting the inserted text out again restores the content |
| PostForm.InsertedSnippetIsExtracted | app/routes/admin.write.tsx:359-400 | a snippet inserted at a line start is among the URLs the save-time scan extracts |
| ContentImages.UploadContentImage | app/routes/admin.write.tsx:270-334 | no session or a failed upload writes nothing; a success adds exactly one `temp` row for the session user, with a `content/` path and the blob; a failed insert adds no row and leaves the blob only when its removal also fails; with a session, a successful upload and a successful insert always give a success |
| ContentImages.UploadKeepsRows | app/routes/admin.write.tsx:270-334 | an upload keeps every existing row in place, adds at most one row, and keeps ids unique when the new id is fresh |
| ContentImages.ContentPathHasFolder | app/routes/admin.write.tsx:281-283 | an uploaded body image's path has a folder part, so the sweep accepts it |
| ContentImages.SyncImageStatus | app/routes/admin.write.tsx:405-471 | a sync keeps the rows and their identities, does nothing without a session or when the lookup fails, and changes no status when both updates fail |
| ContentImages.SyncSelection | app/routes/admin.write.tsx:417-446 | a row is queued for activation iff it is the user's, `temp` and embedded, and queued for deactivation iff it is the user's, `active` and not embedded |
| ContentImages.SyncListsDisjoint | app/routes/admin.write.tsx:434-446 | no id is both activated and deactivated |
| ContentImages.SyncIsolation | app/routes/admin.write.tsx:417-470 | rows of other users and `deleted` rows are never changed |
| ContentImages.SyncKeepsUniqueIds | app/routes/admin.write.tsx:405-471 | a sync keeps ids unique |
| ContentImages.SyncMatchesContent | app/routes/admin.write.tsx:415-470 | after a sync whose updates succeed, each of the user's `temp` or `active` rows is `active` iff its URL is embedded in the content |
| ContentImages.SyncOfSyncedIsNoop | app/routes/admin.write.tsx:434-470 | when every row already agrees with the content, both lists are empty and nothing changes |
| ContentImages.SyncIdempotent | app/routes/admin.write.tsx:434-470 | a second sync with the same content right after a successful one queues nothing and changes nothing |
| ContentImages.OrNull | app/routes/admin.write.tsx:479-504 | `value \|\| null`: null exactly for the empty string, otherwise the value itself |
| ContentImages.InsertData | app/routes/admin.write.tsx:499-518 | the record to insert takes the body and cover from the form, falls back from description to subtitle, and carries a colour only when the colour field is not blank |
| ContentImages.HandleSubmit | app/routes/admin.write.tsx:473-574 | a cover upload failure happens iff a cover file was chosen and its upload failed; the post is saved iff the cover step succeeded and the insert succeeded, or hit an unknown column with a colour set and the retry without it succeeded; the ledger changes only when the post is saved, and then exactly by the sync of the saved body; failures show a user message; a colour is saved only by the first insert; without a cover file the bucket is untouched |
| ContentImages.CoverFailureWritesNothing | app/routes/admin.write.tsx:479-497 | a failed cover upload writes nothing and reports the upload error |
| ContentImages.SavedRecordFollowsForm | app/routes/admin.write.tsx:499-558 | a saved post carries the form's body, title and slug, the description fallback, and a colour iff the first insert succeeded with a non-blank colour |
| TempImageSweep.SweepRows | supabase/functions/cleanup-temp-images/index.ts:95-137 | the loop marks `deleted` exactly the rows with a valid path whose update succeeded, removes exactly the blobs whose removal succeeded, lists exactly the marked paths, reports an error for each invalid path, failed removal and failed update, and no error iff every row was clean |
| TempImageSweep.Sweep | supabase/functions/cleanup-temp-images/index.ts:15-172 | preflight and missing configuration change nothing; a positive threshold whose cut-off lies outside the range of a `Date` fails with "Invalid time value" before the fetch; otherwise a fetch failure gives `Failed` with "Failed to fetch temp images: " and its message and changes nothing; a `Preflight` answer comes only from a preflight request; nothing to clean iff the selection is empty, with the message "No temp images older than H hours to clean up"; a run that reaches a non-empty selection always ends `Cleaned`, with the message "Cleanup completed: N images deleted", and the counts, paths, ledger and bucket follow the loop, with `deletedCount <= totalFound` |
| TempImageSweep.HugeThresholdFails | supabase/functions/cleanup-temp-images/index.ts:58-59 | `?hours=3000000000` makes the run fail with "Invalid time value" and change nothing |
| TempImageSweep.SweepMarksExactlyStale | supabase/functions/cleanup-temp-images/index.ts:52-137 | a sweep marks `deleted` exactly the `temp` rows past the threshold whose path is valid and whose update succeeded; every other row, `active` and `deleted` ones included, is unchanged |
| TempImageSweep.SweepKeepsDeleted | supabase/functions/cleanup-temp-images/index.ts:52-55 | a `deleted` row is never touched |
| TempImageSweep.YoungRowsSurvive | supabase/functions/cleanup-temp-images/index.ts:44-60 | with the default 24 hours, a row created at or after `now - 24h` is kept (the comparison is strict) |
| TempImageSweep.NoThresholdSweepsAllTemp | supabase/functions/cleanup-temp-images/index.ts:44-60 | a threshold of zero or less sweeps every `temp` row whatever its age |
| TempImageSweep.StorageFailureStillMarks | supabase/functions/cleanup-temp-images/index.ts:108-131 | a failed blob removal is reported and the blob stays, but the row is still marked `deleted` |
| TempImageSweep.SecondRunFetchesLeftovers | supabase/functions/cleanup-temp-images/index.ts:55-123 | a second sweep with the same clock fetches exactly the rows the first one failed to mark |
| TempImageSweep.CompleteSweepIsFinal | supabase/functions/cleanup-temp-images/index.ts:55-123 | after a sweep that marked every selected row, a second sweep finds nothing and changes nothing |
| PostDeletion.PostImageUrls | app/routes/admin.dashboard.tsx:77-88 | the targets are the body's extracted URLs and then the cover when it is set; the list is empty iff both are missing |
| PostDeletion.PurgeRows | app/routes/admin.dashboard.tsx:104-125 | each referenced row is marked `deleted` when its update succeeds and its blob removed when its removal succeeds, independently of each other |
| PostDeletion.DeletePostImages | app/routes/admin.dashboard.tsx:76-130 | no targets or a failed lookup changes nothing; otherwise every row carrying a target URL is purged |
| PostDeletion.PurgeMarksReferencedRows | app/routes/admin.dashboard.tsx:95-125 | exactly the rows carrying a target URL whose update succeeds become `deleted`, whoever owns them and whatever their status; every other row is unchanged |
| PostDeletion.PurgeKeepsDeleted | app/routes/admin.dashboard.tsx:95-125 | a purge never changes a `deleted` row |
| PostDeletion.HandleDelete | app/routes/admin.dashboard.tsx:132-161 | nothing happens without the confirmation; an unknown id gives "Post not found"; otherwise the images are purged first, and the post leaves the list only when its delete succeeds, which always ends in `PostDeleted`, with an alert carrying the error otherwise |
| PostDeletion.FailedDeleteStillPurges | app/routes/admin.dashboard.tsx:146-156 | when the post's delete fails, the post stays listed but its embedded images are already `deleted` |
| ImageBackfill.LineRun | scripts/migrate-images-to-table.ts:81 | `(.+)` without the dotall flag runs to the first line terminator or the end |
| ImageBackfill.FirstMatch | scripts/migrate-images-to-table.ts:81 | the search finds the leftmost occurrence of the public-object prefix followed by a character that is not a line terminator, and fails only when there is none |
| ImageBackfill.ExtractStoragePath | scripts/migrate-images-to-table.ts:78-86 | an unparsable URL gives null; otherwise the result is null iff the prefix never occurs followed by a path, and a path is non-empty and free of line breaks |
| ImageBackfill.StoragePathRoundTrip | scripts/migrate-images-to-table.ts:78-86 | the pathname of a public object URL, taken as the public-object prefix followed by a non-empty line-free storage path, gives back that storage path (the percent-encoding `new URL` applies to spaces and non-ASCII characters is not modelled) |
| ImageBackfill.EmbeddedUrlsMembership | scripts/migrate-images-to-table.ts:134-143 | the collected URLs are exactly those extracted from the body of some post |
| ImageBackfill.AllImageUrls | scripts/migrate-images-to-table.ts:134-143 | the URL set holds each URL embedded in some post exactly once |
| ImageBackfill.NewUrls | scripts/migrate-images-to-table.ts:134-162 | the candidates are, without repetition, the embedded URLs that no row carries yet |
| ImageBackfill.NewRows | scripts/migrate-images-to-table.ts:194-203 | one new row per registered URL, in order |
| ImageBackfill.BackfillUrls | scripts/migrate-images-to-table.ts:176-212 | the loop appends one `active` row per URL with a path, an existing blob and a successful insert; it counts those as successes and the URLs without path or blob as skips; and the three counters add up to the number of URLs |
| ImageBackfill.Migrate | scripts/migrate-images-to-table.ts:105-222 | the bucket is never changed; no session, a failed posts query and a failed query of existing rows each end with their own outcome and the query's message, changing nothing; nothing to migrate iff there are no new URLs; otherwise the run always ends `Migrated`, the ledger grows by the registered URLs' rows and the counters add up to the candidates |
| ImageBackfill.MigratedRowsAreSound | scripts/migrate-images-to-table.ts:157-203 | a migration keeps the old rows; every added row is `active`, owned by the session user, for an embedded and previously unregistered URL whose blob exists; no URL is added twice |
| ImageBackfill.SecondRunSeesLeftovers | scripts/migrate-images-to-table.ts:148-212 | a second run's candidates are exactly the first run's candidates that it did not register |
| ImageBackfill.CompleteBackfillIsFinal | scripts/migrate-images-to-table.ts:148-212 | after a run that registered every candidate, a second run finds nothing to migrate and changes nothing |
| ImageLifecycle.DeletedIsFinal | app/types/db.ts:44 | no modelled operation removes a row, and none changes a `deleted` row |
| ImageLifecycle.UploadedAndEmbeddedBecomesActive | app/routes/admin.write.tsx:270-574 | an image uploaded by the author, inserted at a line start of the body and saved with every query succeeding, ends up as one new `active` row |
| ImageUtils.GenerateSrcSet | app/utils/image.ts:8-15 | no widths give the empty string, and one width gives that width's entry alone |
| ImageUtils.DefaultSrcSet | app/utils/image.ts:8-15 | without widths, splitting the srcset of a comma-free base URL at commas gives the entries for 400, 800, 1200 and 1600, in that order, each after the first preceded by a space |
| ImageUtils.DefaultSrcSetSplits | app/utils/image.ts:8-15 | the srcset for the default widths splits at commas into the four default entries |
| ImageUtils.SrcSetRoundTrip | app/utils/image.ts:8-15 | splitting the srcset at commas gives back one `baseUrl?w=W Ww` entry per width, in order, each after the first preceded by a space |
| ImageUtils.Params | app/utils/image.ts:33-38 | at most four parameters, in the order width, height, quality, format, with values free of `&` and `=` |
| ImageUtils.ParamsCarryOptions | app/utils/image.ts:33-38 | each parameter is present exactly when its option is truthy, with the option's value |
| ImageUtils.GetOptimizedImageUrl | app/utils/image.ts:20-41 | a URL that is empty or not on `supabase.co` comes back unchanged; any other URL is extended past a separator |
| ImageUtils.NoOptionsLeavesTrailingSeparator | app/utils/image.ts:39-40 | without options the result is the URL followed by the bare separator |
| ImageUtils.SeparatorFollowsQuery | app/utils/image.ts:40 | the separator is `&` iff the URL already has a `?`, and `?` otherwise |
| ImageUtils.OptimizedQueryRoundTrip | app/utils/image.ts:33-40 | splitting what follows the separator at `&` gives back each emitted `name=value` pair, in order |
| Pages.SectionKey | app/utils/pages.ts:69 | a page's group key is its section, or `정보` when the section is empty; it is never empty |
| Pages.GetAllPages | app/utils/pages.ts:33-47 | an error gives the empty list; otherwise the rows fetched, or the empty list when there is no data |
| Pages.GroupIndex | app/utils/pages.ts:69-73 | the position of the group with a key, past the end exactly when no group has it |
| Pages.GroupBySectionSpec | app/utils/pages.ts:67-74 | the group keys are distinct and are exactly the pages' section keys; each group holds, in fetch order, exactly the pages with its key, and no group is empty |
| Pages.GroupBySectionCount | app/utils/pages.ts:67-74 | the groups together hold as many pages as were fetched |
| Pages.GetActivePagesBySection | app/utils/pages.ts:52-77 | an error gives no groups; a page whose section is a property name inherited from `Object.prototype` (`constructor`, `toString`, `__proto__`, …) makes `push` throw a `TypeError`, exactly when one is fetched; otherwise the fetched pages grouped by section |
| Categories.DefaultCategories | app/utils/categories.ts:35-71 | four built-in categories with distinct slugs, the id equal to the slug, all active, in display order 1 to 4 |
| Categories.GetActiveCategories | app/utils/categories.ts:16-30 | an error falls back to the built-in categories; otherwise the rows fetched |
| Categories.GetCategoryBySlug | app/utils/categories.ts:76-91 | a successful query gives its row; on an error the result is found iff the slug is built in, and is then that built-in category |
| Categories.FallbackFindsBuiltin | app/utils/categories.ts:84-88 | on an error each built-in slug finds its own built-in category |
| Categories.IsValidCategory | app/utils/categories.ts:131-134 | a slug is valid iff its lookup finds a category |
| Categories.GetCategoriesBySlugs | app/utils/categories.ts:96-126 | no slugs give the empty map; every requested slug except `__proto__` is an own key, and no other key is; its value is the first fetched row with that slug, or on an error its single lookup |
| Categories.BatchValuesMatchKeys | app/utils/categories.ts:120-125 | every found category sits under its own slug and is one of the fetched rows |
| Base.RowOrNull | app/utils/authors.ts:8-21 | a single-row read gives null on an error, not-found included, and otherwise the row read; `getAuthorById`, `getAuthorByDisplayName` (authors.ts:75-89), `getPageBySlug` (pages.ts:8-28) and `upsertPage` (pages.ts:82-117) are each this read |
| Authors.GetAllAuthors | app/utils/authors.ts:26-38 | an error gives the empty list; otherwise the rows fetched |
| Authors.GetAuthorsByIds | app/utils/authors.ts:43-70 | no ids give the empty map; every requested id except `__proto__` is an own key, and no other key is; its value is the first fetched author with that id, or on an error its single lookup |
| Authors.BatchValuesMatchKeys | app/utils/authors.ts:63-69 | a found author sits under its own id and is one of the fetched rows; an id maps to null iff no fetched row has it |
| Navigation.MenuTable | app/config/navigation.ts:8-37 | four entries with distinct, non-empty categories, each linking to `/` followed by its category |
| Navigation.IsValidCategory | app/config/navigation.ts:39-44 | a category is valid iff it is given, not empty, and listed in the menu |
| Navigation.GetMenuItemBySlug | app/config/navigation.ts:46-51 | a found entry is listed in the menu under the slug asked for; nothing is found for a missing or empty slug |
| Navigation.ValidIffFound | app/config/navigation.ts:39-51 | a category is valid iff looking it up finds an entry |
| Navigation.FoundEntryIsUnique | app/config/navigation.ts:46-51 | looking up a listed category finds exactly its entry |
| ErrorHandler.FormatErrorMessage | app/utils/error-handler.ts:36-50 | the message is always one of the four fixed texts, picked by case-sensitive keyword with priority `Failed to fetch`, then `permission`, then `not found`; a non-`Error` value gets the generic text |
| ErrorHandler.RawMessageNeverShown | app/utils/error-handler.ts:36-50 | an error's own message is never shown unless it is one of the fixed texts |

## Left out

- The Supabase client, sessions, HTTP serving and the storage and database calls are not code here. Each call's reply is an input: a success flag, an error message, or a function from a path or id to one. The database's own filtering of `.eq`, `.lt`, `.in` queries is written out over the ledger; the order of rows a query returns is taken to be ledger order. Each query is taken to return every matching row, with no row cap or paging; `TempImageSweep.CompleteSweepIsFinal`, `PostDeletion.PurgeMarksReferencedRows` and the migration's set of existing URLs rely on this.
- Blob names built from `Date.now()` and `Math.random()` are an input stem, the upload timestamp is an input integer of milliseconds, and the sweep's `Date.now()` is the request's `now`. ISO timestamps, `executedAt`, `completedAt` and log lines are left out.
- `new URL(...)` parsing in the migration script is an input: the URL's pathname, or none when it does not parse. `parseInt` of the sweep's `hours` parameter is an input `Option<int>`. The `NaN` path, where a non-numeric parameter sweeps every `temp` row, depends on `parseInt` and is not modelled.
- TempImageSweep.Sweep: the outer `catch` (index.ts:159-172) is modelled only for the three errors the code itself throws: "Missing Supabase environment variables" (index.ts:27-30), the cut-off `Date`'s `RangeError` and the fetch error; each becomes a `Failed` outcome with the error's message. The per-image `catch` (index.ts:132-136) is not modelled, because the storage and database calls report errors instead of throwing.
- PostDeletion.HandleDelete: the `catch` that turns a thrown error into an alert (admin.dashboard.tsx:157-160) is not modelled, because no modelled call throws.
- ContentImages.HandleSubmit: whether a database error object is an `Error` instance, which decides the message `formatErrorMessage` picks for it, is an input flag per error, since it depends on the client library's classes. The outer `catch` (admin.write.tsx:567-573) is not modelled, because no modelled call throws.
- ContentImages.UploadContentImage: the client's refusal to overwrite an existing blob (`upsert: false`) is left to the upload reply, and the insert's duplicate-key refusal to the insert reply.
- `extractDominantColor`: it uses the Canvas API and floating-point colour blending.
- `copyMarkdownToClipboard` writes to the clipboard. It builds the same snippet as `ImageMarkdown`, which the model does cover.
- `handleContentImagesChange` only runs uploads in parallel with `Promise.all`. Each upload is modelled on its own.
- `handleImageError` (image.ts:46-64) only changes DOM attributes.
- `logError` (error-handler.ts:14-31) only writes to the console.
- The cover image upload stores a blob under `public/` and records no ledger row. Its blob is modelled; its naming is an input.
- PostForm.LowerAll: only the characters whose lower case holds an ASCII letter are lowered: ASCII capitals, the Kelvin sign (to `k`) and the dotted capital I (to `i` and U+0307). Other non-ASCII capitals are kept as they are. Both forms lie outside `[a-z0-9]`, so every slug agrees with the code, but `LowerAll` itself is not the full `toLowerCase` for other scripts.
- PostForm.InsertMarkdown requires the selection to lie inside the content, which the browser's text area guarantees.
- The migration script's environment loading (migrate-images-to-table.ts:13-61) reads files and is left out.
- app/utils/markdown.ts, app/utils/date.ts, app/utils/slug.ts, app/utils/supabase.ts, app/utils/site-settings.ts and scripts/check-images.ts are not part of this model: they are rendering, locale formatting, URI encoding, query plumbing and a diagnostic printout.
- The React pages and components, the theme context and the route table are not part of this model.
- The edit page (admin.edit.$id.tsx:181-192 and 269-315) also uploads content images and syncs their rows when a post is updated. It repeats the write page's upload and sync, so it is not a separate operation of the lifecycle, and `DeletedIsFinal` covers only the modelled operations.
- Concurrency is left out, including between a sweep and a save. Every operation is one atomic step.
- JavaScript object key order in records and maps is left out. Records are datatypes and maps are Dafny maps.
- Database timestamps with microsecond precision are integers of milliseconds here.
- ImageUtils.GenerateSrcSet, ImageUtils.GetOptimizedImageUrl, TempImageSweep.Sweep: widths, numeric options and the sweep's `hours` are integers, printed in full decimal. JavaScript numbers may also be fractions (`1.5` prints as `1.5`, and `width: 0.5` is truthy) or `NaN` (falsy as an option, printed `NaN` in a srcset). Above 2^53 in magnitude, JavaScript prints the shortest digits that round-trip (`String(2**60)` is `1152921504606847000`), and from 1e21 on it uses exponent notation. The model's text matches JavaScript only for integers of magnitude at most 2^53. For the sweep this concerns only the "No temp images older than …" message for `?hours=` at or below -2^53, since a positive threshold that large already fails with "Invalid time value".
- Categories.GetCategoriesBySlugs, Authors.GetAuthorsByIds: the map holds the record's own keys. A requested `__proto__` replaces the record's prototype with its value and adds no key; what later lookups then find through that prototype is not modelled.

## Notes on the code

- An upload stores the blob first, then inserts the row, and removes the blob again when the insert fails (admin.write.tsx:283-326).
- The migration script registers an embedded URL that has no row as `active` when its blob exists (migrate-images-to-table.ts:176-212).
- The sweep drops the age filter for every `hours <= 0`, negative thresholds included (index.ts:58).
- The sweep is not the only writer of `deleted`. The dashboard's post deletion also marks rows `deleted`, whoever owns them and whatever their status, so an image that another post still embeds is marked too (admin.dashboard.tsx:95-125). The purge runs before the post's own delete, so a failed delete leaves the images already marked.

=== FILE: authors.dfy ===
/**
 * Author profiles (app/utils/authors.ts): the single and list reads with
 * their error fallbacks, and the batch lookup that maps every requested id
 * to its profile. The replies of the queries are inputs.
 */
module Authors {
  import opened Base

  /** A row of the `authors` table (timestamps left out). */
  datatype Author = Author(
    id: string,
    userId: string,
    displayName: string,
    bio: Option<string>,
    profileImageUrl: Option<string>,
    slug: string)

  /** `getAuthorById`: the row read, or null when the query fails. */
  function GetAuthorById(reply: Response<Author>): Option<Author> {
    RowOrNull(reply)
  }

  /** `getAllAuthors`: the rows read, or none when the query fails. */
  function GetAllAuthors(reply: Response<seq<Author>>): (r: seq<Author>)
    ensures reply.Failure? ==> r == []
    ensures reply.Success? ==> r == reply.value.GetOr([])
  {
    match reply
    case Failure(_) => []
    case Success(d) => d.GetOr([])
  }

  /** `getAuthorByDisplayName`: the row read, or null on any error, "not found" included. */
  function GetAuthorByDisplayName(reply: Response<Author>): Option<Author> {
    RowOrNull(reply)
  }

  /** `rows.find(author => author.id === id)` */
  function FindById(rows: seq<Author>, id: string): Option<Author> {
    Find(rows, (a: Author) => a.id == id)
  }

  /**
   * `getAuthorsByIds(ids)`: no keys for no ids; otherwise every requested id
   * is an own key of the record, except `__proto__`, whose assignment
   * replaces the record's prototype instead. After a successful batch query its value is the first row read
   * with that id, or null; after a failed one, it is what the single lookup
   * gives with that id's own reply.
   */
  function GetAuthorsByIds(
    ids: seq<string>,
    reply: Response<seq<Author>>,
    single: string -> Response<Author>): (m: map<string, Option<Author>>)
    ensures ids == [] ==> m == map[]
    ensures m.Keys == (set id | id in ids) - {ProtoKey}
    ensures reply.Success? ==> forall id :: id in m ==> m[id] == FindById(reply.value.GetOr([]), id)
    ensures reply.Failure? ==> forall id :: id in m ==> m[id] == GetAuthorById(single(id))
  {
    if |ids| == 0 then map[]
    else
      match reply
      case Failure(_) => map id | id in ids && id != ProtoKey :: GetAuthorById(single(id))
      case Success(d) => map id | id in ids && id != ProtoKey :: FindById(d.GetOr([]), id)
  }

  /**
   * After a successful batch query, a value found is a row that was read
   * and its id is the key it is filed under; an id no row has maps to null.
   */
  lemma BatchValuesMatchKeys(ids: seq<string>, rows: seq<Author>, single: string -> Response<Author>)
    ensures var m := GetAuthorsByIds(ids, Success(Some(rows)), single);
      forall id :: id in m ==>
        && (m[id].Some? ==> m[id].value.id == id && m[id].value in rows)
        && (m[id].None? <==> forall i :: 0 <= i < |rows| ==> rows[i].id != id)
  {
  }
}

=== FILE: base.dfy ===
/**
 * Shared vocabulary for the model: optional values and results, the
 * JavaScript string notions the source relies on (line terminators, the
 * whitespace `trim()` removes, `includes`, `split`, `join`, `String(n)`),
 * and small sequence predicates.
 */
module Base {

  /** `T | null` (or `T | undefined`) in the source. */
  datatype Option<+T> = None | Some(value: T) {
    function GetOr(default: T): T {
      match this
      case Some(v) => v
      case None => default
    }
  }

  /** An operation that either produces a value or fails with an error. */
  datatype Result<+R, +E> = Success(value: R) | Failure(error: E)

  /** The error object the database client reports, with its PostgreSQL or PostgREST code. */
  datatype PgError = PgError(code: string, message: string)

  /**
   * A single-row read (`.single()` or `.maybeSingle()`, or an upsert's
   * returned row): the row, or null when the query fails or finds none.
   */
  function RowOrNull<T>(reply: Response<T>): (r: Option<T>)
    ensures reply.Failure? ==> r.None?
    ensures reply.Success? ==> r == reply.value
  {
    match reply
    case Failure(_) => None
    case Success(d) => d
  }

  /**
   * The one key whose assignment on a plain JavaScript object sets the
   * object's prototype instead of adding an own property.
   */
  const ProtoKey := "__proto__"

  /** `{ data, error }` of one query: the error, or the data (`null` when there is none). */
  type Response<T> = Result<Option<T>, PgError>

  /** The characters that JavaScript's regular-expression `.` refuses to match. */
  predicate IsLineTerminator(c: char) {
    c == '\n' || c == '\r' || c == '\U{2028}' || c == '\U{2029}'
  }

  /** No line terminator among `t[lo..hi]`. */
  predicate LineFree(t: string, lo: int, hi: int) {
    forall i :: lo <= i < hi && 0 <= i < |t| ==> !IsLineTerminator(t[i])
  }

  predicate NoLineTerminator(s: string) {
    forall i :: 0 <= i < |s| ==> !IsLineTerminator(s[i])
  }

  /** The characters JavaScript's `String.prototype.trim` removes. */
  predicate IsJsWhitespace(c: char) {
    || c == ' ' || c == '\t' || c == '\U{000B}' || c == '\U{000C}'
    || c == '\U{00A0}' || c == '\U{FEFF}' || c == '\U{1680}'
    || ('\U{2000}' <= c <= '\U{200A}')
    || c == '\U{202F}' || c == '\U{205F}' || c == '\U{3000}'
    || IsLineTerminator(c)
  }

  /** `s.trim() === ""` */
  predicate IsBlank(s: string) {
    forall i :: 0 <= i < |s| ==> IsJsWhitespace(s[i])
  }

  predicate StartsWith(s: string, prefix: string) {
    |prefix| <= |s| && s[..|prefix|] == prefix
  }

  /** `s.includes(t)`: case-sensitive substring test. */
  predicate Contains(s: string, t: string)
    decreases |s|
  {
    StartsWith(s, t) || (|s| > 0 && Contains(s[1..], t))
  }

  /** A witness for `Contains`: where the substring starts. */
  lemma {:induction false} ContainsWitness(s: string, t: string, i: nat)
    requires i + |t| <= |s| && s[i..i + |t|] == t
    ensures Contains(s, t)
    decreases i
  {
    if i > 0 {
      assert s[1..][i - 1..i - 1 + |t|] == s[i..i + |t|];
      ContainsWitness(s[1..], t, i - 1);
    } else {
      assert s[..|t|] == t;
    }
  }

  /** A substring of a prefix is a substring of the whole. */
  lemma {:induction false} ContainsPrefix(a: string, b: string, t: string)
    requires Contains(a, t)
    ensures Contains(a + b, t)
    decreases |a|
  {
    if StartsWith(a, t) {
      assert (a + b)[..|t|] == a[..|t|];
    } else {
      assert (a + b)[1..] == a[1..] + b;
      ContainsPrefix(a[1..], b, t);
    }
  }

  predicate NoDuplicates<T(==)>(s: seq<T>) {
    forall i, j :: 0 <= i < j < |s| ==> s[i] != s[j]
  }

  /** Number of occurrences of `c` in `s`. */
  function Count(s: string, c: char): nat
    decreases |s|
  {
    if |s| == 0 then 0 else (if s[0] == c then 1 else 0) + Count(s[1..], c)
  }

  /** `s.split(c)` for a one-character separator. */
  function Split(s: string, c: char): (parts: seq<string>)
    ensures |parts| >= 1
    decreases |s|
  {
    if |s| == 0 then [""]
    else
      var rest := Split(s[1..], c);
      if s[0] == c then [""] + rest else [[s[0]] + rest[0]] + rest[1..]
  }

  /** `split` yields one more part than there are separators. */
  lemma {:induction false} SplitLength(s: string, c: char)
    ensures |Split(s, c)| == Count(s, c) + 1
    decreases |s|
  {
    if |s| > 0 {
      SplitLength(s[1..], c);
    }
  }

  lemma {:induction false} CountPositive(s: string, c: char)
    ensures Count(s, c) > 0 <==> c in s
    decreases |s|
  {
    if |s| > 0 {
      CountPositive(s[1..], c);
      assert c in s <==> s[0] == c || c in s[1..];
    }
  }

  /** `split` yields at least two parts exactly when the separator occurs. */
  lemma SplitHasTwoParts(s: string, c: char)
    ensures |Split(s, c)| >= 2 <==> c in s
  {
    SplitLength(s, c);
    CountPositive(s, c);
  }

  /** `xs.join(sep)` */
  function Join(xs: seq<string>, sep: string): string
    decreases |xs|
  {
    if |xs| == 0 then ""
    else if |xs| == 1 then xs[0]
    else xs[0] + sep + Join(xs[1..], sep)
  }

  function DigitChar(d: nat): char
    requires d < 10
  {
    "0123456789"[d]
  }

  predicate IsDigit(c: char) {
    '0' <= c <= '9'
  }

  /** `String(n)` for a non-negative integer: its decimal digits. */
  function NatToString(n: nat): (r: string)
    ensures |r| >= 1
    ensures forall i :: 0 <= i < |r| ==> IsDigit(r[i])
    decreases n
  {
    if n < 10 then [DigitChar(n)] else NatToString(n / 10) + [DigitChar(n % 10)]
  }

  /** `String(n)` for an integer. */
  function IntToString(n: int): (r: string)
    ensures |r| >= 1
    ensures forall i :: 0 <= i < |r| ==> IsDigit(r[i]) || r[i] == '-'
  {
    if n < 0 then "-" + NatToString(-n) else NatToString(n)
  }

  /** The elements of `xs` that satisfy `p`, in their original order. */
  function Filter<T(==,!new)>(xs: seq<T>, p: T -> bool): (r: seq<T>)
    ensures |r| <= |xs|
    ensures forall x :: x in r <==> x in xs && p(x)
    ensures (forall i :: 0 <= i < |xs| ==> !p(xs[i])) ==> r == []
    decreases |xs|
  {
    if |xs| == 0 then []
    else
      var rest := Filter(xs[..|xs| - 1], p);
      if p(xs[|xs| - 1]) then rest + [xs[|xs| - 1]] else rest
  }

  /** Selecting from a sequence extended by one element. */
  lemma FilterAppend<T(!new)>(xs: seq<T>, x: T, p: T -> bool)
    ensures Filter(xs + [x], p) == Filter(xs, p) + (if p(x) then [x] else [])
  {
    assert (xs + [x])[..|xs|] == xs;
  }

  /** Leaving out an element makes the selection strictly shorter. */
  lemma {:induction false} FilterShrinks<T(!new)>(xs: seq<T>, p: T -> bool, i: int)
    requires 0 <= i < |xs| && !p(xs[i])
    ensures |Filter(xs, p)| < |xs|
    decreases |xs|
  {
    var n := |xs| - 1;
    if i < n {
      FilterShrinks(xs[..n], p, i);
    }
  }

  /** A text without the separator splits into itself. */
  lemma {:induction false} SplitWithoutSeparator(x: string, c: char)
    requires c !in x
    ensures Split(x, c) == [x]
    decreases |x|
  {
    if |x| > 0 {
      assert c !in x[1..];
      SplitWithoutSeparator(x[1..], c);
      assert [x[0]] + x[1..] == x;
    }
  }

  /** Splitting at the first separator: the part before it, then the split of the rest. */
  lemma {:induction false} SplitAtFirstSeparator(x: string, c: char, y: string)
    requires c !in x
    ensures Split(x + [c] + y, c) == [x] + Split(y, c)
    decreases |x|
  {
    if |x| == 0 {
      assert x + [c] + y == [c] + y;
      assert ([c] + y)[1..] == y;
    } else {
      var t := x + [c] + y;
      assert t[1..] == x[1..] + [c] + y;
      assert c !in x[1..];
      SplitAtFirstSeparator(x[1..], c, y);
      assert [x[0]] + x[1..] == x;
    }
  }

  /** `xs.join(c).split(c)` gives back `xs` when no element holds the separator. */
  lemma {:induction false} SplitJoin(xs: seq<string>, c: char)
    requires |xs| >= 1
    requires forall i :: 0 <= i < |xs| ==> c !in xs[i]
    ensures Split(Join(xs, [c]), c) == xs
    decreases |xs|
  {
    if |xs| == 1 {
      SplitWithoutSeparator(xs[0], c);
    } else {
      SplitAtFirstSeparator(xs[0], c, Join(xs[1..], [c]));
      SplitJoin(xs[1..], c);
      assert [xs[0]] + xs[1..] == xs;
    }
  }

  /** `xs.find(p)`: the first element that satisfies `p`. */
  function Find<T>(xs: seq<T>, p: T -> bool): (r: Option<T>)
    ensures r.None? <==> forall i :: 0 <= i < |xs| ==> !p(xs[i])
    ensures r.Some? ==>
      exists i :: 0 <= i < |xs| && xs[i] == r.value && p(xs[i]) && forall j :: 0 <= j < i ==> !p(xs[j])
    decreases |xs|
  {
    if |xs| == 0 then None
    else if p(xs[0]) then Some(xs[0])
    else
      var r := Find(xs[1..], p);
      assert forall i :: 1 <= i < |xs| ==> xs[i] == xs[1..][i - 1];
      r
  }

  /** When at most one element satisfies `p`, `find` returns that element. */
  lemma FindUnique<T>(xs: seq<T>, p: T -> bool, i: int)
    requires 0 <= i < |xs| && p(xs[i])
    requires forall j :: 0 <= j < |xs| && p(xs[j]) ==> j == i
    ensures Find(xs, p) == Some(xs[i])
  {
    var r := Find(xs, p);
    var k :| 0 <= k < |xs| && xs[k] == r.value && p(xs[k]) && forall j :: 0 <= j < k ==> !p(xs[j]);
  }
}

=== FILE: categories.dfy ===
/**
 * Post categories (app/utils/categories.ts): the built-in defaults that
 * stand in when the `categories` table cannot be read, the lookup by slug
 * with that fallback, and the batch lookup that maps every requested slug
 * to its record. The replies of the queries are inputs.
 */
module Categories {
  import opened Base

  /** A row of the `categories` table; `text` is the source's `label`. */
  datatype Category = Category(
    id: string,
    slug: string,
    text: string,
    description: string,
    displayOrder: int,
    isActive: bool)

  /** A built-in category: its id is its slug, and it is active. */
  function Builtin(slug: string, text: string, description: string, order: int): Category {
    Category(slug, slug, text, description, order, true)
  }

  const MobilityDescription := "움직임, 여행, 그리고 장소와 경험을 연결하는 이동수단에 대한 탐구."
  const SystemDescription := "우리의 디지털 삶을 움직이는 시스템을 구축하고, 최적화하며 이해하기."
  const AssetDescription := "부와 투자, 그리고 장기적 가치를 구축하는 철학에 대한 생각."
  const InnerSideDescription := "철학, 디자인 원칙, 그리고 우리의 사고를 형성하는 핵심 아이디어에 대한 깊은 성찰."

  /** The slugs of the built-in categories, in display order. */
  const DefaultSlugs: seq<string> := ["mobility", "system", "asset", "inner-side"]

  /**
   * `getDefaultCategories()`: four active categories with distinct slugs,
   * each with its slug as id, in display order 1 to 4.
   */
  function DefaultCategories(): (cs: seq<Category>)
    ensures |cs| == 4
    ensures forall i :: 0 <= i < 4 ==> cs[i].slug == DefaultSlugs[i]
    ensures forall i :: 0 <= i < |cs| ==> cs[i].id == cs[i].slug && cs[i].isActive
    ensures forall i :: 0 <= i < |cs| ==> cs[i].displayOrder == i + 1
    ensures forall i, j :: 0 <= i < j < |cs| ==> cs[i].slug != cs[j].slug
  {
    [ Builtin("mobility", "모빌리티", MobilityDescription, 1),
      Builtin("system", "시스템", SystemDescription, 2),
      Builtin("asset", "자산", AssetDescription, 3),
      Builtin("inner-side", "내면", InnerSideDescription, 4) ]
  }

  /** `getActiveCategories`: the rows read, or the defaults when the query fails. */
  function GetActiveCategories(reply: Response<seq<Category>>): (cs: seq<Category>)
    ensures reply.Failure? ==> cs == DefaultCategories()
    ensures reply.Success? ==> cs == reply.value.GetOr([])
  {
    match reply
    case Failure(_) => DefaultCategories()
    case Success(d) => d.GetOr([])
  }

  /** `rows.find(cat => cat.slug === slug)` */
  function FindBySlug(rows: seq<Category>, slug: string): Option<Category> {
    Find(rows, (c: Category) => c.slug == slug)
  }

  /**
   * `getCategoryBySlug`: the row read; when the query fails, the built-in
   * category with that slug, or null when there is none.
   */
  function GetCategoryBySlug(slug: string, reply: Response<Category>): (r: Option<Category>)
    ensures reply.Success? ==> r == reply.value
    ensures reply.Failure? ==> (r.Some? <==> slug in DefaultSlugs)
    ensures reply.Failure? && r.Some? ==> r.value in DefaultCategories() && r.value.slug == slug
  {
    match reply
    case Failure(_) => FindBySlug(DefaultCategories(), slug)
    case Success(d) => d
  }

  /** On a failed query, each built-in slug finds its own built-in category. */
  lemma FallbackFindsBuiltin(i: int, e: PgError)
    requires 0 <= i < 4
    ensures GetCategoryBySlug(DefaultSlugs[i], Failure(e)) == Some(DefaultCategories()[i])
  {
    var cs := DefaultCategories();
    FindUnique(cs, (c: Category) => c.slug == DefaultSlugs[i], i);
  }

  /** `isValidCategory(slug)`: the lookup found a category. */
  function IsValidCategory(slug: string, reply: Response<Category>): (b: bool)
    ensures reply.Failure? ==> (b <==> slug in DefaultSlugs)
    ensures reply.Success? ==> (b <==> reply.value.Some?)
  {
    GetCategoryBySlug(slug, reply).Some?
  }

  /**
   * `getCategoriesBySlugs(slugs)`: no keys for no slugs; otherwise every
   * requested slug is an own key of the record, except `__proto__`, whose
   * assignment replaces the record's prototype instead. After a successful batch query its value is the
   * first row read with that slug, or null; after a failed one, it is what
   * the single lookup gives with that slug's own reply.
   */
  function GetCategoriesBySlugs(
    slugs: seq<string>,
    reply: Response<seq<Category>>,
    single: string -> Response<Category>): (m: map<string, Option<Category>>)
    ensures slugs == [] ==> m == map[]
    ensures m.Keys == (set s | s in slugs) - {ProtoKey}
    ensures reply.Success? ==> forall s :: s in m ==> m[s] == FindBySlug(reply.value.GetOr([]), s)
    ensures reply.Failure? ==> forall s :: s in m ==> m[s] == GetCategoryBySlug(s, single(s))
  {
    if |slugs| == 0 then map[]
    else
      match reply
      case Failure(_) => map s | s in slugs && s != ProtoKey :: GetCategoryBySlug(s, single(s))
      case Success(d) => map s | s in slugs && s != ProtoKey :: FindBySlug(d.GetOr([]), s)
  }

  /** After a successful batch query, every value found carries the slug it is filed under and was read. */
  lemma BatchValuesMatchKeys(slugs: seq<string>, rows: seq<Category>, single: string -> Response<Category>)
    ensures var m := GetCategoriesBySlugs(slugs, Success(Some(rows)), single);
      forall s :: s in m && m[s].Some? ==> m[s].value.slug == s && m[s].value in rows
  {
  }
}

=== FILE: cleanup.dfy ===
/**
 * The scheduled sweep of supabase/functions/cleanup-temp-images/index.ts:
 * every `temp` row older than the threshold (24 hours unless the `hours`
 * query parameter says otherwise; no age limit when it is not positive) has
 * its blob removed and is marked `deleted`. A failed removal is reported but
 * does not stop the row from being marked; a path without a folder part is
 * reported and the row left alone. The environment, the request, the clock
 * and the replies of the storage and database calls are inputs.
 */
module TempImageSweep {
  import opened Base
  import opened ImageLedger

  /** `60 * 60 * 1000` */
  const HourMs := 3600000

  /** The largest distance from the epoch, in milliseconds, that a JavaScript `Date` can hold. */
  const MaxTimeMs := 8640000000000000

  /** `new Date(t)` is a valid date: otherwise `toISOString()` throws a `RangeError`. */
  predicate ValidTime(t: int) {
    -MaxTimeMs <= t <= MaxTimeMs
  }

  /**
   * The cut-off `Date.now() - hours * 3600000` is a valid date, or there is
   * no cut-off because the threshold is not positive.
   */
  predicate CutoffValid(hours: int, now: int) {
    hours > 0 ==> ValidTime(now - hours * HourMs)
  }

  /** The threshold when the request does not give one. */
  const DefaultHours := 24

  /** `SUPABASE_URL` and `SUPABASE_SERVICE_ROLE_KEY`; a missing variable reads as "". */
  datatype Env = Env(supabaseUrl: string, serviceKey: string)

  /**
   * One invocation: whether it is a CORS preflight (`OPTIONS`), the `hours`
   * query parameter (`None` when absent or empty) and `Date.now()`.
   */
  datatype Request = Request(isPreflight: bool, hours: Option<int>, now: int)

  /**
   * The replies of the calls the sweep makes: the fetch's error message,
   * the storage removal's error for each path and the status update's error
   * for each id.
   */
  datatype SweepReplies = SweepReplies(
    fetchError: Option<string>,
    removeError: string -> Option<string>,
    updateError: string -> Option<string>)

  /** The JSON body the function answers with. */
  datatype Report =
    | Preflight
    | Failed(error: string)
    | NothingToClean(message: string, hoursThreshold: int)
    | Cleaned(
        message: string,
        deletedCount: nat,
        totalFound: nat,
        hoursThreshold: int,
        deletedPaths: seq<string>,
        errors: Option<seq<string>>)

  /** `hoursParam ? parseInt(hoursParam, 10) : 24` */
  function Hours(param: Option<int>): int {
    param.GetOr(DefaultHours)
  }

  /**
   * The rows the sweep fetches: `temp`, and when the threshold is positive,
   * created strictly before `now - hours`.
   */
  predicate Stale(r: ImageRow, hours: int, now: int) {
    r.status == Temp && (hours > 0 ==> r.createdAt < now - hours * HourMs)
  }

  function SelectStale(l: Ledger, hours: int, now: int): seq<ImageRow> {
    Filter(l, (r: ImageRow) => Stale(r, hours, now))
  }

  /** `storage_path.split("/").length >= 2`: the path names a folder. */
  predicate ValidPath(path: string) {
    |Split(path, '/')| >= 2
  }

  /** A fetched row ends up `deleted`: its path is valid and its update succeeded. */
  predicate Marked(r: ImageRow, rp: SweepReplies) {
    ValidPath(r.storagePath) && rp.updateError(r.id).None?
  }

  /** A fetched row's blob is removed: its path is valid and the removal succeeded. */
  predicate Removed(r: ImageRow, rp: SweepReplies) {
    ValidPath(r.storagePath) && rp.removeError(r.storagePath).None?
  }

  /** A fetched row that is handled without any error. */
  predicate Clean(r: ImageRow, rp: SweepReplies) {
    Removed(r, rp) && Marked(r, rp)
  }

  function MarkedRows(rows: seq<ImageRow>, rp: SweepReplies): seq<ImageRow> {
    Filter(rows, (r: ImageRow) => Marked(r, rp))
  }

  function RemovedPaths(rows: seq<ImageRow>, rp: SweepReplies): set<string> {
    PathsWhere(rows, (r: ImageRow) => Removed(r, rp))
  }

  /** Where the loop is: the store, the `deletedPaths` so far and the `errors` so far. */
  datatype SweepState = SweepState(store: Store, deletedPaths: seq<string>, errors: seq<string>)

  function InvalidPathError(path: string): string {
    "Invalid storage path: " + path
  }

  function RemoveError(path: string, msg: string): string {
    "Failed to delete " + path + " from storage: " + msg
  }

  function UpdateError(id: string, msg: string): string {
    "Failed to update " + id + " in database: " + msg
  }

  /** One turn of the loop over the fetched rows. */
  function SweepRow(s: SweepState, r: ImageRow, rp: SweepReplies): SweepState {
    var path := r.storagePath;
    if !ValidPath(path) then s.(errors := s.errors + [InvalidPathError(path)])
    else
      var removeError := rp.removeError(path);
      var blobs := if removeError.None? then s.store.blobs - {path} else s.store.blobs;
      var errors := if removeError.Some? then s.errors + [RemoveError(path, removeError.value)] else s.errors;
      match rp.updateError(r.id)
      case Some(msg) => SweepState(Store(s.store.ledger, blobs), s.deletedPaths, errors + [UpdateError(r.id, msg)])
      case None => SweepState(Store(SetStatus(s.store.ledger, [r.id], Deleted), blobs), s.deletedPaths + [path], errors)
  }

  /**
   * The loop over the fetched rows, in order. Its effect in closed form: the
   * rows marked are exactly those with a valid path whose update succeeded,
   * the blobs removed are exactly those with a valid path whose removal
   * succeeded, `deletedPaths` lists the marked rows' paths in order, the
   * error list is empty exactly when every row went through cleanly, and
   * every row that was not marked contributed at least one error.
   */
  function SweepRows(st: Store, rows: seq<ImageRow>, rp: SweepReplies): (s: SweepState)
    ensures s.store.ledger == SetStatus(st.ledger, Ids(MarkedRows(rows, rp)), Deleted)
    ensures s.store.blobs == st.blobs - RemovedPaths(rows, rp)
    ensures s.deletedPaths == Paths(MarkedRows(rows, rp))
    ensures s.errors == [] <==> forall i :: 0 <= i < |rows| ==> Clean(rows[i], rp)
    ensures |s.errors| + |s.deletedPaths| >= |rows|
    ensures forall i :: 0 <= i < |rows| && !ValidPath(rows[i].storagePath) ==>
      InvalidPathError(rows[i].storagePath) in s.errors
    ensures forall i :: 0 <= i < |rows| && ValidPath(rows[i].storagePath) && rp.removeError(rows[i].storagePath).Some? ==>
      RemoveError(rows[i].storagePath, rp.removeError(rows[i].storagePath).value) in s.errors
    ensures forall i :: 0 <= i < |rows| && ValidPath(rows[i].storagePath) && rp.updateError(rows[i].id).Some? ==>
      UpdateError(rows[i].id, rp.updateError(rows[i].id).value) in s.errors
    decreases |rows|
  {
    if |rows| == 0 then SweepState(st, [], [])
    else
      var prev := SweepRows(st, rows[..|rows| - 1], rp);
      SweepRowLedger(st, rows, rp, prev);
      SweepRowBlobs(st, rows, rp, prev);
      SweepRowPaths(rows, rp, prev);
      SweepRowErrors(rows, rp, prev);
      SweepRow(prev, rows[|rows| - 1], rp)
  }

  /** The last row's turn extends the marked ids by its own id when it is marked. */
  lemma SweepRowLedger(st: Store, rows: seq<ImageRow>, rp: SweepReplies, prev: SweepState)
    requires |rows| > 0
    requires prev.store.ledger == SetStatus(st.ledger, Ids(MarkedRows(rows[..|rows| - 1], rp)), Deleted)
    ensures SweepRow(prev, rows[|rows| - 1], rp).store.ledger == SetStatus(st.ledger, Ids(MarkedRows(rows, rp)), Deleted)
  {
    var n := |rows| - 1;
    var r := rows[n];
    assert rows == rows[..n] + [r];
    assert MarkedRows(rows, rp) == MarkedRows(rows[..n], rp) + (if Marked(r, rp) then [r] else []);
    assert Ids(MarkedRows(rows, rp)) == Ids(MarkedRows(rows[..n], rp)) + (if Marked(r, rp) then [r.id] else []);
    if Marked(r, rp) {
      SetStatusTwice(st.ledger, Ids(MarkedRows(rows[..n], rp)), [r.id], Deleted);
    }
  }

  /** The last row's turn removes its blob exactly when its path is valid and the removal succeeds. */
  lemma SweepRowBlobs(st: Store, rows: seq<ImageRow>, rp: SweepReplies, prev: SweepState)
    requires |rows| > 0
    requires prev.store.blobs == st.blobs - RemovedPaths(rows[..|rows| - 1], rp)
    ensures SweepRow(prev, rows[|rows| - 1], rp).store.blobs == st.blobs - RemovedPaths(rows, rp)
  {
    var n := |rows| - 1;
    assert rows == rows[..n] + [rows[n]];
    PathsWhereAppend(rows[..n], rows[n], (x: ImageRow) => Removed(x, rp));
  }

  /** The last row's turn appends its path to `deletedPaths` exactly when it is marked. */
  lemma SweepRowPaths(rows: seq<ImageRow>, rp: SweepReplies, prev: SweepState)
    requires |rows| > 0
    requires prev.deletedPaths == Paths(MarkedRows(rows[..|rows| - 1], rp))
    ensures SweepRow(prev, rows[|rows| - 1], rp).deletedPaths == Paths(MarkedRows(rows, rp))
  {
    var n := |rows| - 1;
    var r := rows[n];
    assert rows == rows[..n] + [r];
    assert MarkedRows(rows, rp) == MarkedRows(rows[..n], rp) + (if Marked(r, rp) then [r] else []);
    assert Paths(MarkedRows(rows, rp)) == Paths(MarkedRows(rows[..n], rp)) + (if Marked(r, rp) then [r.storagePath] else []);
  }

  /** The last row's turn keeps the earlier errors and adds its own, if it has any. */
  lemma SweepRowErrors(rows: seq<ImageRow>, rp: SweepReplies, prev: SweepState)
    requires |rows| > 0
    requires var p := rows[..|rows| - 1];
      && (prev.errors == [] <==> forall i :: 0 <= i < |p| ==> Clean(p[i], rp))
      && |prev.errors| + |prev.deletedPaths| >= |p|
      && (forall i :: 0 <= i < |p| && !ValidPath(p[i].storagePath) ==>
        InvalidPathError(p[i].storagePath) in prev.errors)
      && (forall i :: 0 <= i < |p| && ValidPath(p[i].storagePath) && rp.removeError(p[i].storagePath).Some? ==>
        RemoveError(p[i].storagePath, rp.removeError(p[i].storagePath).value) in prev.errors)
      && (forall i :: 0 <= i < |p| && ValidPath(p[i].storagePath) && rp.updateError(p[i].id).Some? ==>
        UpdateError(p[i].id, rp.updateError(p[i].id).value) in prev.errors)
    ensures var s := SweepRow(prev, rows[|rows| - 1], rp);
      && (s.errors == [] <==> forall i :: 0 <= i < |rows| ==> Clean(rows[i], rp))
      && |s.errors| + |s.deletedPaths| >= |rows|
      && (forall i :: 0 <= i < |rows| && !ValidPath(rows[i].storagePath) ==>
        InvalidPathError(rows[i].storagePath) in s.errors)
      && (forall i :: 0 <= i < |rows| && ValidPath(rows[i].storagePath) && rp.removeError(rows[i].storagePath).Some? ==>
        RemoveError(rows[i].storagePath, rp.removeError(rows[i].storagePath).value) in s.errors)
      && (forall i :: 0 <= i < |rows| && ValidPath(rows[i].storagePath) && rp.updateError(rows[i].id).Some? ==>
        UpdateError(rows[i].id, rp.updateError(rows[i].id).value) in s.errors)
  {
    var n := |rows| - 1;
    var p := rows[..n];
    var s := SweepRow(prev, rows[n], rp);
    assert forall i :: 0 <= i < n ==> rows[i] == p[i];
    assert s.errors[..|prev.errors|] == prev.errors;
    assert forall e :: e in prev.errors ==> e in s.errors;
  }

  /**
   * The function's answer to one invocation. A preflight, missing
   * environment variables, a cut-off `Date` out of range (whose
   * `toISOString` throws "Invalid time value" into the outer `catch`), a
   * failed fetch and an empty selection leave the store as it was; otherwise the fetched rows are swept in order.
   */
  function Sweep(st: Store, env: Env, req: Request, rp: SweepReplies): (out: (Store, Report))
    ensures req.isPreflight ==> out == (st, Preflight)
    ensures !req.isPreflight && (env.supabaseUrl == "" || env.serviceKey == "") ==>
      out == (st, Failed("Missing Supabase environment variables"))
    ensures out.1.Failed? || out.1.NothingToClean? || out.1.Preflight? ==> out.0 == st
    ensures && !req.isPreflight && env.supabaseUrl != "" && env.serviceKey != ""
            && CutoffValid(Hours(req.hours), req.now) && rp.fetchError.Some? ==>
      out == (st, Failed("Failed to fetch temp images: " + rp.fetchError.value))
    ensures out.1.Preflight? ==> req.isPreflight
    ensures !req.isPreflight && env.supabaseUrl != "" && env.serviceKey != "" && !CutoffValid(Hours(req.hours), req.now) ==>
      out == (st, Failed("Invalid time value"))
    ensures out.1.NothingToClean? <==>
      !req.isPreflight && env.supabaseUrl != "" && env.serviceKey != "" && CutoffValid(Hours(req.hours), req.now)
      && rp.fetchError.None? && SelectStale(st.ledger, Hours(req.hours), req.now) == []
    ensures out.1.Cleaned? ==>
      var rows := SelectStale(st.ledger, Hours(req.hours), req.now);
      && out.1.totalFound == |rows| > 0
      && out.1.deletedCount == |out.1.deletedPaths| <= out.1.totalFound
      && out.1.deletedPaths == Paths(MarkedRows(rows, rp))
      && out.0.ledger == SetStatus(st.ledger, Ids(MarkedRows(rows, rp)), Deleted)
      && out.0.blobs == st.blobs - RemovedPaths(rows, rp)
      && (out.1.errors.None? <==> forall i :: 0 <= i < |rows| ==> Clean(rows[i], rp))
    ensures out.1.Cleaned? || out.1.NothingToClean? ==> out.1.hoursThreshold == Hours(req.hours)
    ensures Reaches(env, req, rp) && SelectStale(st.ledger, Hours(req.hours), req.now) != [] ==> out.1.Cleaned?
    ensures out.1.NothingToClean? ==>
      out.1.message == "No temp images older than " + IntToString(Hours(req.hours)) + " hours to clean up"
    ensures out.1.Cleaned? ==> out.1.message == "Cleanup completed: " + NatToString(out.1.deletedCount) + " images deleted"
  {
    if req.isPreflight then (st, Preflight)
    else if env.supabaseUrl == "" || env.serviceKey == "" then (st, Failed("Missing Supabase environment variables"))
    else
      var hours := Hours(req.hours);
      if !CutoffValid(hours, req.now) then (st, Failed("Invalid time value"))
      else match rp.fetchError
      case Some(msg) => (st, Failed("Failed to fetch temp images: " + msg))
      case None =>
        var rows := SelectStale(st.ledger, hours, req.now);
        if |rows| == 0 then
          (st, NothingToClean("No temp images older than " + IntToString(hours) + " hours to clean up", hours))
        else
          var s := SweepRows(st, rows, rp);
          var deleted := |s.deletedPaths|;
          assert deleted <= |rows|;
          (s.store, Cleaned(
            "Cleanup completed: " + NatToString(deleted) + " images deleted",
            deleted, |rows|, hours, s.deletedPaths,
            if |s.errors| > 0 then Some(s.errors) else None))
  }

  /**
   * `?hours=3000000000` puts the cut-off before the earliest valid `Date`
   * for any clock reading up to about the year 65000, so the run fails
   * before the fetch and changes nothing.
   */
  lemma HugeThresholdFails(st: Store, env: Env, now: int, rp: SweepReplies)
    requires env.supabaseUrl != "" && env.serviceKey != "" && 0 <= now <= 2000000000000000
    ensures Sweep(st, env, Request(false, Some(3000000000), now), rp) == (st, Failed("Invalid time value"))
  {
    assert Hours(Some(3000000000)) == 3000000000;
    assert !CutoffValid(3000000000, now);
  }

  /** A run that reaches the rows: not a preflight, configured, a valid cut-off, and the fetch succeeded. */
  predicate Reaches(env: Env, req: Request, rp: SweepReplies) {
    && !req.isPreflight && env.supabaseUrl != "" && env.serviceKey != ""
    && CutoffValid(Hours(req.hours), req.now) && rp.fetchError.None?
  }

  /** The table after a sweep, in closed form: the marked stale rows become `deleted`. */
  function SweptLedger(l: Ledger, env: Env, req: Request, rp: SweepReplies): Ledger {
    if Reaches(env, req, rp)
    then SetStatus(l, Ids(MarkedRows(SelectStale(l, Hours(req.hours), req.now), rp)), Deleted)
    else l
  }

  lemma SweepLedger(st: Store, env: Env, req: Request, rp: SweepReplies)
    ensures Sweep(st, env, req, rp).0.ledger == SweptLedger(st.ledger, env, req, rp)
  {
    var rows := SelectStale(st.ledger, Hours(req.hours), req.now);
    if Reaches(env, req, rp) && |rows| == 0 {
      assert MarkedRows(rows, rp) == [];
      assert SetStatus(st.ledger, [], Deleted) == st.ledger;
    }
  }

  /**
   * With unique ids, a sweep sets to `deleted` exactly the stale `temp` rows
   * with a valid path whose update succeeded, and changes nothing else in any
   * row; in particular rows that are `active`, younger than the threshold, or
   * stored under a path without a folder keep their status.
   */
  lemma SweepMarksExactlyStale(st: Store, env: Env, req: Request, rp: SweepReplies)
    requires UniqueIds(st.ledger)
    ensures var l := Sweep(st, env, req, rp).0.ledger;
      && |l| == |st.ledger|
      && forall i :: 0 <= i < |l| ==>
        if Reaches(env, req, rp) && Stale(st.ledger[i], Hours(req.hours), req.now) && Marked(st.ledger[i], rp)
        then l[i] == st.ledger[i].(status := Deleted)
        else l[i] == st.ledger[i]
  {
    SweepLedger(st, env, req, rp);
    SweptLedgerSpec(st.ledger, env, req, rp);
  }

  /** The closed form of the swept table, row by row. */
  lemma SweptLedgerSpec(l: Ledger, env: Env, req: Request, rp: SweepReplies)
    requires UniqueIds(l)
    ensures var l' := SweptLedger(l, env, req, rp);
      && |l'| == |l|
      && forall i :: 0 <= i < |l| ==>
        if Reaches(env, req, rp) && Stale(l[i], Hours(req.hours), req.now) && Marked(l[i], rp)
        then l'[i] == l[i].(status := Deleted)
        else l'[i] == l[i]
  {
    var hours := Hours(req.hours);
    var rows := SelectStale(l, hours, req.now);
    var q := (r: ImageRow) => Stale(r, hours, req.now) && Marked(r, rp);
    if Reaches(env, req, rp) {
      var sel := MarkedRows(rows, rp);
      assert forall x :: x in sel <==> x in l && q(x);
      forall i | 0 <= i < |l|
        ensures l[i].id in Ids(sel) <==> q(l[i])
      {
        IdSelected(l, sel, q, i);
      }
    }
  }

  /** A `deleted` row stays `deleted`, whatever the sweep's inputs. */
  lemma SweepKeepsDeleted(st: Store, env: Env, req: Request, rp: SweepReplies, i: int)
    requires 0 <= i < |st.ledger| && st.ledger[i].status == Deleted
    ensures var l := Sweep(st, env, req, rp).0.ledger;
      |l| == |st.ledger| && l[i] == st.ledger[i]
  {
  }

  /**
   * The age gate: with the default threshold, a `temp` row created less
   * than 24 hours before `now`, or exactly 24 hours before, is kept.
   */
  lemma YoungRowsSurvive(st: Store, env: Env, now: int, rp: SweepReplies, i: int)
    requires UniqueIds(st.ledger) && 0 <= i < |st.ledger|
    requires st.ledger[i].createdAt >= now - 24 * HourMs
    ensures Sweep(st, env, Request(false, None, now), rp).0.ledger[i] == st.ledger[i]
  {
    SweepMarksExactlyStale(st, env, Request(false, None, now), rp);
  }

  /** A threshold that is zero or negative sweeps every `temp` row, however recent. */
  lemma NoThresholdSweepsAllTemp(st: Store, env: Env, h: int, now: int, rp: SweepReplies, i: int)
    requires UniqueIds(st.ledger) && 0 <= i < |st.ledger|
    requires h <= 0 && st.ledger[i].status == Temp
    requires env.supabaseUrl != "" && env.serviceKey != "" && rp.fetchError.None?
    requires ValidPath(st.ledger[i].storagePath) && rp.updateError(st.ledger[i].id).None?
    ensures Sweep(st, env, Request(false, Some(h), now), rp).0.ledger[i].status == Deleted
  {
    SweepMarksExactlyStale(st, env, Request(false, Some(h), now), rp);
  }

  /**
   * A storage failure does not stop the row from being marked: the blob
   * stays, the failure is reported, and the row is `deleted`.
   */
  lemma StorageFailureStillMarks(st: Store, env: Env, req: Request, rp: SweepReplies, i: int)
    requires UniqueIds(st.ledger) && 0 <= i < |st.ledger|
    requires Reaches(env, req, rp)
    requires Stale(st.ledger[i], Hours(req.hours), req.now) && ValidPath(st.ledger[i].storagePath)
    requires rp.removeError(st.ledger[i].storagePath).Some? && rp.updateError(st.ledger[i].id).None?
    requires st.ledger[i].storagePath in st.blobs
    requires forall j :: 0 <= j < |st.ledger| && st.ledger[j].storagePath == st.ledger[i].storagePath ==> j == i
    ensures var out := Sweep(st, env, req, rp);
      && out.0.ledger[i].status == Deleted
      && st.ledger[i].storagePath in out.0.blobs
      && out.1.Cleaned? && out.1.errors.Some?
      && RemoveError(st.ledger[i].storagePath, rp.removeError(st.ledger[i].storagePath).value) in out.1.errors.value
  {
    var rows := SelectStale(st.ledger, Hours(req.hours), req.now);
    var r := st.ledger[i];
    assert r in rows;
    var k :| 0 <= k < |rows| && rows[k] == r;
    assert !Clean(rows[k], rp);
    SweepMarksExactlyStale(st, env, req, rp);
    var out := Sweep(st, env, req, rp);
  }

  /**
   * A second run with the same request fetches exactly the rows the first
   * one fetched but could not mark; so when every fetched row was marked,
   * the second run finds nothing and changes nothing.
   */
  lemma SecondRunFetchesLeftovers(st: Store, env: Env, req: Request, rp: SweepReplies)
    requires UniqueIds(st.ledger) && Reaches(env, req, rp)
    ensures var st1 := Sweep(st, env, req, rp).0;
      var hours := Hours(req.hours);
      forall x :: x in SelectStale(st1.ledger, hours, req.now) <==>
        x in SelectStale(st.ledger, hours, req.now) && !Marked(x, rp)
  {
    SweepLedger(st, env, req, rp);
    SweptLeftovers(st.ledger, env, req, rp);
  }

  /** The stale rows of the swept table are the stale rows that were not marked. */
  lemma SweptLeftovers(l: Ledger, env: Env, req: Request, rp: SweepReplies)
    requires UniqueIds(l) && Reaches(env, req, rp)
    ensures var hours := Hours(req.hours);
      forall x :: x in SelectStale(SweptLedger(l, env, req, rp), hours, req.now) <==>
        x in SelectStale(l, hours, req.now) && !Marked(x, rp)
  {
    var hours := Hours(req.hours);
    var l1 := SweptLedger(l, env, req, rp);
    SweptLedgerSpec(l, env, req, rp);
    forall x
      ensures x in SelectStale(l1, hours, req.now) <==> x in SelectStale(l, hours, req.now) && !Marked(x, rp)
    {
      if x in SelectStale(l1, hours, req.now) {
        var i :| 0 <= i < |l1| && l1[i] == x;
        assert l1[i] == l[i];
      }
      if x in SelectStale(l, hours, req.now) && !Marked(x, rp) {
        var i :| 0 <= i < |l| && l[i] == x;
        assert l1[i] == l[i];
      }
    }
  }

  /** When the first run marked every row it fetched, a second run reports nothing to clean and changes nothing. */
  lemma CompleteSweepIsFinal(st: Store, env: Env, req: Request, rp: SweepReplies)
    requires UniqueIds(st.ledger) && Reaches(env, req, rp)
    requires forall x :: x in SelectStale(st.ledger, Hours(req.hours), req.now) ==> Marked(x, rp)
    ensures var st1 := Sweep(st, env, req, rp).0;
      var out := Sweep(st1, env, req, rp);
      out.1.NothingToClean? && out.0 == st1
  {
    var st1 := Sweep(st, env, req, rp).0;
    SweepLedger(st, env, req, rp);
    SweptNoLeftovers(st.ledger, env, req, rp);
    EmptySelectionIsNoop(st1, env, req, rp);
  }

  /** When every stale row is marked, the swept table has no stale row left. */
  lemma SweptNoLeftovers(l: Ledger, env: Env, req: Request, rp: SweepReplies)
    requires UniqueIds(l) && Reaches(env, req, rp)
    requires forall x :: x in SelectStale(l, Hours(req.hours), req.now) ==> Marked(x, rp)
    ensures SelectStale(SweptLedger(l, env, req, rp), Hours(req.hours), req.now) == []
  {
    SweptLeftovers(l, env, req, rp);
    var again := SelectStale(SweptLedger(l, env, req, rp), Hours(req.hours), req.now);
    assert forall k :: 0 <= k < |again| ==> again[k] in again;
  }

  /** When no row is stale, a sweep that reaches the rows reports nothing to clean and changes nothing. */
  lemma EmptySelectionIsNoop(st: Store, env: Env, req: Request, rp: SweepReplies)
    requires Reaches(env, req, rp) && SelectStale(st.ledger, Hours(req.hours), req.now) == []
    ensures Sweep(st, env, req, rp).0 == st
    ensures Sweep(st, env, req, rp).1.NothingToClean?
  {
  }
}

=== FILE: content_images.dfy ===
/**
 * The image side of the post editor in app/routes/admin.write.tsx: a body
 * image is uploaded under `content/` and recorded as a `temp` row; when the
 * post is saved, the markdown is scanned and the author's rows are brought
 * in line with it (`temp` to `active` for referenced URLs, `active` back to
 * `temp` for the others). The session, the file naming and every remote
 * call's reply are inputs.
 */
module ContentImages {
  import opened Base
  import opened ImageLedger
  import opened MarkdownScanner
  import opened ErrorHandler
  import opened PostForm

  /** The folders of the `images` bucket: body images and cover images. */
  const ContentFolder := "content/"
  const CoverFolder := "public/"

  /**
   * The object path of an upload: the folder, a fresh stem (the source builds
   * it from the clock and a random string), and the file's extension.
   */
  function UploadPath(folder: string, stem: string, fileName: string): string {
    folder + stem + "." + FileExtension(fileName)
  }

  /** What `uploadContentImage` resolves to. */
  datatype UploadedImage = UploadedImage(id: string, url: string, name: string, storagePath: string)

  /**
   * The replies of the calls one content upload makes: the storage upload's
   * error, the row insert's new id or error message, and whether the
   * clean-up removal after a failed insert went through.
   */
  datatype UploadReplies = UploadReplies(uploadError: Option<string>, insert: Result<string, string>, removeOk: bool)

  /**
   * `uploadContentImage(file)`: without a session nothing happens; a failed
   * upload changes nothing; after an upload, a failed insert removes the
   * blob again (when the removal succeeds) and reports the database error;
   * otherwise exactly one `temp` row for the session's user is appended,
   * pointing at the new blob.
   */
  function UploadContentImage(
    st: Store, session: Option<string>, projectUrl: string,
    fileName: string, stem: string, now: int, rp: UploadReplies): (out: (Store, Result<UploadedImage, string>))
    ensures session.None? ==> out == (st, Failure("User not authenticated"))
    ensures session.Some? && rp.uploadError.Some? ==> out == (st, Failure("Upload failed: " + rp.uploadError.value))
    ensures session.Some? && rp.uploadError.None? && rp.insert.Success? ==> out.1.Success?
    ensures out.1.Success? ==>
      var path := UploadPath(ContentFolder, stem, fileName);
      && session.Some? && rp.uploadError.None? && rp.insert.Success?
      && StartsWith(out.1.value.storagePath, ContentFolder)
      && out.1.value == UploadedImage(rp.insert.value, PublicUrl(projectUrl, path), fileName, path)
      && out.0.ledger == st.ledger + [ImageRow(rp.insert.value, session.value, path, out.1.value.url, Temp, now)]
      && out.0.blobs == st.blobs + {path}
    ensures session.Some? && rp.uploadError.None? && rp.insert.Failure? ==>
      var path := UploadPath(ContentFolder, stem, fileName);
      && out.1 == Failure("Failed to record image: " + rp.insert.error)
      && out.0.ledger == st.ledger
      && out.0.blobs == (if rp.removeOk then st.blobs - {path} else st.blobs + {path})
  {
    if session.None? then (st, Failure("User not authenticated"))
    else
      var path := UploadPath(ContentFolder, stem, fileName);
      if rp.uploadError.Some? then (st, Failure("Upload failed: " + rp.uploadError.value))
      else
        var blobs := st.blobs + {path};
        var url := PublicUrl(projectUrl, path);
        match rp.insert
        case Failure(msg) =>
          var blobs' := if rp.removeOk then blobs - {path} else blobs;
          (Store(st.ledger, blobs'), Failure("Failed to record image: " + msg))
        case Success(id) =>
          assert StartsWith(path, ContentFolder) by {
            assert path[..|ContentFolder|] == ContentFolder;
          }
          (Store(st.ledger + [ImageRow(id, session.value, path, url, Temp, now)], blobs), Success(UploadedImage(id, url, fileName, path)))
  }

  /** An upload leaves every existing row as it was, and a fresh id keeps the ids unique. */
  lemma UploadKeepsRows(
    st: Store, session: Option<string>, projectUrl: string,
    fileName: string, stem: string, now: int, rp: UploadReplies)
    requires UniqueIds(st.ledger)
    requires rp.insert.Success? ==> forall i :: 0 <= i < |st.ledger| ==> st.ledger[i].id != rp.insert.value
    ensures var l := UploadContentImage(st, session, projectUrl, fileName, stem, now, rp).0.ledger;
      && |st.ledger| <= |l| <= |st.ledger| + 1
      && l[..|st.ledger|] == st.ledger
      && UniqueIds(l)
  {
    var l := UploadContentImage(st, session, projectUrl, fileName, stem, now, rp).0.ledger;
    assert l[..|st.ledger|] == st.ledger;
  }

  /** Every content path has a folder part, so the sweep can always remove its blob. */
  lemma ContentPathHasFolder(stem: string, fileName: string)
    ensures '/' in UploadPath(ContentFolder, stem, fileName)
    ensures |Split(UploadPath(ContentFolder, stem, fileName), '/')| >= 2
  {
    var path := UploadPath(ContentFolder, stem, fileName);
    assert path[7] == '/';
    SplitHasTwoParts(path, '/');
  }

  /** A row the sync looks at: the user's, with status `temp` or `active`. */
  predicate Tracked(r: ImageRow, uid: string) {
    r.userId == uid && (r.status == Temp || r.status == Active)
  }

  /** The rows the sync fetches for the user. */
  function UserImages(l: Ledger, uid: string): seq<ImageRow> {
    Filter(l, (r: ImageRow) => Tracked(r, uid))
  }

  /** `usedImageIds`: the fetched `temp` rows whose URL the content references. */
  function UsedIds(mine: seq<ImageRow>, urls: seq<string>): seq<string> {
    Ids(Filter(mine, (r: ImageRow) => r.publicUrl in urls && r.status == Temp))
  }

  /** `unusedImageIds`: the fetched `active` rows whose URL the content does not reference. */
  function UnusedIds(mine: seq<ImageRow>, urls: seq<string>): seq<string> {
    Ids(Filter(mine, (r: ImageRow) => r.publicUrl !in urls && r.status == Active))
  }

  /** The replies of the sync's three queries: the fetch, the activation and the deactivation. */
  datatype SyncReplies = SyncReplies(fetchOk: bool, activateOk: bool, deactivateOk: bool)

  const AllOk := SyncReplies(true, true, true)

  /** The table after a sync, and the ids it asked to activate and to deactivate. */
  datatype SyncOutcome = SyncOutcome(ledger: Ledger, used: seq<string>, unused: seq<string>)

  /**
   * `syncImageStatus(content)`: without a session, after a failed fetch, or
   * when the user has no tracked rows, nothing changes; otherwise the used
   * rows are activated and the unused ones deactivated, each update taking
   * effect only when it succeeds. Rows only ever change status.
   */
  function SyncImageStatus(l: Ledger, content: string, session: Option<string>, rp: SyncReplies): (o: SyncOutcome)
    ensures |o.ledger| == |l| && forall i :: 0 <= i < |l| ==> SameRecord(l[i], o.ledger[i])
    ensures session.None? || !rp.fetchOk ==> o == SyncOutcome(l, [], [])
    ensures !rp.activateOk && !rp.deactivateOk ==> o.ledger == l
  {
    var urls := ExtractImageUrls(content);
    if session.None? || !rp.fetchOk then SyncOutcome(l, [], [])
    else
      var mine := UserImages(l, session.value);
      if |mine| == 0 then SyncOutcome(l, [], [])
      else
        var used := UsedIds(mine, urls);
        var unused := UnusedIds(mine, urls);
        var l1 := if |used| > 0 && rp.activateOk then SetStatus(l, used, Active) else l;
        var l2 := if |unused| > 0 && rp.deactivateOk then SetStatus(l1, unused, Temp) else l1;
        SyncOutcome(l2, used, unused)
  }

  /** Which rows the two id lists of a sync pick out. */
  lemma SyncSelection(l: Ledger, uid: string, urls: seq<string>, i: int)
    requires UniqueIds(l) && 0 <= i < |l|
    ensures l[i].id in UsedIds(UserImages(l, uid), urls) <==>
      Tracked(l[i], uid) && l[i].publicUrl in urls && l[i].status == Temp
    ensures l[i].id in UnusedIds(UserImages(l, uid), urls) <==>
      Tracked(l[i], uid) && l[i].publicUrl !in urls && l[i].status == Active
  {
    var mine := UserImages(l, uid);
    IdSelected(l, Filter(mine, (r: ImageRow) => r.publicUrl in urls && r.status == Temp),
      (r: ImageRow) => Tracked(r, uid) && r.publicUrl in urls && r.status == Temp, i);
    IdSelected(l, Filter(mine, (r: ImageRow) => r.publicUrl !in urls && r.status == Active),
      (r: ImageRow) => Tracked(r, uid) && r.publicUrl !in urls && r.status == Active, i);
  }

  /** No id is both activated and deactivated by the same sync. */
  lemma SyncListsDisjoint(l: Ledger, content: string, session: Option<string>, rp: SyncReplies)
    requires UniqueIds(l)
    ensures var o := SyncImageStatus(l, content, session, rp);
      forall id :: id in o.used ==> id !in o.unused
  {
    var o := SyncImageStatus(l, content, session, rp);
    var urls := ExtractImageUrls(content);
    forall id | id in o.used
      ensures id !in o.unused
    {
      var mine := UserImages(l, session.value);
      var sel := Filter(mine, (r: ImageRow) => r.publicUrl in urls && r.status == Temp);
      var k :| 0 <= k < |sel| && Ids(sel)[k] == id;
      assert sel[k] in sel;
      var i :| 0 <= i < |l| && l[i] == sel[k];
      SyncSelection(l, session.value, urls, i);
    }
  }

  /** Rows the sync does not track (another user's, or `deleted` ones) come out unchanged. */
  lemma SyncIsolation(l: Ledger, content: string, session: Option<string>, rp: SyncReplies)
    requires UniqueIds(l)
    ensures var o := SyncImageStatus(l, content, session, rp);
      forall i :: 0 <= i < |l| && (session.None? || !Tracked(l[i], session.value)) ==> o.ledger[i] == l[i]
  {
    if session.Some? {
      forall i | 0 <= i < |l|
        ensures !Tracked(l[i], session.value) ==> SyncImageStatus(l, content, session, rp).ledger[i] == l[i]
      {
        SyncSelection(l, session.value, ExtractImageUrls(content), i);
      }
    }
  }

  /** A sync keeps the ids, so it keeps them unique. */
  lemma SyncKeepsUniqueIds(l: Ledger, content: string, session: Option<string>, rp: SyncReplies)
    requires UniqueIds(l)
    ensures UniqueIds(SyncImageStatus(l, content, session, rp).ledger)
  {
    var o := SyncImageStatus(l, content, session, rp);
    assert forall i :: 0 <= i < |l| ==> o.ledger[i].id == l[i].id;
  }

  /**
   * After a sync whose queries all succeed, each of the user's tracked rows
   * is `active` exactly when the content references its URL, and `temp`
   * otherwise.
   */
  lemma SyncMatchesContent(l: Ledger, content: string, uid: string)
    requires UniqueIds(l)
    ensures var o := SyncImageStatus(l, content, Some(uid), AllOk);
      forall i :: 0 <= i < |l| && Tracked(l[i], uid) ==>
        && Tracked(o.ledger[i], uid)
        && (o.ledger[i].status == Active <==> l[i].publicUrl in ExtractImageUrls(content))
  {
    var urls := ExtractImageUrls(content);
    var o := SyncImageStatus(l, content, Some(uid), AllOk);
    forall i | 0 <= i < |l| && Tracked(l[i], uid)
      ensures Tracked(o.ledger[i], uid) && (o.ledger[i].status == Active <==> l[i].publicUrl in urls)
    {
      SyncSelection(l, uid, urls, i);
      assert l[i] in UserImages(l, uid);
    }
  }

  /** After a fully successful sync, every tracked row agrees with the content. */
  ghost predicate InSync(l: Ledger, uid: string, urls: seq<string>) {
    forall i :: 0 <= i < |l| && Tracked(l[i], uid) ==> (l[i].status == Active <==> l[i].publicUrl in urls)
  }

  /** A selection from rows none of which qualifies is empty. */
  lemma NothingSelected(mine: seq<ImageRow>, keep: ImageRow -> bool)
    requires forall x :: x in mine ==> !keep(x)
    ensures Filter(mine, keep) == []
  {
    assert forall i :: 0 <= i < |mine| ==> mine[i] in mine;
  }

  /** When the rows already agree with the content, a sync finds nothing to do. */
  lemma SyncOfSyncedIsNoop(l: Ledger, content: string, uid: string, rp: SyncReplies)
    requires InSync(l, uid, ExtractImageUrls(content))
    ensures var o := SyncImageStatus(l, content, Some(uid), rp);
      o.used == [] && o.unused == [] && o.ledger == l
  {
    var urls := ExtractImageUrls(content);
    var mine := UserImages(l, uid);
    forall x | x in mine
      ensures Tracked(x, uid) && (x.status == Active <==> x.publicUrl in urls)
    {
      var i :| 0 <= i < |l| && l[i] == x;
    }
    NothingSelected(mine, (r: ImageRow) => r.publicUrl in urls && r.status == Temp);
    NothingSelected(mine, (r: ImageRow) => r.publicUrl !in urls && r.status == Active);
  }

  /** Sync is idempotent: right after a fully successful sync, a second one with the same content changes nothing. */
  lemma SyncIdempotent(l: Ledger, content: string, uid: string, rp: SyncReplies)
    requires UniqueIds(l)
    ensures var l1 := SyncImageStatus(l, content, Some(uid), AllOk).ledger;
      var o := SyncImageStatus(l1, content, Some(uid), rp);
      o.used == [] && o.unused == [] && o.ledger == l1
  {
    var l1 := SyncImageStatus(l, content, Some(uid), AllOk).ledger;
    SyncMatchesContent(l, content, uid);
    var urls := ExtractImageUrls(content);
    forall i | 0 <= i < |l1| && Tracked(l1[i], uid)
      ensures l1[i].status == Active <==> l1[i].publicUrl in urls
    {
      assert SameRecord(l[i], l1[i]);
      SyncIsolation(l, content, Some(uid), AllOk);
    }
    SyncOfSyncedIsNoop(l1, content, uid, rp);
  }

  /** The post record `handleSubmit` inserts into `posts`. */
  datatype PostInsert = PostInsert(
    title: string,
    slug: string,
    category: string,
    authorId: Option<string>,
    subtitle: string,
    description: string,
    content: string,
    coverImage: Option<string>,
    backgroundColor: Option<string>)

  /** `x || null` for a text field. */
  function OrNull(s: string): (r: Option<string>)
    ensures r.Some? <==> s != ""
    ensures r.Some? ==> r.value == s
  {
    if s == "" then None else Some(s)
  }

  /**
   * The replies `handleSubmit` meets: the cover upload's error, the insert's
   * error and the retry's error (each with whether the client reported it as
   * an `Error` instance), and the sync's replies.
   */
  datatype SubmitReplies = SubmitReplies(
    coverUploadError: Option<string>,
    insertError: Option<PgError>,
    insertErrorIsInstance: bool,
    retryError: Option<PgError>,
    retryErrorIsInstance: bool,
    sync: SyncReplies)

  /** How a save ends: a cover upload error, an insert error as shown to the user, or the saved post. */
  datatype SubmitOutcome =
    | CoverUploadFailed(message: string)
    | SaveFailed(message: string)
    | Saved(post: PostInsert, sync: SyncOutcome)

  /** The insert data built from the form and the cover URL (admin.write.tsx:499-516). */
  function InsertData(form: Form, cover: Option<string>): (d: PostInsert)
    ensures d.description == if Field(form, "description") != "" then Field(form, "description") else Field(form, "subtitle")
    ensures d.backgroundColor.Some? <==> !IsBlank(Field(form, "background_color"))
    ensures d.backgroundColor.Some? ==> d.backgroundColor.value == Field(form, "background_color")
    ensures d.content == Field(form, "content") && d.coverImage == cover
  {
    var bg := Field(form, "background_color");
    PostInsert(
      Field(form, "title"), Field(form, "slug"), Field(form, "category"),
      OrNull(Field(form, "author_id")), Field(form, "subtitle"),
      if Field(form, "description") != "" then Field(form, "description") else Field(form, "subtitle"),
      Field(form, "content"), cover,
      if bg != "" && !IsBlank(bg) then Some(bg) else None)
  }

  /** The insert is retried without the background colour when the error looks like an unknown column. */
  predicate RetryWithoutColour(e: PgError, d: PostInsert) {
    e.message != "" && (Contains(e.message, "column") || e.code == "42703") && d.backgroundColor.Some?
  }

  function AsThrown(e: PgError, isInstance: bool): Thrown {
    if isInstance then ErrorInstance(e.message) else OtherValue
  }

  /**
   * `handleSubmit`: upload the cover when a file is selected, insert the
   * post (once more without the background colour when the first attempt
   * hit an unknown column), and only once the post is stored, sync the
   * content's images.
   */
  function HandleSubmit(
    st: Store, form: Form, coverFile: Option<string>, coverStem: string,
    projectUrl: string, session: Option<string>, rp: SubmitReplies): (out: (Store, SubmitOutcome))
    ensures !out.1.Saved? ==> out.0.ledger == st.ledger
    ensures out.1.Saved? ==>
      && out.1.sync == SyncImageStatus(st.ledger, Field(form, "content"), session, rp.sync)
      && out.0.ledger == out.1.sync.ledger
    ensures out.1.SaveFailed? ==> IsUserMessage(out.1.message)
    ensures out.1.Saved? && out.1.post.backgroundColor.Some? ==> rp.insertError.None?
    ensures coverFile.None? ==> out.0.blobs == st.blobs
    ensures out.1.CoverUploadFailed? <==> coverFile.Some? && rp.coverUploadError.Some?
    ensures out.1.Saved? <==>
      && (coverFile.None? || rp.coverUploadError.None?)
      && (|| rp.insertError.None?
          || (RetryWithoutColour(rp.insertError.value, InsertData(form, None)) && rp.retryError.None?))
  {
    var coverPath := UploadPath(CoverFolder, coverStem, coverFile.GetOr(""));
    if coverFile.Some? && rp.coverUploadError.Some? then
      (st, CoverUploadFailed("Upload failed: " + rp.coverUploadError.value))
    else
      var blobs := if coverFile.Some? then st.blobs + {coverPath} else st.blobs;
      var cover := if coverFile.Some? then Some(PublicUrl(projectUrl, coverPath)) else OrNull(Field(form, "cover_image"));
      var data := InsertData(form, cover);
      var failed := Store(st.ledger, blobs);
      match rp.insertError
      case Some(e) =>
        if RetryWithoutColour(e, data) then
          var retry := data.(backgroundColor := None);
          match rp.retryError
          case Some(e2) => (failed, SaveFailed(FormatErrorMessage(AsThrown(e2, rp.retryErrorIsInstance))))
          case None =>
            var o := SyncImageStatus(st.ledger, Field(form, "content"), session, rp.sync);
            (Store(o.ledger, blobs), Saved(retry, o))
        else (failed, SaveFailed(FormatErrorMessage(AsThrown(e, rp.insertErrorIsInstance))))
      case None =>
        var o := SyncImageStatus(st.ledger, Field(form, "content"), session, rp.sync);
        (Store(o.ledger, blobs), Saved(data, o))
  }

  /** A failed cover upload stops the save before anything is written. */
  lemma CoverFailureWritesNothing(
    st: Store, form: Form, file: string, coverStem: string,
    projectUrl: string, session: Option<string>, rp: SubmitReplies)
    requires rp.coverUploadError.Some?
    ensures var out := HandleSubmit(st, form, Some(file), coverStem, projectUrl, session, rp);
      out.0 == st && out.1 == CoverUploadFailed("Upload failed: " + rp.coverUploadError.value)
  {
  }

  /**
   * The saved record: the form's fields with the description falling back
   * to the subtitle, and the background colour only when it is not blank and
   * the first insert went through.
   */
  lemma SavedRecordFollowsForm(
    st: Store, form: Form, coverFile: Option<string>, coverStem: string,
    projectUrl: string, session: Option<string>, rp: SubmitReplies)
    ensures var out := HandleSubmit(st, form, coverFile, coverStem, projectUrl, session, rp);
      out.1.Saved? ==>
        && out.1.post.content == Field(form, "content")
        && out.1.post.title == Field(form, "title")
        && out.1.post.slug == Field(form, "slug")
        && out.1.post.description == (if Field(form, "description") != "" then Field(form, "description") else Field(form, "subtitle"))
        && (out.1.post.backgroundColor.Some? <==> rp.insertError.None? && !IsBlank(Field(form, "background_color")))
  {
  }
}

=== FILE: dashboard.dfy ===
/**
 * Post deletion on the admin dashboard (app/routes/admin.dashboard.tsx):
 * after the confirmation, the images the post references (the body's
 * embedded URLs and the cover) are purged first, every ledger row with one
 * of those URLs having its blob removed and being marked `deleted`, and
 * then the post itself is deleted. The confirmation dialog and the replies
 * of the storage and database calls are inputs.
 */
module PostDeletion {
  import opened Base
  import opened ImageLedger
  import opened MarkdownScanner

  /** A row of the `posts` table, with the columns deletion looks at. */
  datatype Post = Post(id: string, slug: string, title: string, content: string, coverImage: Option<string>)

  /** `post.cover_image` as a condition: present and not empty. */
  predicate HasCover(post: Post) {
    post.coverImage.Some? && post.coverImage.value != ""
  }

  /**
   * The URLs `deletePostImages` looks for: the images embedded in the body,
   * in first-seen order, then the cover image.
   */
  function PostImageUrls(post: Post): (urls: seq<string>)
    ensures forall u :: u in urls <==>
      u in ExtractImageUrls(post.content) || (HasCover(post) && u == post.coverImage.value)
    ensures urls == [] <==> ExtractImageUrls(post.content) == [] && !HasCover(post)
  {
    (if post.content != "" then ExtractImageUrls(post.content) else [])
      + (if HasCover(post) then [post.coverImage.value] else [])
  }

  /**
   * The replies of the calls a purge makes: whether the lookup of the rows
   * succeeded, and for each path and id whether its removal and its status
   * update went through.
   */
  datatype PurgeReplies = PurgeReplies(fetchOk: bool, removeOk: string -> bool, updateOk: string -> bool)

  /** `.in("public_url", urls)`: every row with one of the URLs, whoever owns it and whatever its status. */
  function ReferencedRows(l: Ledger, urls: seq<string>): seq<ImageRow> {
    Filter(l, (r: ImageRow) => r.publicUrl in urls)
  }

  /** The rows whose status update went through. */
  function UpdatedRows(rows: seq<ImageRow>, rp: PurgeReplies): seq<ImageRow> {
    Filter(rows, (r: ImageRow) => rp.updateOk(r.id))
  }

  /** The paths whose removal went through. */
  function RemovedPaths(rows: seq<ImageRow>, rp: PurgeReplies): set<string> {
    PathsWhere(rows, (r: ImageRow) => rp.removeOk(r.storagePath))
  }

  /**
   * The loop of `deletePostImages` over the rows found: each blob removal
   * and each status update takes effect when it succeeds, and a failure of
   * one does not stop the other.
   */
  function PurgeRows(st: Store, rows: seq<ImageRow>, rp: PurgeReplies): (s: Store)
    ensures s.ledger == SetStatus(st.ledger, Ids(UpdatedRows(rows, rp)), Deleted)
    ensures s.blobs == st.blobs - RemovedPaths(rows, rp)
    decreases |rows|
  {
    if |rows| == 0 then st
    else
      var n := |rows| - 1;
      var r := rows[n];
      var prev := PurgeRows(st, rows[..n], rp);
      PurgeRowLedger(st, rows, rp, prev);
      PurgeRowBlobs(st, rows, rp, prev);
      Store(
        if rp.updateOk(r.id) then SetStatus(prev.ledger, [r.id], Deleted) else prev.ledger,
        if rp.removeOk(r.storagePath) then prev.blobs - {r.storagePath} else prev.blobs)
  }

  /** The last row's turn extends the updated ids by its own id when its update goes through. */
  lemma PurgeRowLedger(st: Store, rows: seq<ImageRow>, rp: PurgeReplies, prev: Store)
    requires |rows| > 0
    requires prev.ledger == SetStatus(st.ledger, Ids(UpdatedRows(rows[..|rows| - 1], rp)), Deleted)
    ensures var r := rows[|rows| - 1];
      (if rp.updateOk(r.id) then SetStatus(prev.ledger, [r.id], Deleted) else prev.ledger)
        == SetStatus(st.ledger, Ids(UpdatedRows(rows, rp)), Deleted)
  {
    var n := |rows| - 1;
    var r := rows[n];
    assert rows == rows[..n] + [r];
    assert UpdatedRows(rows, rp) == UpdatedRows(rows[..n], rp) + (if rp.updateOk(r.id) then [r] else []);
    assert Ids(UpdatedRows(rows, rp)) == Ids(UpdatedRows(rows[..n], rp)) + (if rp.updateOk(r.id) then [r.id] else []);
    if rp.updateOk(r.id) {
      SetStatusTwice(st.ledger, Ids(UpdatedRows(rows[..n], rp)), [r.id], Deleted);
    }
  }

  /** The last row's turn removes its blob when the removal goes through. */
  lemma PurgeRowBlobs(st: Store, rows: seq<ImageRow>, rp: PurgeReplies, prev: Store)
    requires |rows| > 0
    requires prev.blobs == st.blobs - RemovedPaths(rows[..|rows| - 1], rp)
    ensures var r := rows[|rows| - 1];
      (if rp.removeOk(r.storagePath) then prev.blobs - {r.storagePath} else prev.blobs)
        == st.blobs - RemovedPaths(rows, rp)
  {
    var n := |rows| - 1;
    assert rows == rows[..n] + [rows[n]];
    PathsWhereAppend(rows[..n], rows[n], (x: ImageRow) => rp.removeOk(x.storagePath));
  }

  /**
   * `deletePostImages(post)`: nothing happens when the post references no
   * image or the lookup fails; otherwise every row with a referenced URL is
   * purged.
   */
  function DeletePostImages(st: Store, post: Post, rp: PurgeReplies): (s: Store)
    ensures PostImageUrls(post) == [] || !rp.fetchOk ==> s == st
    ensures rp.fetchOk ==>
      var rows := ReferencedRows(st.ledger, PostImageUrls(post));
      && s.ledger == SetStatus(st.ledger, Ids(UpdatedRows(rows, rp)), Deleted)
      && s.blobs == st.blobs - RemovedPaths(rows, rp)
  {
    var urls := PostImageUrls(post);
    if |urls| == 0 || !rp.fetchOk then st
    else
      var rows := ReferencedRows(st.ledger, urls);
      if |rows| == 0 then st else PurgeRows(st, rows, rp)
  }

  /**
   * With unique ids, a purge marks `deleted` exactly the rows whose URL the
   * post references and whose update went through — whoever uploaded them
   * and whatever their status, so an image another post still embeds goes
   * too — and leaves every other row as it was.
   */
  lemma PurgeMarksReferencedRows(st: Store, post: Post, rp: PurgeReplies)
    requires UniqueIds(st.ledger)
    ensures var l := DeletePostImages(st, post, rp).ledger;
      && |l| == |st.ledger|
      && forall i :: 0 <= i < |l| ==>
        if rp.fetchOk && st.ledger[i].publicUrl in PostImageUrls(post) && rp.updateOk(st.ledger[i].id)
        then l[i] == st.ledger[i].(status := Deleted)
        else l[i] == st.ledger[i]
  {
    var urls := PostImageUrls(post);
    var q := (r: ImageRow) => r.publicUrl in urls && rp.updateOk(r.id);
    if rp.fetchOk {
      var sel := UpdatedRows(ReferencedRows(st.ledger, urls), rp);
      assert forall x :: x in sel <==> x in st.ledger && q(x);
      forall i | 0 <= i < |st.ledger|
        ensures st.ledger[i].id in Ids(sel) <==> q(st.ledger[i])
      {
        IdSelected(st.ledger, sel, q, i);
      }
    }
  }

  /** A purge never brings a `deleted` row back. */
  lemma PurgeKeepsDeleted(st: Store, post: Post, rp: PurgeReplies, i: int)
    requires 0 <= i < |st.ledger| && st.ledger[i].status == Deleted
    ensures var l := DeletePostImages(st, post, rp).ledger;
      |l| == |st.ledger| && l[i] == st.ledger[i]
  {
  }

  /** How `handleDelete` ends, with the alert it shows. */
  datatype DeleteOutcome =
    | Cancelled
    | PostNotFound(alert: string)
    | DeleteFailed(alert: string)
    | PostDeleted

  /** `posts.find(p => p.id === postId)` */
  function FindPost(posts: seq<Post>, postId: string): Option<Post> {
    Find(posts, (p: Post) => p.id == postId)
  }

  /** `posts.filter(post => post.id !== postId)` */
  function WithoutPost(posts: seq<Post>, postId: string): seq<Post> {
    Filter(posts, (p: Post) => p.id != postId)
  }

  /**
   * `handleDelete(postId, title)`: nothing without the confirmation; an
   * alert when the listed posts have no such id; otherwise the post's images
   * are purged first and the post is deleted afterwards, the list dropping
   * it only when that delete succeeds.
   */
  function HandleDelete(
    posts: seq<Post>, st: Store, postId: string, confirmed: bool,
    rp: PurgeReplies, deleteError: Option<string>): (out: (seq<Post>, Store, DeleteOutcome))
    ensures !confirmed ==> out == (posts, st, Cancelled)
    ensures confirmed && (forall i :: 0 <= i < |posts| ==> posts[i].id != postId) ==>
      out == (posts, st, PostNotFound("Post not found"))
    ensures out.2.DeleteFailed? <==> confirmed && FindPost(posts, postId).Some? && deleteError.Some?
    ensures confirmed && FindPost(posts, postId).Some? && deleteError.None? ==> out.2 == PostDeleted
    ensures out.2.DeleteFailed? ==> out.0 == posts && out.2.alert == "Error deleting post: " + deleteError.value
    ensures out.2.PostDeleted? ==>
      && |out.0| < |posts|
      && forall p :: p in out.0 <==> p in posts && p.id != postId
    ensures out.2.DeleteFailed? || out.2.PostDeleted? ==>
      exists i :: 0 <= i < |posts| && posts[i].id == postId && out.1 == DeletePostImages(st, posts[i], rp)
  {
    if !confirmed then (posts, st, Cancelled)
    else
      match FindPost(posts, postId)
      case None => (posts, st, PostNotFound("Post not found"))
      case Some(post) =>
        var st' := DeletePostImages(st, post, rp);
        match deleteError
        case Some(msg) => (posts, st', DeleteFailed("Error deleting post: " + msg))
        case None =>
          var kept := WithoutPost(posts, postId);
          var k :| 0 <= k < |posts| && posts[k] == post && posts[k].id == postId;
          FilterShrinks(posts, (p: Post) => p.id != postId, k);
          (kept, st', PostDeleted)
  }

  /**
   * The purge runs before the post is deleted, so when that delete fails
   * the post stays listed while the images it embeds are already marked
   * `deleted`.
   */
  lemma FailedDeleteStillPurges(posts: seq<Post>, st: Store, k: int, rp: PurgeReplies, msg: string, i: int)
    requires UniqueIds(st.ledger) && 0 <= k < |posts| && 0 <= i < |st.ledger|
    requires forall j :: 0 <= j < |posts| && posts[j].id == posts[k].id ==> j == k
    requires rp.fetchOk && rp.updateOk(st.ledger[i].id)
    requires st.ledger[i].publicUrl in ExtractImageUrls(posts[k].content)
    ensures var out := HandleDelete(posts, st, posts[k].id, true, rp, Some(msg));
      && out.0 == posts
      && out.1.ledger[i].status == Deleted
  {
    FindUnique(posts, (p: Post) => p.id == posts[k].id, k);
    PurgeMarksReferencedRows(st, posts[k], rp);
  }
}

=== FILE: error_handler.dfy ===
/**
 * `formatErrorMessage` (app/utils/error-handler.ts): the message the admin
 * screens show for a caught error. Only `Error` instances are inspected, by
 * case-sensitive substring checks in a fixed priority; whatever was thrown,
 * the user sees one of four fixed Korean messages and never the raw text.
 */
module ErrorHandler {
  import opened Base

  /** A caught value: an `Error` instance with its `message`, or anything else. */
  datatype Thrown = ErrorInstance(message: string) | OtherValue

  const NetworkMessage := "네트워크 오류가 발생했습니다. 잠시 후 다시 시도해주세요."
  const PermissionMessage := "권한이 없습니다."
  const NotFoundMessage := "요청한 내용을 찾을 수 없습니다."
  const GenericMessage := "오류가 발생했습니다. 잠시 후 다시 시도해주세요."

  /** The four messages a user can be shown. */
  predicate IsUserMessage(s: string) {
    s == NetworkMessage || s == PermissionMessage || s == NotFoundMessage || s == GenericMessage
  }

  /** The message of an `Error` instance mentions `keyword`. */
  predicate Mentions(e: Thrown, keyword: string) {
    e.ErrorInstance? && Contains(e.message, keyword)
  }

  /**
   * The classification: a network failure wins over a permission problem,
   * which wins over a missing record; everything else, and every value that
   * is not an `Error`, gets the generic message.
   */
  function FormatErrorMessage(e: Thrown): (msg: string)
    ensures IsUserMessage(msg)
    ensures e.OtherValue? ==> msg == GenericMessage
    ensures msg == NetworkMessage <==> Mentions(e, "Failed to fetch")
    ensures msg == PermissionMessage <==> !Mentions(e, "Failed to fetch") && Mentions(e, "permission")
    ensures msg == NotFoundMessage <==>
      !Mentions(e, "Failed to fetch") && !Mentions(e, "permission") && Mentions(e, "not found")
    ensures msg == GenericMessage <==>
      !Mentions(e, "Failed to fetch") && !Mentions(e, "permission") && !Mentions(e, "not found")
  {
    match e
    case ErrorInstance(m) =>
      if Contains(m, "Failed to fetch") then NetworkMessage
      else if Contains(m, "permission") then PermissionMessage
      else if Contains(m, "not found") then NotFoundMessage
      else GenericMessage
    case OtherValue => GenericMessage
  }

  /** The raw message of an `Error` is never shown, unless it happens to be one of the fixed messages. */
  lemma RawMessageNeverShown(m: string)
    requires !IsUserMessage(m)
    ensures FormatErrorMessage(ErrorInstance(m)) != m
  {
  }
}

=== FILE: image_utils.dfy ===
/**
 * The image URL helpers of app/utils/image.ts: the `srcset` attribute for
 * responsive images and the transformation query the storage service's
 * image endpoint understands.
 */
module ImageUtils {
  import opened Base

  /** The widths `generateSrcSet` uses when none are given. */
  const DefaultWidths: seq<int> := [400, 800, 1200, 1600]

  /** One candidate of the `srcset`: the image at width `w`, with its width descriptor. */
  function SrcSetEntry(baseUrl: string, w: int): string {
    baseUrl + "?w=" + IntToString(w) + " " + IntToString(w) + "w"
  }

  /** The candidates for the widths, in order. */
  function Candidates(baseUrl: string, widths: seq<int>): (es: seq<string>)
    ensures |es| == |widths| && forall i :: 0 <= i < |widths| ==> es[i] == SrcSetEntry(baseUrl, widths[i])
  {
    seq(|widths|, i requires 0 <= i < |widths| => SrcSetEntry(baseUrl, widths[i]))
  }

  /** `generateSrcSet(baseUrl, widths)`: one candidate per width, in order, separated by `, `. */
  function GenerateSrcSet(baseUrl: string, widths: seq<int>): (srcset: string)
    ensures widths == [] ==> srcset == ""
    ensures |widths| == 1 ==> srcset == SrcSetEntry(baseUrl, widths[0])
  {
    Join(Candidates(baseUrl, widths), ", ")
  }

  /** `generateSrcSet(baseUrl)` with the default widths. */
  function DefaultSrcSet(baseUrl: string): (srcset: string)
    ensures srcset == GenerateSrcSet(baseUrl, [400, 800, 1200, 1600])
    ensures ',' !in baseUrl ==>
      Split(srcset, ',') ==
        [ SrcSetEntry(baseUrl, 400), " " + SrcSetEntry(baseUrl, 800),
          " " + SrcSetEntry(baseUrl, 1200), " " + SrcSetEntry(baseUrl, 1600) ]
  {
    DefaultSrcSetSplits(baseUrl);
    GenerateSrcSet(baseUrl, DefaultWidths)
  }

  /** The default srcset splits into the four default entries. */
  lemma DefaultSrcSetSplits(baseUrl: string)
    ensures ',' !in baseUrl ==>
      Split(GenerateSrcSet(baseUrl, DefaultWidths), ',') ==
        [ SrcSetEntry(baseUrl, 400), " " + SrcSetEntry(baseUrl, 800),
          " " + SrcSetEntry(baseUrl, 1200), " " + SrcSetEntry(baseUrl, 1600) ]
  {
    if ',' !in baseUrl {
      SrcSetRoundTrip(baseUrl, DefaultWidths);
      assert DefaultWidths[1..] == [800, 1200, 1600];
    }
  }

  /** `xs` with a space in front of every element. */
  function Spaced(xs: seq<string>): (r: seq<string>)
    ensures |r| == |xs| && forall i :: 0 <= i < |xs| ==> r[i] == " " + xs[i]
  {
    seq(|xs|, i requires 0 <= i < |xs| => " " + xs[i])
  }

  /** Joining with `, ` is joining with `,` after putting a space in front of every element but the first. */
  lemma {:induction false} JoinCommaSpace(xs: seq<string>)
    requires |xs| >= 1
    ensures Join(Spaced(xs), ",") == " " + Join(xs, ", ")
    decreases |xs|
  {
    if |xs| > 1 {
      JoinCommaSpace(xs[1..]);
      assert Spaced(xs)[1..] == Spaced(xs[1..]);
    }
  }

  /** No candidate holds a comma when the base URL holds none. */
  lemma EntryHasNoComma(baseUrl: string, w: int)
    requires ',' !in baseUrl
    ensures ',' !in SrcSetEntry(baseUrl, w)
  {
    var s := IntToString(w);
    assert ',' !in s;
  }

  /** Joining with `, ` is joining with `,` the first element and the others each after a space. */
  lemma JoinSpacedTail(es: seq<string>)
    requires |es| >= 1
    ensures Join([es[0]] + Spaced(es[1..]), ",") == Join(es, ", ")
  {
    var parts := [es[0]] + Spaced(es[1..]);
    if |es| > 1 {
      var rest := Join(es[1..], ", ");
      var spaced := Join(Spaced(es[1..]), ",");
      assert spaced == " " + rest by {
        JoinCommaSpace(es[1..]);
      }
      assert Join(parts, ",") == es[0] + "," + spaced by {
        assert parts[1..] == Spaced(es[1..]);
      }
      assert Join(es, ", ") == es[0] + ", " + rest;
      CommaThenSpace(es[0], rest);
    } else {
      assert parts == [es[0]] && es == [es[0]];
    }
  }

  /** A `,` followed by a text that starts with a space is a `, ` followed by the rest. */
  lemma CommaThenSpace(a: string, r: string)
    ensures a + "," + (" " + r) == a + ", " + r
  {
    assert a + "," + (" " + r) == a + ("," + " ") + r;
  }

  /** Candidates of a base URL without commas hold no comma. */
  lemma CandidatesHaveNoComma(baseUrl: string, widths: seq<int>)
    requires ',' !in baseUrl
    ensures forall e :: e in Candidates(baseUrl, widths) ==> ',' !in e
  {
    forall i | 0 <= i < |widths|
      ensures ',' !in Candidates(baseUrl, widths)[i]
    {
      EntryHasNoComma(baseUrl, widths[i]);
    }
  }

  /**
   * Reading a `srcset` back: splitting at the commas gives the candidates
   * for the widths, in order, each after the first preceded by its space.
   */
  lemma SrcSetRoundTrip(baseUrl: string, widths: seq<int>)
    requires ',' !in baseUrl && |widths| >= 1
    ensures Split(GenerateSrcSet(baseUrl, widths), ',') ==
      [SrcSetEntry(baseUrl, widths[0])] + Spaced(Candidates(baseUrl, widths[1..]))
  {
    var es := Candidates(baseUrl, widths);
    assert es[1..] == Candidates(baseUrl, widths[1..]);
    var parts := [es[0]] + Spaced(es[1..]);
    JoinSpacedTail(es);
    CandidatesHaveNoComma(baseUrl, widths);
    assert forall i :: 0 <= i < |parts| ==> ',' !in parts[i] by {
      forall i | 0 <= i < |parts|
        ensures ',' !in parts[i]
      {
        if i > 0 {
          assert parts[i] == " " + es[i];
          assert es[i] in es;
        } else {
          assert es[0] in es;
        }
      }
    }
    SplitJoin(parts, ',');
  }

  /** The `format` option. */
  datatype Format = Webp | Jpeg | Png {
    function Name(): string {
      match this
      case Webp => "webp"
      case Jpeg => "jpeg"
      case Png => "png"
    }
  }

  /** The `options` argument; an absent argument is the value with every field missing. */
  datatype ImageOptions = ImageOptions(width: Option<int>, height: Option<int>, quality: Option<int>, format: Option<Format>)

  const NoOptions := ImageOptions(None, None, None, None)

  /** A numeric option is emitted when it is present and not zero (JavaScript truthiness). */
  predicate Truthy(n: Option<int>) {
    n.Some? && n.value != 0
  }

  /** Where a parameter name stands in the order the source sets them. */
  function Rank(name: string): int {
    if name == "width" then 0 else if name == "height" then 1 else if name == "quality" then 2 else 3
  }

  function NumberParam(name: string, n: Option<int>): seq<(string, string)> {
    if Truthy(n) then [(name, IntToString(n.value))] else []
  }

  /** The `URLSearchParams` entries built from the options, in insertion order. */
  function Params(o: ImageOptions): (ps: seq<(string, string)>)
    ensures |ps| <= 4
    ensures WellFormedQuery(ps)
  {
    var w := NumberParam("width", o.width);
    var h := NumberParam("height", o.height);
    var q := NumberParam("quality", o.quality);
    var f := FormatParam(o.format);
    NamesRanked();
    NumberParamRanked("width", o.width, 0);
    NumberParamRanked("height", o.height, 1);
    NumberParamRanked("quality", o.quality, 2);
    PrependRanked(q, f, 2);
    PrependRanked(h, q + f, 1);
    PrependRanked(w, h + (q + f), 0);
    w + (h + (q + f))
  }

  function FormatParam(format: Option<Format>): (ps: seq<(string, string)>)
    ensures |ps| <= 1 && WellFormedQuery(ps) && forall i :: 0 <= i < |ps| ==> Rank(ps[i].0) == 3
  {
    if format.Some? then [("format", format.value.Name())] else []
  }

  const ParamNames: set<string> := {"width", "height", "quality", "format"}

  /**
   * What the query may hold: only the four option names, names and values
   * made of plain characters, and the names in the order width, height,
   * quality, format, each at most once.
   */
  predicate WellFormedQuery(ps: seq<(string, string)>) {
    && (forall i, j :: 0 <= i < j < |ps| ==> Rank(ps[i].0) < Rank(ps[j].0))
    && (forall i :: 0 <= i < |ps| ==> ps[i].0 in ParamNames)
    && (forall i :: 0 <= i < |ps| ==> ParamValue(ps[i].0) && ParamValue(ps[i].1))
  }

  /** The three numeric option names are plain, known, and ranked 0, 1 and 2. */
  lemma NamesRanked()
    ensures "width" in ParamNames && ParamValue("width") && Rank("width") == 0
    ensures "height" in ParamNames && ParamValue("height") && Rank("height") == 1
    ensures "quality" in ParamNames && ParamValue("quality") && Rank("quality") == 2
  {
  }

  lemma NumberParamRanked(name: string, n: Option<int>, r: int)
    requires name in ParamNames && ParamValue(name) && Rank(name) == r
    ensures |NumberParam(name, n)| <= 1 && WellFormedQuery(NumberParam(name, n))
    ensures forall i :: 0 <= i < |NumberParam(name, n)| ==> Rank(NumberParam(name, n)[i].0) == r
  {
  }

  /** Putting at most one parameter of rank `r` in front of parameters ranked above `r`. */
  lemma PrependRanked(a: seq<(string, string)>, b: seq<(string, string)>, r: int)
    requires |a| <= 1 && WellFormedQuery(a) && forall i :: 0 <= i < |a| ==> Rank(a[i].0) == r
    requires WellFormedQuery(b) && forall i :: 0 <= i < |b| ==> r < Rank(b[i].0)
    ensures WellFormedQuery(a + b) && forall i :: 0 <= i < |a + b| ==> r - 1 < Rank((a + b)[i].0)
  {
  }

  /** The value of the parameter `name`, if the query has one. */
  function ValueOf(ps: seq<(string, string)>, name: string): Option<string>
    decreases |ps|
  {
    if |ps| == 0 then None else if ps[0].0 == name then Some(ps[0].1) else ValueOf(ps[1..], name)
  }

  function NumberValue(n: Option<int>): Option<string> {
    if Truthy(n) then Some(IntToString(n.value)) else None
  }

  /** Each option reaches the query exactly when it is set (numbers: set and non-zero), with its value. */
  lemma ParamsCarryOptions(o: ImageOptions)
    ensures ValueOf(Params(o), "width") == NumberValue(o.width)
    ensures ValueOf(Params(o), "height") == NumberValue(o.height)
    ensures ValueOf(Params(o), "quality") == NumberValue(o.quality)
    ensures ValueOf(Params(o), "format") == if o.format.Some? then Some(o.format.value.Name()) else None
  {
    var w := NumberParam("width", o.width);
    var h := NumberParam("height", o.height);
    var q := NumberParam("quality", o.quality);
    var f := FormatParam(o.format);
    var qf := q + f;
    var hqf := h + qf;
    assert Params(o) == w + hqf;
    ValueOfAppend(w, hqf, "width");
    ValueOfAppend(h, qf, "width");
    ValueOfAppend(q, f, "width");
    ValueOfAppend(w, hqf, "height");
    ValueOfAppend(h, qf, "height");
    ValueOfAppend(q, f, "height");
    ValueOfAppend(w, hqf, "quality");
    ValueOfAppend(h, qf, "quality");
    ValueOfAppend(q, f, "quality");
    ValueOfAppend(w, hqf, "format");
    ValueOfAppend(h, qf, "format");
    ValueOfAppend(q, f, "format");
  }

  lemma {:induction false} ValueOfAppend(a: seq<(string, string)>, b: seq<(string, string)>, name: string)
    ensures ValueOf(a + b, name) == if ValueOf(a, name).Some? then ValueOf(a, name) else ValueOf(b, name)
    decreases |a|
  {
    if |a| > 0 {
      assert (a + b)[1..] == a[1..] + b;
      ValueOfAppend(a[1..], b, name);
    } else {
      assert a + b == b;
    }
  }

  /** A name or value the query carries as is: decimal digits, a minus sign, or lower-case letters. */
  predicate ParamValue(v: string) {
    forall i :: 0 <= i < |v| ==> IsDigit(v[i]) || v[i] == '-' || 'a' <= v[i] <= 'z'
  }

  /** One `name=value` pair of the serialized query. */
  function Pair(p: (string, string)): string {
    p.0 + "=" + p.1
  }

  /** `params.toString()`: the pairs joined by `&`. */
  function QueryString(ps: seq<(string, string)>): string {
    Join(seq(|ps|, i requires 0 <= i < |ps| => Pair(ps[i])), "&")
  }

  /** `url.includes("?") ? "&" : "?"` */
  function Separator(url: string): string {
    if '?' in url then "&" else "?"
  }

  /** The URLs the helper rewrites: non-empty and on the storage service's domain. */
  predicate Transformable(url: string) {
    url != "" && Contains(url, "supabase.co")
  }

  /**
   * `getOptimizedImageUrl(url, options)`: other URLs pass through; a storage
   * URL keeps its text and gains the separator and the transformation query.
   */
  function GetOptimizedImageUrl(url: string, o: ImageOptions): (r: string)
    ensures !Transformable(url) ==> r == url
    ensures Transformable(url) ==> StartsWith(r, url + Separator(url))
    ensures Transformable(url) ==> |r| > |url|
  {
    if url == "" || !Contains(url, "supabase.co") then url
    else url + Separator(url) + QueryString(Params(o))
  }

  /** With no options a storage URL still gains its separator, and nothing after it. */
  lemma NoOptionsLeavesTrailingSeparator(url: string)
    requires Transformable(url)
    ensures GetOptimizedImageUrl(url, NoOptions) == url + Separator(url)
  {
  }

  /** The separator is `&` exactly when the URL already has a query. */
  lemma SeparatorFollowsQuery(url: string)
    ensures Separator(url) == "&" <==> '?' in url
    ensures Separator(url) == "?" <==> '?' !in url
  {
  }

  /**
   * Reading the query back: after the URL and its separator, splitting at
   * `&` gives exactly the `name=value` pairs of the set options, in order.
   */
  lemma OptimizedQueryRoundTrip(url: string, o: ImageOptions)
    requires Transformable(url)
    requires Params(o) != []
    ensures var r := GetOptimizedImageUrl(url, o);
      Split(r[|url| + 1..], '&') == seq(|Params(o)|, i requires 0 <= i < |Params(o)| => Pair(Params(o)[i]))
  {
    var ps := Params(o);
    var pairs := seq(|ps|, i requires 0 <= i < |ps| => Pair(ps[i]));
    var r := GetOptimizedImageUrl(url, o);
    assert r[|url| + 1..] == QueryString(ps);
    forall i | 0 <= i < |pairs|
      ensures '&' !in pairs[i]
    {
      PairHasNoAmpersand(ps[i]);
    }
    SplitJoin(pairs, '&');
  }

  lemma PairHasNoAmpersand(p: (string, string))
    requires ParamValue(p.0) && ParamValue(p.1)
    ensures '&' !in Pair(p)
  {
    var s := Pair(p);
    forall k | 0 <= k < |s|
      ensures s[k] != '&'
    {
      if k < |p.0| {
        assert s[k] == p.0[k];
      } else if k > |p.0| {
        assert s[k] == p.1[k - |p.0| - 1];
      }
    }
  }
}

=== FILE: ledger.dfy ===
/**
 * The `images` table and the `images` storage bucket that content-image
 * uploads go through. A row records one uploaded body image: who uploaded
 * it, where its blob lives, the public URL that markdown embeds, and where
 * it is in its lifecycle (`temp`, `active`, `deleted`).
 */
module ImageLedger {
  import opened Base

  /** `Image.status` */
  datatype Status = Temp | Active | Deleted

  /** One row of the `images` table; `createdAt` is in milliseconds. */
  datatype ImageRow = ImageRow(
    id: string,
    userId: string,
    storagePath: string,
    publicUrl: string,
    status: Status,
    createdAt: int)

  /** The `images` table, in the order the database returns its rows. */
  type Ledger = seq<ImageRow>

  /** The paths of the objects in the `images` bucket. */
  type Blobs = set<string>

  /** Everything the image lifecycle reads and writes. */
  datatype Store = Store(ledger: Ledger, blobs: Blobs)

  /** The path under which the storage service publishes objects of the `images` bucket. */
  const PublicObjectPrefix := "/storage/v1/object/public/images/"

  /** `getPublicUrl(path)` of the `images` bucket, for a project served at `projectUrl`. */
  function PublicUrl(projectUrl: string, path: string): string {
    projectUrl + PublicObjectPrefix + path
  }

  /** `id` is the table's primary key. */
  predicate UniqueIds(l: Ledger) {
    forall i, j :: 0 <= i < j < |l| ==> l[i].id != l[j].id
  }

  /** The set of `public_url` values in the table. */
  function PublicUrls(l: Ledger): (urls: set<string>)
    ensures forall u :: u in urls <==> exists i :: 0 <= i < |l| && l[i].publicUrl == u
  {
    set i | 0 <= i < |l| :: l[i].publicUrl
  }

  /** The URLs of two stretches of rows together. */
  lemma PublicUrlsConcat(a: Ledger, b: Ledger)
    ensures PublicUrls(a + b) == PublicUrls(a) + PublicUrls(b)
  {
    var ab := a + b;
    forall u | u in PublicUrls(ab)
      ensures u in PublicUrls(a) || u in PublicUrls(b)
    {
      var i :| 0 <= i < |ab| && ab[i].publicUrl == u;
      if i >= |a| {
        assert b[i - |a|] == ab[i];
      }
    }
    forall u | u in PublicUrls(a)
      ensures u in PublicUrls(ab)
    {
      var i :| 0 <= i < |a| && a[i].publicUrl == u;
      assert ab[i] == a[i];
    }
    forall u | u in PublicUrls(b)
      ensures u in PublicUrls(ab)
    {
      var i :| 0 <= i < |b| && b[i].publicUrl == u;
      assert ab[|a| + i] == b[i];
    }
  }

  /**
   * `update({ status }).in("id", ids)`: every row whose id is listed takes
   * the new status and keeps all its other columns; no row is added or
   * removed.
   */
  function SetStatus(l: Ledger, ids: seq<string>, st: Status): (r: Ledger)
    ensures |r| == |l|
    ensures forall i :: 0 <= i < |l| ==> r[i].id == l[i].id
    ensures forall i :: 0 <= i < |l| && l[i].id in ids ==> r[i] == l[i].(status := st)
    ensures forall i :: 0 <= i < |l| && l[i].id !in ids ==> r[i] == l[i]
  {
    seq(|l|, i requires 0 <= i < |l| => if l[i].id in ids then l[i].(status := st) else l[i])
  }

  /** Two rows that differ at most in their status. */
  predicate SameRecord(a: ImageRow, b: ImageRow) {
    a.(status := b.status) == b
  }

  /** The ids of some rows, in order. */
  function Ids(rows: seq<ImageRow>): (ids: seq<string>)
    ensures |ids| == |rows| && forall k :: 0 <= k < |rows| ==> ids[k] == rows[k].id
  {
    seq(|rows|, k requires 0 <= k < |rows| => rows[k].id)
  }

  /** The storage paths of some rows, in order. */
  function Paths(rows: seq<ImageRow>): (paths: seq<string>)
    ensures |paths| == |rows| && forall k :: 0 <= k < |rows| ==> paths[k] == rows[k].storagePath
  {
    seq(|rows|, k requires 0 <= k < |rows| => rows[k].storagePath)
  }

  /** The set of storage paths of the rows that satisfy `p`. */
  function PathsWhere(rows: seq<ImageRow>, p: ImageRow -> bool): (paths: set<string>)
    ensures forall x :: x in paths <==> exists k :: 0 <= k < |rows| && p(rows[k]) && rows[k].storagePath == x
  {
    set k | 0 <= k < |rows| && p(rows[k]) :: rows[k].storagePath
  }

  /** Adding a row to the end adds its path when it satisfies `p`. */
  lemma PathsWhereAppend(rows: seq<ImageRow>, r: ImageRow, p: ImageRow -> bool)
    ensures PathsWhere(rows + [r], p) == PathsWhere(rows, p) + (if p(r) then {r.storagePath} else {})
  {
    var whole := rows + [r];
    assert forall k :: 0 <= k < |rows| ==> whole[k] == rows[k];
    assert whole[|rows|] == r;
  }

  /**
   * Updating the status of the rows with ids `a`, then of those with ids `b`,
   * to the same status is one update of the rows with ids in either list.
   */
  lemma SetStatusTwice(l: Ledger, a: seq<string>, b: seq<string>, st: Status)
    ensures SetStatus(SetStatus(l, a, st), b, st) == SetStatus(l, a + b, st)
  {
    var r1 := SetStatus(SetStatus(l, a, st), b, st);
    var r2 := SetStatus(l, a + b, st);
    forall i | 0 <= i < |l|
      ensures r1[i] == r2[i]
    {
      assert l[i].id in a + b <==> l[i].id in a || l[i].id in b;
    }
  }

  /** With unique ids, a row's id is among the ids of a selection exactly when the row was selected. */
  lemma IdSelected(l: Ledger, sel: seq<ImageRow>, q: ImageRow -> bool, i: int)
    requires UniqueIds(l) && 0 <= i < |l|
    requires forall x :: x in sel <==> x in l && q(x)
    ensures l[i].id in Ids(sel) <==> q(l[i])
  {
    if l[i].id in Ids(sel) {
      var k :| 0 <= k < |sel| && Ids(sel)[k] == l[i].id;
      assert sel[k] in sel;
      var j :| 0 <= j < |l| && l[j] == sel[k];
      assert j == i;
    }
    if q(l[i]) {
      assert l[i] in sel;
      var k :| 0 <= k < |sel| && sel[k] == l[i];
      assert Ids(sel)[k] == l[i].id;
    }
  }
}

=== FILE: lifecycle.dfy ===
/**
 * The image lifecycle as a whole: the operations that write the `images`
 * table side by side, the rule that `deleted` is final for all of them, and
 * the happy path from upload to an `active` row.
 */
module ImageLifecycle {
  import opened Base
  import opened ImageLedger
  import opened MarkdownScanner
  import opened PostForm
  import opened ContentImages
  import Sweep = TempImageSweep
  import Purge = PostDeletion
  import Backfill = ImageBackfill

  /** Every operation that writes the table or the bucket, with its inputs. */
  datatype Operation =
    | Upload(session: Option<string>, projectUrl: string, fileName: string, stem: string, now: int, upload: UploadReplies)
    | Submit(form: Form, coverFile: Option<string>, coverStem: string, projectUrl: string, session: Option<string>, submit: SubmitReplies)
    | SweepTemp(env: Sweep.Env, req: Sweep.Request, sweep: Sweep.SweepReplies)
    | DeletePost(post: Purge.Post, purge: Purge.PurgeReplies)
    | Migrate(session: Option<string>, posts: Result<seq<Backfill.SourcePost>, string>, existingError: Option<string>, now: int, backfill: Backfill.BackfillReplies)

  /** The store after an operation. */
  function Apply(st: Store, op: Operation): Store {
    match op
    case Upload(session, projectUrl, fileName, stem, now, rp) =>
      UploadContentImage(st, session, projectUrl, fileName, stem, now, rp).0
    case Submit(form, coverFile, coverStem, projectUrl, session, rp) =>
      HandleSubmit(st, form, coverFile, coverStem, projectUrl, session, rp).0
    case SweepTemp(env, req, rp) => Sweep.Sweep(st, env, req, rp).0
    case DeletePost(post, rp) => Purge.DeletePostImages(st, post, rp)
    case Migrate(session, posts, existingError, now, rp) => Backfill.Migrate(st, session, posts, existingError, now, rp).0
  }

  /**
   * `deleted` is final: no modelled operation removes a row, and none
   * changes a row that is `deleted` (with unique ids, which the table's primary key
   * guarantees).
   */
  lemma DeletedIsFinal(st: Store, op: Operation, i: int)
    requires UniqueIds(st.ledger) && 0 <= i < |st.ledger|
    requires st.ledger[i].status == Deleted
    ensures var l := Apply(st, op).ledger;
      |l| >= |st.ledger| && l[i] == st.ledger[i]
  {
    match op
    case Upload(session, projectUrl, fileName, stem, now, rp) =>
      UploadKeepsDeleted(st, session, projectUrl, fileName, stem, now, rp, i);
    case Submit(form, coverFile, coverStem, projectUrl, session, rp) =>
      SubmitKeepsDeleted(st, form, coverFile, coverStem, projectUrl, session, rp, i);
    case SweepTemp(env, req, rp) =>
      Sweep.SweepKeepsDeleted(st, env, req, rp, i);
    case DeletePost(post, rp) =>
      Purge.PurgeKeepsDeleted(st, post, rp, i);
    case Migrate(session, posts, existingError, now, rp) =>
      MigrateKeepsDeleted(st, session, posts, existingError, now, rp, i);
  }

  lemma UploadKeepsDeleted(
    st: Store, session: Option<string>, projectUrl: string, fileName: string, stem: string, now: int,
    rp: UploadReplies, i: int)
    requires 0 <= i < |st.ledger|
    ensures var l := UploadContentImage(st, session, projectUrl, fileName, stem, now, rp).0.ledger;
      |l| >= |st.ledger| && l[i] == st.ledger[i]
  {
    var l := UploadContentImage(st, session, projectUrl, fileName, stem, now, rp).0.ledger;
    assert l[..|st.ledger|] == st.ledger;
    assert l[..|st.ledger|][i] == l[i];
  }

  lemma SubmitKeepsDeleted(
    st: Store, form: Form, coverFile: Option<string>, coverStem: string, projectUrl: string,
    session: Option<string>, rp: SubmitReplies, i: int)
    requires UniqueIds(st.ledger) && 0 <= i < |st.ledger|
    requires st.ledger[i].status == Deleted
    ensures var l := HandleSubmit(st, form, coverFile, coverStem, projectUrl, session, rp).0.ledger;
      |l| >= |st.ledger| && l[i] == st.ledger[i]
  {
    SyncIsolation(st.ledger, Field(form, "content"), session, rp.sync);
  }

  lemma MigrateKeepsDeleted(
    st: Store, session: Option<string>, posts: Result<seq<Backfill.SourcePost>, string>,
    existingError: Option<string>, now: int, rp: Backfill.BackfillReplies, i: int)
    requires 0 <= i < |st.ledger|
    ensures var l := Backfill.Migrate(st, session, posts, existingError, now, rp).0.ledger;
      |l| >= |st.ledger| && l[i] == st.ledger[i]
  {
    if session.Some? && posts.Success? && existingError.None? {
      Backfill.MigratedRowsAreSound(st, session.value, posts.value, now, rp);
    }
  }

  /**
   * The lifecycle's main path: an image uploaded by the signed-in author,
   * inserted at the start of a line of the post body and saved with every
   * query succeeding, ends up `active`.
   */
  lemma UploadedAndEmbeddedBecomesActive(
    st: Store, uid: string, projectUrl: string, fileName: string, stem: string, now: int, id: string,
    form: Form, start: nat, end: nat, submit: SubmitReplies, coverFile: Option<string>, coverStem: string)
    requires UniqueIds(st.ledger) && forall j :: 0 <= j < |st.ledger| ==> st.ledger[j].id != id
    requires PlainAlt(fileName) && PlainUrl(PublicUrl(projectUrl, UploadPath(ContentFolder, stem, fileName)))
    requires start <= end <= |Field(form, "content")|
    requires start == 0 || IsLineTerminator(Field(form, "content")[start - 1])
    requires submit.insertError.None? && submit.sync == AllOk
    requires coverFile.Some? ==> submit.coverUploadError.None?
    ensures var up := UploadContentImage(st, Some(uid), projectUrl, fileName, stem, now, UploadReplies(None, Success(id), true));
      && up.1.Success?
      && var content := InsertMarkdown(Field(form, "content"), true, start, end, up.1.value.url, up.1.value.name).content;
      && var saved := HandleSubmit(up.0, form["content" := content], coverFile, coverStem, projectUrl, Some(uid), submit);
      && saved.1.Saved?
      && |saved.0.ledger| == |st.ledger| + 1
      && saved.0.ledger[|st.ledger|].id == id
      && saved.0.ledger[|st.ledger|].status == Active
  {
    var rp := UploadReplies(None, Success(id), true);
    var up := UploadContentImage(st, Some(uid), projectUrl, fileName, stem, now, rp);
    var url := up.1.value.url;
    var content := InsertMarkdown(Field(form, "content"), true, start, end, url, fileName).content;
    var form' := form["content" := content];
    assert Field(form', "content") == content;
    InsertedSnippetIsExtracted(Field(form, "content"), start, end, url, fileName);
    UploadKeepsRows(st, Some(uid), projectUrl, fileName, stem, now, rp);
    var k := |st.ledger|;
    assert up.0.ledger[k].publicUrl == url && Tracked(up.0.ledger[k], uid);
    SyncMatchesContent(up.0.ledger, content, uid);
  }
}

=== FILE: migrate.dfy ===
/**
 * The one-off back-fill of scripts/migrate-images-to-table.ts: every image
 * URL embedded in an existing post that the `images` table does not know
 * yet is registered as an `active` row, provided its storage path can be
 * read off the URL and the blob is there. The session, the posts read, the
 * URL parser, the storage download and the insert replies are inputs.
 */
module ImageBackfill {
  import opened Base
  import opened ImageLedger
  import opened MarkdownScanner

  /** `storage_path` as the pattern `/\/storage\/v1\/object\/public\/images\/(.+)/` finds it at `i`. */
  predicate PathMatchAt(s: string, i: int) {
    var j := i + |PublicObjectPrefix|;
    0 <= i && j < |s| && s[i..j] == PublicObjectPrefix && !IsLineTerminator(s[j])
  }

  /** How many characters from `j` on `.+` takes: up to the next line terminator or the end. */
  function LineRun(s: string, j: nat): (k: nat)
    requires j <= |s|
    ensures j + k <= |s| && LineFree(s, j, j + k)
    ensures j + k == |s| || IsLineTerminator(s[j + k])
    decreases |s| - j
  {
    if j == |s| || IsLineTerminator(s[j]) then 0 else 1 + LineRun(s, j + 1)
  }

  /** `k` is the leftmost offset at or after `i` where the pattern matches. */
  predicate LeftmostFrom(s: string, i: int, k: int) {
    i <= k < |s| && PathMatchAt(s, k) && forall m :: i <= m < k ==> !PathMatchAt(s, m)
  }

  /** Where the leftmost match at or after `i` starts, as `exec` scans for it. */
  function FirstMatch(s: string, i: nat): (k: Option<nat>)
    requires i <= |s|
    ensures k.None? <==> forall m :: i <= m < |s| ==> !PathMatchAt(s, m)
    ensures k.Some? ==> LeftmostFrom(s, i, k.value)
    decreases |s| - i
  {
    if i + |PublicObjectPrefix| >= |s| then None
    else if PathMatchAt(s, i) then Some(i)
    else FirstMatch(s, i + 1)
  }

  /** The group `(.+)` of a match at `k`. */
  function CaptureAt(s: string, k: nat): string
    requires PathMatchAt(s, k)
  {
    var j := k + |PublicObjectPrefix|;
    s[j..j + LineRun(s, j)]
  }

  /**
   * `extractStoragePathFromUrl(url)`, given the URL's pathname (`None` when
   * `new URL` throws): what follows the first `/storage/v1/object/public/images/`
   * that has something after it, up to the end of the line.
   */
  function ExtractStoragePath(pathname: Option<string>): (path: Option<string>)
    ensures pathname.None? ==> path.None?
    ensures pathname.Some? ==> (path.None? <==> forall k :: 0 <= k < |pathname.value| ==> !PathMatchAt(pathname.value, k))
    ensures path.Some? ==> pathname.Some? && exists k :: LeftmostFrom(pathname.value, 0, k) && path.value == CaptureAt(pathname.value, k)
    ensures path.Some? ==> path.value != "" && NoLineTerminator(path.value)
  {
    match pathname
    case None => None
    case Some(s) =>
      match FirstMatch(s, 0)
      case None => None
      case Some(k) => Some(CaptureAt(s, k))
  }

  /** Without a line terminator ahead, `.+` runs to the end. */
  lemma LineRunToEnd(s: string, j: nat)
    requires j <= |s| && LineFree(s, j, |s|)
    ensures LineRun(s, j) == |s| - j
  {
  }

  /** The pathname of a public URL gives back the storage path it was built from. */
  lemma StoragePathRoundTrip(path: string)
    requires path != "" && NoLineTerminator(path)
    ensures ExtractStoragePath(Some(PublicObjectPrefix + path)) == Some(path)
  {
    var s := PublicObjectPrefix + path;
    var j := |PublicObjectPrefix|;
    assert s[0..j] == PublicObjectPrefix;
    assert s[j] == path[0];
    assert PathMatchAt(s, 0);
    assert LineFree(s, j, |s|) by {
      assert forall k :: j <= k < |s| ==> s[k] == path[k - j];
    }
    LineRunToEnd(s, j);
    assert s[j..|s|] == path;
  }

  /** The columns of `posts` the back-fill reads. */
  datatype SourcePost = SourcePost(id: string, content: Option<string>)

  /** The URLs one post's body embeds (`post.content || ""`). */
  function PostUrls(post: SourcePost): seq<string> {
    ExtractImageUrls(post.content.GetOr(""))
  }

  /** The URLs each post embeds, one post after another. */
  function EmbeddedUrls(posts: seq<SourcePost>): seq<string>
    decreases |posts|
  {
    if |posts| == 0 then [] else EmbeddedUrls(posts[..|posts| - 1]) + PostUrls(posts[|posts| - 1])
  }

  /** `u` is embedded in the body of one of the posts. */
  ghost predicate EmbeddedInSome(posts: seq<SourcePost>, u: string) {
    exists i :: 0 <= i < |posts| && u in PostUrls(posts[i])
  }

  lemma {:induction false} EmbeddedUrlsMembership(posts: seq<SourcePost>)
    ensures forall u :: u in EmbeddedUrls(posts) <==> EmbeddedInSome(posts, u)
    decreases |posts|
  {
    if |posts| > 0 {
      var n := |posts| - 1;
      EmbeddedUrlsMembership(posts[..n]);
      forall u {
        EmbeddedInSomeAppend(posts, u);
      }
    }
  }

  /** A URL is embedded in some post iff it is embedded in an earlier post or in the last one. */
  lemma EmbeddedInSomeAppend(posts: seq<SourcePost>, u: string)
    requires |posts| > 0
    ensures EmbeddedInSome(posts, u) <==>
      EmbeddedInSome(posts[..|posts| - 1], u) || u in PostUrls(posts[|posts| - 1])
  {
    var n := |posts| - 1;
    if EmbeddedInSome(posts, u) {
      var i :| 0 <= i < |posts| && u in PostUrls(posts[i]);
      if i < n {
        assert posts[..n][i] == posts[i];
      }
    }
    if EmbeddedInSome(posts[..n], u) {
      var i :| 0 <= i < n && u in PostUrls(posts[..n][i]);
      assert posts[..n][i] == posts[i];
    }
  }

  /**
   * `allImageUrls`: a set filled post by post, so its order is that of first
   * appearance. Every URL embedded somewhere appears once.
   */
  function AllImageUrls(posts: seq<SourcePost>): (urls: seq<string>)
    ensures NoDuplicates(urls)
    ensures forall u :: u in urls <==> EmbeddedInSome(posts, u)
  {
    var all := EmbeddedUrls(posts);
    KeepFirstSeenSpec(all);
    EmbeddedUrlsMembership(posts);
    forall u | EmbeddedInSome(posts, u)
      ensures u != ""
    {
      var i :| 0 <= i < |posts| && u in PostUrls(posts[i]);
    }
    KeepFirstSeen(all)
  }

  /** `newImageUrls`: the collected URLs no row of the table has, in the same order. */
  function NewUrls(posts: seq<SourcePost>, l: Ledger): (urls: seq<string>)
    ensures NoDuplicates(urls)
    ensures forall u :: u in urls <==> EmbeddedInSome(posts, u) && u !in PublicUrls(l)
  {
    var all := AllImageUrls(posts);
    var r := Filter(all, (u: string) => u !in PublicUrls(l));
    FilterKeepsNoDuplicates(all, (u: string) => u !in PublicUrls(l));
    r
  }

  /** A selection from a sequence without repetitions has none either. */
  lemma {:induction false} FilterKeepsNoDuplicates<T(!new)>(xs: seq<T>, p: T -> bool)
    requires NoDuplicates(xs)
    ensures NoDuplicates(Filter(xs, p))
    decreases |xs|
  {
    if |xs| > 0 {
      var n := |xs| - 1;
      assert NoDuplicates(xs[..n]);
      FilterKeepsNoDuplicates(xs[..n], p);
      assert xs[n] !in xs[..n];
    }
  }

  /**
   * The replies the loop meets: the pathname `new URL` gives each URL (`None`
   * when it throws), whether downloading a path succeeds, and the new id or
   * error message of inserting each URL.
   */
  datatype BackfillReplies = BackfillReplies(
    pathname: string -> Option<string>,
    downloadOk: string -> bool,
    insert: string -> Result<string, string>)

  function PathOf(url: string, rp: BackfillReplies): Option<string> {
    ExtractStoragePath(rp.pathname(url))
  }

  /** The URL names a storage path whose blob `checkStorageFileExists` finds. */
  predicate Located(url: string, blobs: Blobs, rp: BackfillReplies) {
    var path := PathOf(url, rp);
    path.Some? && path.value in blobs && rp.downloadOk(path.value)
  }

  /** The URL is located and its insert succeeds. */
  predicate Registered(url: string, blobs: Blobs, rp: BackfillReplies) {
    Located(url, blobs, rp) && rp.insert(url).Success?
  }

  /** The row registering `url`: the session's user, the path read off the URL, `active`. */
  function NewRow(url: string, uid: string, now: int, rp: BackfillReplies): ImageRow {
    var id := match rp.insert(url) case Success(id) => id case Failure(_) => "";
    ImageRow(id, uid, PathOf(url, rp).GetOr(""), url, Active, now)
  }

  function NewRows(urls: seq<string>, uid: string, now: int, rp: BackfillReplies): (rows: seq<ImageRow>)
    ensures |rows| == |urls| && forall k :: 0 <= k < |urls| ==> rows[k] == NewRow(urls[k], uid, now, rp)
  {
    seq(|urls|, k requires 0 <= k < |urls| => NewRow(urls[k], uid, now, rp))
  }

  function RegisteredUrls(urls: seq<string>, blobs: Blobs, rp: BackfillReplies): seq<string> {
    Filter(urls, (u: string) => Registered(u, blobs, rp))
  }

  function SkippedUrls(urls: seq<string>, blobs: Blobs, rp: BackfillReplies): seq<string> {
    Filter(urls, (u: string) => !Located(u, blobs, rp))
  }

  /** The table and the three counters of the loop. */
  datatype Tally = Tally(ledger: Ledger, success: nat, skip: nat, error: nat)

  /**
   * One turn of the loop: a URL without a storage path, or whose blob is
   * not found, is skipped; otherwise it is inserted, and a failed insert is
   * counted as an error.
   */
  function BackfillUrl(t: Tally, url: string, uid: string, blobs: Blobs, now: int, rp: BackfillReplies): Tally {
    if !Located(url, blobs, rp) then t.(skip := t.skip + 1)
    else if rp.insert(url).Failure? then t.(error := t.error + 1)
    else t.(ledger := t.ledger + [NewRow(url, uid, now, rp)], success := t.success + 1)
  }

  /**
   * The loop over the new URLs, in closed form: one row is appended for
   * each registered URL, in order, and the counters count the registered,
   * the skipped and the failed URLs, which together are all of them.
   */
  function BackfillUrls(l: Ledger, urls: seq<string>, uid: string, blobs: Blobs, now: int, rp: BackfillReplies): (t: Tally)
    ensures t.ledger == l + NewRows(RegisteredUrls(urls, blobs, rp), uid, now, rp)
    ensures t.success == |RegisteredUrls(urls, blobs, rp)|
    ensures t.skip == |SkippedUrls(urls, blobs, rp)|
    ensures t.success + t.skip + t.error == |urls|
    decreases |urls|
  {
    if |urls| == 0 then Tally(l, 0, 0, 0)
    else
      var p := urls[..|urls| - 1];
      var u := urls[|urls| - 1];
      assert urls == p + [u];
      var prev := BackfillUrls(l, p, uid, blobs, now, rp);
      BackfillUrlStep(l, p, u, uid, blobs, now, rp, prev);
      BackfillUrl(prev, u, uid, blobs, now, rp)
  }

  /** The turn of URL `u` extends the closed form of the loop over the URLs before it. */
  lemma BackfillUrlStep(l: Ledger, p: seq<string>, u: string, uid: string, blobs: Blobs, now: int, rp: BackfillReplies, prev: Tally)
    requires prev.ledger == l + NewRows(RegisteredUrls(p, blobs, rp), uid, now, rp)
    requires prev.success == |RegisteredUrls(p, blobs, rp)|
    requires prev.skip == |SkippedUrls(p, blobs, rp)|
    requires prev.success + prev.skip + prev.error == |p|
    ensures var t := BackfillUrl(prev, u, uid, blobs, now, rp);
      && t.ledger == l + NewRows(RegisteredUrls(p + [u], blobs, rp), uid, now, rp)
      && t.success == |RegisteredUrls(p + [u], blobs, rp)|
      && t.skip == |SkippedUrls(p + [u], blobs, rp)|
      && t.success + t.skip + t.error == |p| + 1
  {
    RegisteredUrlsAppend(p, u, blobs, rp);
    SkippedUrlsAppend(p, u, blobs, rp);
    var t := BackfillUrl(prev, u, uid, blobs, now, rp);
    if !Located(u, blobs, rp) {
      assert t == prev.(skip := prev.skip + 1);
    } else if rp.insert(u).Failure? {
      assert t == prev.(error := prev.error + 1);
    } else {
      assert Registered(u, blobs, rp);
      var r := RegisteredUrls(p, blobs, rp);
      NewRowsAppend(r, u, uid, now, rp);
      AppendAssoc(l, NewRows(r, uid, now, rp), [NewRow(u, uid, now, rp)]);
    }
  }

  lemma AppendAssoc(a: Ledger, b: Ledger, c: Ledger)
    ensures a + (b + c) == (a + b) + c
  {
  }

  lemma RegisteredUrlsAppend(urls: seq<string>, u: string, blobs: Blobs, rp: BackfillReplies)
    ensures RegisteredUrls(urls + [u], blobs, rp) == RegisteredUrls(urls, blobs, rp) + (if Registered(u, blobs, rp) then [u] else [])
  {
    assert (urls + [u])[..|urls|] == urls;
  }

  lemma SkippedUrlsAppend(urls: seq<string>, u: string, blobs: Blobs, rp: BackfillReplies)
    ensures SkippedUrls(urls + [u], blobs, rp) == SkippedUrls(urls, blobs, rp) + (if !Located(u, blobs, rp) then [u] else [])
  {
    assert (urls + [u])[..|urls|] == urls;
  }

  lemma NewRowsAppend(urls: seq<string>, u: string, uid: string, now: int, rp: BackfillReplies)
    ensures NewRows(urls + [u], uid, now, rp) == NewRows(urls, uid, now, rp) + [NewRow(u, uid, now, rp)]
  {
  }

  /** How the script ends. */
  datatype BackfillReport =
    | NoSession
    | PostsFetchFailed(message: string)
    | ExistingFetchFailed(message: string)
    | AllRegistered
    | Migrated(success: nat, skip: nat, error: nat)

  /**
   * `migrateImages()`: stops without a session or when a query fails, and
   * when every embedded URL is already in the table; otherwise runs the loop
   * over the new URLs. Blobs are only read, and existing rows are kept.
   */
  function Migrate(
    st: Store, session: Option<string>, posts: Result<seq<SourcePost>, string>,
    existingError: Option<string>, now: int, rp: BackfillReplies): (out: (Store, BackfillReport))
    ensures out.0.blobs == st.blobs
    ensures !out.1.Migrated? ==> out.0 == st
    ensures session.None? ==> out.1 == NoSession
    ensures session.Some? && posts.Failure? ==> out == (st, PostsFetchFailed(posts.error))
    ensures session.Some? && posts.Success? && existingError.Some? ==> out == (st, ExistingFetchFailed(existingError.value))
    ensures session.Some? && posts.Success? && existingError.None? && NewUrls(posts.value, st.ledger) != [] ==> out.1.Migrated?
    ensures out.1.AllRegistered? <==> session.Some? && posts.Success? && existingError.None? && NewUrls(posts.value, st.ledger) == []
    ensures out.1.Migrated? ==> session.Some? && posts.Success? && existingError.None?
    ensures out.1.Migrated? && posts.Success? && session.Some? ==>
      var urls := NewUrls(posts.value, st.ledger);
      && out.0.ledger == st.ledger + NewRows(RegisteredUrls(urls, st.blobs, rp), session.value, now, rp)
      && out.1.success + out.1.skip + out.1.error == |urls| > 0
      && out.1.success == |RegisteredUrls(urls, st.blobs, rp)|
  {
    if session.None? then (st, NoSession)
    else
      match posts
      case Failure(msg) => (st, PostsFetchFailed(msg))
      case Success(ps) =>
        match existingError
        case Some(msg) => (st, ExistingFetchFailed(msg))
        case None =>
          var urls := NewUrls(ps, st.ledger);
          if |urls| == 0 then (st, AllRegistered)
          else
            var t := BackfillUrls(st.ledger, urls, session.value, st.blobs, now, rp);
            (Store(t.ledger, st.blobs), Migrated(t.success, t.skip, t.error))
  }

  /**
   * Every row the back-fill adds is `active`, belongs to the session's user,
   * carries a URL some post embeds and the table did not have, and points at
   * a blob that is there under the path read off that URL; no two added rows
   * share a URL.
   */
  lemma MigratedRowsAreSound(
    st: Store, uid: string, posts: seq<SourcePost>, now: int, rp: BackfillReplies)
    ensures var l := Migrate(st, Some(uid), Success(posts), None, now, rp).0.ledger;
      && l[..|st.ledger|] == st.ledger
      && (forall k :: |st.ledger| <= k < |l| ==>
        && l[k].status == Active && l[k].userId == uid
        && EmbeddedInSome(posts, l[k].publicUrl) && l[k].publicUrl !in PublicUrls(st.ledger)
        && PathOf(l[k].publicUrl, rp) == Some(l[k].storagePath) && l[k].storagePath in st.blobs)
      && (forall k, m :: |st.ledger| <= k < m < |l| ==> l[k].publicUrl != l[m].publicUrl)
  {
    var urls := NewUrls(posts, st.ledger);
    var reg := RegisteredUrls(urls, st.blobs, rp);
    var l := Migrate(st, Some(uid), Success(posts), None, now, rp).0.ledger;
    FilterKeepsNoDuplicates(urls, (u: string) => Registered(u, st.blobs, rp));
    if |urls| > 0 {
      var added := NewRows(reg, uid, now, rp);
      assert l == st.ledger + added;
      forall j | 0 <= j < |reg|
        ensures reg[j] in urls && Registered(reg[j], st.blobs, rp)
      {
        assert reg[j] in reg;
      }
      assert forall k :: |st.ledger| <= k < |l| ==> l[k] == added[k - |st.ledger|];
    }
  }

  /**
   * A second run over the same posts looks at exactly the URLs the first
   * run did not register; so once every new URL was registered, a second
   * run reports that all images are registered and changes nothing.
   */
  lemma SecondRunSeesLeftovers(
    st: Store, uid: string, posts: seq<SourcePost>, now: int, rp: BackfillReplies)
    ensures var st1 := Migrate(st, Some(uid), Success(posts), None, now, rp).0;
      forall u :: u in NewUrls(posts, st1.ledger) <==>
        u in NewUrls(posts, st.ledger) && !Registered(u, st.blobs, rp)
  {
    var urls := NewUrls(posts, st.ledger);
    if |urls| > 0 {
      AppendedUrls(st.ledger, RegisteredUrls(urls, st.blobs, rp), uid, now, rp);
    }
  }

  /** The URLs in the table after rows are appended: the old ones and the appended rows' ones. */
  lemma AppendedUrls(l: Ledger, us: seq<string>, uid: string, now: int, rp: BackfillReplies)
    ensures forall u :: u in PublicUrls(l + NewRows(us, uid, now, rp)) <==> u in PublicUrls(l) || u in us
  {
    PublicUrlsConcat(l, NewRows(us, uid, now, rp));
    NewRowsUrls(us, uid, now, rp);
  }

  /** The appended rows carry exactly the registered URLs. */
  lemma NewRowsUrls(us: seq<string>, uid: string, now: int, rp: BackfillReplies)
    ensures forall u :: u in PublicUrls(NewRows(us, uid, now, rp)) <==> u in us
  {
    var rows := NewRows(us, uid, now, rp);
    forall u
      ensures u in PublicUrls(rows) <==> u in us
    {
      if u in us {
        var k :| 0 <= k < |us| && us[k] == u;
        assert rows[k].publicUrl == u;
      }
    }
  }

  /** When the first run registered every new URL, the second run finds nothing to do. */
  lemma CompleteBackfillIsFinal(
    st: Store, uid: string, posts: seq<SourcePost>, now: int, rp: BackfillReplies)
    requires forall u :: u in NewUrls(posts, st.ledger) ==> Registered(u, st.blobs, rp)
    ensures var st1 := Migrate(st, Some(uid), Success(posts), None, now, rp).0;
      Migrate(st1, Some(uid), Success(posts), None, now, rp) == (st1, AllRegistered)
  {
    var st1 := Migrate(st, Some(uid), Success(posts), None, now, rp).0;
    SecondRunSeesLeftovers(st, uid, posts, now, rp);
    var again := NewUrls(posts, st1.ledger);
    assert forall k :: 0 <= k < |again| ==> again[k] in again;
  }
}

=== FILE: navigation.dfy ===
/**
 * The static menu of the site (app/config/navigation.ts): four category
 * entries, and the two lookups the routes use to validate a category slug
 * taken from the URL.
 */
module Navigation {
  import opened Base

  /** A menu entry; `text` is the source's `label` (a reserved word here). */
  datatype MenuItem = MenuItem(href: string, text: string, description: string, category: string)

  /** A menu entry for a category, linked at `/` followed by the category. */
  function Entry(category: string, text: string, description: string): MenuItem {
    MenuItem("/" + category, text, description, category)
  }

  const MobilityDescription := "Exploring movement, travel, and the vehicles that connect us to places and experiences."
  const SystemDescription := "Building, optimizing, and understanding the systems that power our digital lives."
  const AssetDescription := "Thoughts on wealth, investment, and the philosophy of building long-term value."
  const KernelDescription := "Deep reflections on philosophy, design principles, and the core ideas that shape our thinking."

  /** `MENU_ITEMS`: four entries with distinct categories, each linked at `/` followed by its category. */
  function MenuTable(): (items: seq<MenuItem>)
    ensures |items| == 4
    ensures forall i :: 0 <= i < |items| ==> items[i].href == "/" + items[i].category
    ensures forall i :: 0 <= i < |items| ==> items[i].category != ""
    ensures forall i, j :: 0 <= i < j < |items| ==> items[i].category != items[j].category
  {
    [ Entry("mobility", "Mobility", MobilityDescription),
      Entry("system", "System", SystemDescription),
      Entry("asset", "Asset", AssetDescription),
      Entry("kernel", "Kernel", KernelDescription) ]
  }

  const MenuItems := MenuTable()

  /** `isValidCategory`: a defined, non-empty slug that names a menu category. */
  function IsValidCategory(category: Option<string>): (b: bool)
    ensures b <==> (category.Some? && category.value != "" &&
      exists i :: 0 <= i < |MenuItems| && MenuItems[i].category == category.value)
  {
    match category
    case None => false
    case Some(c) => c != "" && exists i :: 0 <= i < |MenuItems| && MenuItems[i].category == c
  }

  /** `getCategoryBySlug` in the navigation table: the menu entry whose category is the slug. */
  function GetMenuItemBySlug(slug: Option<string>): (r: Option<MenuItem>)
    ensures r.Some? ==> slug.Some? && r.value in MenuItems && r.value.category == slug.value
    ensures slug == None || slug == Some("") ==> r.None?
  {
    match slug
    case None => None
    case Some(s) => if s == "" then None else Find(MenuItems, (item: MenuItem) => item.category == s)
  }

  /** The two lookups agree: a category is valid exactly when its menu entry exists. */
  lemma ValidIffFound(c: Option<string>)
    ensures IsValidCategory(c) <==> GetMenuItemBySlug(c).Some?
  {
  }

  /** The entry found for a slug is the only entry with that category. */
  lemma FoundEntryIsUnique(s: string, i: int)
    requires 0 <= i < |MenuItems| && MenuItems[i].category == s
    ensures GetMenuItemBySlug(Some(s)) == Some(MenuItems[i])
  {
    FindUnique(MenuItems, (item: MenuItem) => item.category == s, i);
  }
}

=== FILE: pages.dfy ===
/**
 * The static pages of the site (app/utils/pages.ts): the reads and the
 * upsert with their error fallbacks, and the grouping of active pages by
 * footer section. The rows each query returns are inputs; the database's
 * filtering and ordering are not modelled.
 */
module Pages {
  import opened Base

  /** A row of the `pages` table (timestamps left out). */
  datatype Page = Page(
    id: string,
    slug: string,
    title: string,
    content: string,
    section: string,
    imageUrl: Option<string>,
    displayOrder: int,
    isActive: bool)

  /** The section a page without one is listed under. */
  const DefaultSection := "정보"

  /** `page.section || "정보"` */
  function SectionKey(p: Page): (k: string)
    ensures k != ""
    ensures p.section != "" ==> k == p.section
    ensures p.section == "" ==> k == DefaultSection
  {
    if p.section == "" then DefaultSection else p.section
  }

  /** `getPageBySlug`: the page the query found, or null on any error, "not found" included. */
  function GetPageBySlug(reply: Response<Page>): Option<Page> {
    RowOrNull(reply)
  }

  /** `getAllPages`: the rows the query returned; no rows on error or when there is no data. */
  function GetAllPages(reply: Response<seq<Page>>): (r: seq<Page>)
    ensures reply.Failure? ==> r == []
    ensures reply.Success? && reply.value.Some? ==> r == reply.value.value
    ensures reply.Success? ==> r == reply.value.GetOr([])
  {
    match reply
    case Failure(_) => []
    case Success(d) => d.GetOr([])
  }

  /** `upsertPage`: the stored page, or null when the upsert failed. */
  function UpsertPage(reply: Response<Page>): Option<Page> {
    RowOrNull(reply)
  }

  /** One entry of the grouped record: a section and its pages. */
  type Group = (string, seq<Page>)

  function Keys(groups: seq<Group>): (ks: seq<string>)
    ensures |ks| == |groups| && forall i :: 0 <= i < |groups| ==> ks[i] == groups[i].0
  {
    seq(|groups|, i requires 0 <= i < |groups| => groups[i].0)
  }

  /** Where the group with section `k` is, or `|groups|` when there is none. */
  function GroupIndex(groups: seq<Group>, k: string): (i: nat)
    ensures i <= |groups|
    ensures i < |groups| ==> groups[i].0 == k
    ensures i == |groups| <==> forall j :: 0 <= j < |groups| ==> groups[j].0 != k
    decreases |groups|
  {
    if |groups| == 0 then 0
    else if groups[0].0 == k then 0
    else
      var i := 1 + GroupIndex(groups[1..], k);
      assert forall j :: 1 <= j < |groups| ==> groups[j] == groups[1..][j - 1];
      i
  }

  /** One step of the `forEach`: the page joins its section's group, which is created when missing. */
  function AddToGroup(groups: seq<Group>, p: Page): seq<Group> {
    var k := SectionKey(p);
    var i := GroupIndex(groups, k);
    if i < |groups| then groups[i := (k, groups[i].1 + [p])] else groups + [(k, [p])]
  }

  /** The grouping loop of `getActivePagesBySection`, over the fetched rows in order. */
  function GroupBySection(pages: seq<Page>): seq<Group>
    decreases |pages|
  {
    if |pages| == 0 then [] else AddToGroup(GroupBySection(pages[..|pages| - 1]), pages[|pages| - 1])
  }

  /** The pages that belong under section `k`, in query order. */
  function PagesIn(pages: seq<Page>, k: string): seq<Page> {
    Filter(pages, (p: Page) => SectionKey(p) == k)
  }

  /** Some page of `pages` is listed under section `k`. */
  ghost predicate HasSection(pages: seq<Page>, k: string) {
    exists q :: q in pages && SectionKey(q) == k
  }

  /**
   * `groups` is the grouping of `pages`: one group per section that occurs,
   * each holding exactly the pages of that section in query order.
   */
  ghost predicate Grouped(groups: seq<Group>, pages: seq<Page>) {
    && NoDuplicates(Keys(groups))
    && (forall k :: k in Keys(groups) <==> HasSection(pages, k))
    && (forall j :: 0 <= j < |groups| ==> groups[j].1 == PagesIn(pages, groups[j].0) && groups[j].1 != [])
  }

  /** Appending a page extends the selection of its own section and no other. */
  lemma PagesInAppend(prefix: seq<Page>, p: Page, k: string)
    ensures PagesIn(prefix + [p], k) == PagesIn(prefix, k) + (if SectionKey(p) == k then [p] else [])
  {
    assert (prefix + [p])[..|prefix|] == prefix;
  }

  /** A section no page has selects nothing. */
  lemma PagesInEmpty(pages: seq<Page>, k: string)
    requires !HasSection(pages, k)
    ensures PagesIn(pages, k) == []
  {
    assert forall i :: 0 <= i < |pages| ==> pages[i] in pages;
  }

  /** Appending a page adds its own section to those that occur, and no other. */
  lemma HasSectionAppend(prefix: seq<Page>, p: Page, k: string)
    ensures HasSection(prefix + [p], k) <==> HasSection(prefix, k) || k == SectionKey(p)
  {
    if HasSection(prefix + [p], k) {
      var q :| q in prefix + [p] && SectionKey(q) == k;
      assert q in prefix || q == p;
    }
    if HasSection(prefix, k) {
      var q :| q in prefix && SectionKey(q) == k;
      assert q in prefix + [p];
    }
    if k == SectionKey(p) {
      assert p in prefix + [p];
    }
  }

  /** One step of the loop keeps the grouping exact. */
  lemma AddToGroupKeepsGrouped(groups: seq<Group>, prefix: seq<Page>, p: Page)
    requires Grouped(groups, prefix)
    ensures Grouped(AddToGroup(groups, p), prefix + [p])
  {
    if GroupIndex(groups, SectionKey(p)) < |groups| {
      AddToExistingGroup(groups, prefix, p);
    } else {
      AddNewGroup(groups, prefix, p);
    }
  }

  /** A page whose section already has a group joins the end of that group. */
  lemma {:induction false} AddToExistingGroup(groups: seq<Group>, prefix: seq<Page>, p: Page)
    requires Grouped(groups, prefix)
    requires GroupIndex(groups, SectionKey(p)) < |groups|
    ensures Grouped(AddToGroup(groups, p), prefix + [p])
  {
    var pages := prefix + [p];
    var k := SectionKey(p);
    var i := GroupIndex(groups, k);
    var r := AddToGroup(groups, p);
    assert Keys(r) == Keys(groups);
    assert k in Keys(groups);
    forall k' {
      HasSectionAppend(prefix, p, k');
    }
    forall j | 0 <= j < |r|
      ensures r[j].1 == PagesIn(pages, r[j].0) && r[j].1 != []
    {
      PagesInAppend(prefix, p, r[j].0);
      if j != i {
        assert r[j] == groups[j];
        assert groups[j].0 != k by {
          assert Keys(groups)[j] != Keys(groups)[i] || j == i;
        }
      }
    }
  }

  /** A page whose section has no group yet opens a new group at the end. */
  lemma {:induction false} AddNewGroup(groups: seq<Group>, prefix: seq<Page>, p: Page)
    requires Grouped(groups, prefix)
    requires GroupIndex(groups, SectionKey(p)) == |groups|
    ensures Grouped(AddToGroup(groups, p), prefix + [p])
  {
    var pages := prefix + [p];
    var k := SectionKey(p);
    var r := AddToGroup(groups, p);
    assert Keys(r) == Keys(groups) + [k];
    assert k !in Keys(groups);
    PagesInEmpty(prefix, k);
    forall k' {
      HasSectionAppend(prefix, p, k');
    }
    forall j | 0 <= j < |r|
      ensures r[j].1 == PagesIn(pages, r[j].0) && r[j].1 != []
    {
      PagesInAppend(prefix, p, r[j].0);
    }
  }

  /**
   * What grouping produces: one group per section that occurs, each holding
   * exactly the pages of that section in query order, so no group is empty
   * and no page is lost or placed twice.
   */
  lemma GroupBySectionSpec(pages: seq<Page>)
    ensures NoDuplicates(Keys(GroupBySection(pages)))
    ensures forall k :: k in Keys(GroupBySection(pages)) <==> exists p :: p in pages && SectionKey(p) == k
    ensures forall g :: g in GroupBySection(pages) ==> g.1 == PagesIn(pages, g.0) && g.1 != []
  {
    GroupBySectionGrouped(pages);
  }

  /** The loop, step by step, keeps the grouping exact. */
  lemma {:induction false} GroupBySectionGrouped(pages: seq<Page>)
    ensures Grouped(GroupBySection(pages), pages)
    decreases |pages|
  {
    if |pages| > 0 {
      var n := |pages| - 1;
      assert pages == pages[..n] + [pages[n]];
      GroupBySectionGrouped(pages[..n]);
      AddToGroupKeepsGrouped(GroupBySection(pages[..n]), pages[..n], pages[n]);
    }
  }

  /** Sum of the sizes of the groups. */
  function TotalPages(groups: seq<Group>): nat
    decreases |groups|
  {
    if |groups| == 0 then 0 else |groups[0].1| + TotalPages(groups[1..])
  }

  lemma {:induction false} TotalPagesUpdate(groups: seq<Group>, i: nat, g: Group)
    requires i < |groups|
    ensures TotalPages(groups[i := g]) == TotalPages(groups) - |groups[i].1| + |g.1|
    decreases |groups|
  {
    if i > 0 {
      assert groups[i := g][1..] == groups[1..][i - 1 := g];
      TotalPagesUpdate(groups[1..], i - 1, g);
    }
  }

  lemma {:induction false} TotalPagesAppend(groups: seq<Group>, g: Group)
    ensures TotalPages(groups + [g]) == TotalPages(groups) + |g.1|
    decreases |groups|
  {
    if |groups| > 0 {
      assert (groups + [g])[1..] == groups[1..] + [g];
      TotalPagesAppend(groups[1..], g);
    } else {
      assert ([] + [g])[1..] == [];
    }
  }

  /** The groups together hold as many pages as the query returned. */
  lemma {:induction false} GroupBySectionCount(pages: seq<Page>)
    ensures TotalPages(GroupBySection(pages)) == |pages|
    decreases |pages|
  {
    if |pages| > 0 {
      var n := |pages| - 1;
      GroupBySectionCount(pages[..n]);
      var groups := GroupBySection(pages[..n]);
      var k := SectionKey(pages[n]);
      var i := GroupIndex(groups, k);
      if i < |groups| {
        TotalPagesUpdate(groups, i, (k, groups[i].1 + [pages[n]]));
      } else {
        TotalPagesAppend(groups, (k, [pages[n]]));
      }
    }
  }

  /**
   * The property names a plain object `{}` inherits from `Object.prototype`.
   * For each of them `grouped[section]` is already truthy (a function, or
   * the prototype itself for `__proto__`) and has no `push`.
   */
  const InheritedNames: set<string> := {
    "constructor", "hasOwnProperty", "isPrototypeOf", "propertyIsEnumerable",
    "toString", "toLocaleString", "valueOf", "__proto__",
    "__defineGetter__", "__defineSetter__", "__lookupGetter__", "__lookupSetter__"}

  /** Some fetched page is listed under an inherited property name. */
  predicate HitsInherited(pages: seq<Page>) {
    exists i :: 0 <= i < |pages| && SectionKey(pages[i]) in InheritedNames
  }

  /**
   * `getActivePagesBySection`: the active pages grouped by section, in the
   * order sections first appear; an empty record on error. A page whose
   * section is an inherited property name makes `grouped[section].push`
   * throw a `TypeError`, and the returned promise rejects.
   */
  function GetActivePagesBySection(reply: Response<seq<Page>>): (r: Result<seq<Group>, string>)
    ensures reply.Failure? ==> r == Success([])
    ensures reply.Success? ==> (r.Failure? <==> HitsInherited(reply.value.GetOr([])))
    ensures r.Failure? ==> r.error == "TypeError"
    ensures reply.Success? && r.Success? ==> r.value == GroupBySection(reply.value.GetOr([]))
  {
    match reply
    case Failure(_) => Success([])
    case Success(d) =>
      var pages := d.GetOr([]);
      if HitsInherited(pages) then Failure("TypeError") else Success(GroupBySection(pages))
  }
}

=== FILE: post_form.dfy ===
/**
 * The editing helpers of the post form in app/routes/admin.write.tsx: the
 * slug derived from the title, the form update on each keystroke, the file
 * extension of an upload, and the splice that puts an image snippet into
 * the content at the cursor.
 */
module PostForm {
  import opened Base
  import opened MarkdownScanner

  /** An ASCII capital letter. */
  predicate IsUpperAscii(c: char) {
    'A' <= c <= 'Z'
  }

  /** The two non-ASCII characters whose lower case holds an ASCII letter. */
  const KelvinSign: char := '\U{212A}'
  const DottedCapitalI: char := '\U{0130}'

  /** A character `toLowerCase` changes in a way a slug can see. */
  predicate FoldsToAscii(c: char) {
    IsUpperAscii(c) || c == KelvinSign || c == DottedCapitalI
  }

  /**
   * `toLowerCase` of one character, as far as `[a-z0-9]` can tell: ASCII
   * capitals become their small letters, the Kelvin sign becomes `k`, and
   * the dotted capital I becomes `i` followed by a combining dot above
   * (U+0307). Every other character is kept: its lower case, if it has one,
   * is outside `[a-z0-9]` just as it is.
   */
  function LowerChar(c: char): (r: string)
    ensures |r| >= 1 && forall i :: 0 <= i < |r| ==> !FoldsToAscii(r[i])
    ensures !FoldsToAscii(c) ==> r == [c]
  {
    if IsUpperAscii(c) then [(c as int + 32) as char]
    else if c == KelvinSign then "k"
    else if c == DottedCapitalI then "i\U{0307}"
    else [c]
  }

  /** `title.toLowerCase()`, character by character. */
  function LowerAll(s: string): (r: string)
    ensures |r| >= |s|
    ensures forall i :: 0 <= i < |r| ==> !FoldsToAscii(r[i])
    decreases |s|
  {
    if |s| == 0 then "" else LowerChar(s[0]) + LowerAll(s[1..])
  }

  /** Lower-casing works piece by piece. */
  lemma {:induction false} LowerAllAppend(a: string, b: string)
    ensures LowerAll(a + b) == LowerAll(a) + LowerAll(b)
    decreases |a|
  {
    if |a| == 0 {
      assert a + b == b;
    } else {
      assert (a + b)[1..] == a[1..] + b;
      LowerAllAppend(a[1..], b);
    }
  }

  /** Text with nothing to fold is already lower case. */
  lemma {:induction false} LowerAllFixes(s: string)
    requires forall i :: 0 <= i < |s| ==> !FoldsToAscii(s[i])
    ensures LowerAll(s) == s
    decreases |s|
  {
    if |s| > 0 {
      LowerAllFixes(s[1..]);
    }
  }

  /** Lowering twice is lowering once. */
  lemma LowerAllIdempotent(s: string)
    ensures LowerAll(LowerAll(s)) == LowerAll(s)
  {
    LowerAllFixes(LowerAll(s));
  }

  /** The characters `[a-z0-9]` a slug keeps. */
  predicate IsSlugChar(c: char) {
    'a' <= c <= 'z' || '0' <= c <= '9'
  }

  /** No two dashes in a row. */
  predicate NoDoubleDash(s: string) {
    forall i :: 0 <= i < |s| - 1 ==> !(s[i] == '-' && s[i + 1] == '-')
  }

  /** Only `[a-z0-9-]`. */
  predicate SlugAlphabet(s: string) {
    forall i :: 0 <= i < |s| ==> IsSlugChar(s[i]) || s[i] == '-'
  }

  /** A well-formed slug: `[a-z0-9-]` only, no dash at either end, no two dashes in a row. */
  predicate IsSlug(s: string) {
    SlugAlphabet(s) && NoDoubleDash(s) && (|s| > 0 ==> s[0] != '-' && s[|s| - 1] != '-')
  }

  /** The letters and digits of `s`, in order. */
  function SlugChars(s: string): string
    decreases |s|
  {
    if |s| == 0 then "" else (if IsSlugChar(s[0]) then [s[0]] else []) + SlugChars(s[1..])
  }

  /** `s` without its leading run of characters outside `[a-z0-9]`. */
  function SkipRun(s: string): (r: string)
    ensures |r| <= |s| && (|r| > 0 ==> IsSlugChar(r[0]))
    ensures SlugChars(r) == SlugChars(s)
    decreases |s|
  {
    if |s| == 0 || IsSlugChar(s[0]) then s else SkipRun(s[1..])
  }

  /** `s.replace(/[^a-z0-9]+/g, "-")`: every maximal run outside `[a-z0-9]` becomes one dash. */
  function CollapseRuns(s: string): (r: string)
    ensures SlugAlphabet(r) && NoDoubleDash(r)
    ensures |s| > 0 && IsSlugChar(s[0]) ==> |r| > 0 && r[0] == s[0]
    ensures SlugChars(r) == SlugChars(s)
    decreases |s|
  {
    if |s| == 0 then ""
    else if IsSlugChar(s[0]) then
      var rest := CollapseRuns(s[1..]);
      assert ([s[0]] + rest)[1..] == rest;
      [s[0]] + rest
    else
      var rest := CollapseRuns(SkipRun(s[1..]));
      assert ("-" + rest)[1..] == rest;
      "-" + rest
  }

  /** `s.replace(/(^-|-$)/g, "")`: one leading and one trailing dash removed. */
  function TrimDashes(s: string): (r: string)
    ensures SlugAlphabet(s) && NoDoubleDash(s) ==> IsSlug(r)
    ensures SlugChars(r) == SlugChars(s)
  {
    var a := if |s| > 0 && s[0] == '-' then s[1..] else s;
    assert SlugChars(s) == SlugChars(a);
    var b := if |a| > 0 && a[|a| - 1] == '-' then a[..|a| - 1] else a;
    assert SlugChars(a) == SlugChars(b) by {
      if |a| > 0 && a[|a| - 1] == '-' {
        SlugCharsAppend(b, "-");
        assert a == b + "-";
      }
    }
    b
  }

  lemma {:induction false} SlugCharsAppend(a: string, b: string)
    ensures SlugChars(a + b) == SlugChars(a) + SlugChars(b)
    decreases |a|
  {
    if |a| == 0 {
      assert a + b == b;
    } else {
      assert (a + b)[1..] == a[1..] + b;
      SlugCharsAppend(a[1..], b);
    }
  }

  /** The slug `handleInputChange` derives from a title (admin.write.tsx:131-135). */
  function Slugify(title: string): (slug: string)
    ensures IsSlug(slug)
    ensures SlugChars(slug) == SlugChars(LowerAll(title))
  {
    TrimDashes(CollapseRuns(LowerAll(title)))
  }

  /** A well-formed slug survives each of the three steps unchanged. */
  lemma {:induction false} CollapseRunsKeepsSlugShape(s: string)
    requires SlugAlphabet(s) && NoDoubleDash(s)
    ensures CollapseRuns(s) == s
    decreases |s|
  {
    if |s| > 0 {
      assert SlugAlphabet(s[1..]) && NoDoubleDash(s[1..]);
      CollapseRunsKeepsSlugShape(s[1..]);
      if !IsSlugChar(s[0]) {
        if |s| > 1 {
          assert IsSlugChar(s[1]);
        }
        assert SkipRun(s[1..]) == s[1..];
        assert s == "-" + s[1..];
      } else {
        assert s == [s[0]] + s[1..];
      }
    }
  }

  /** A word: a string of `[a-z0-9]` only. */
  predicate IsWord(w: string) {
    forall i :: 0 <= i < |w| ==> IsSlugChar(w[i])
  }

  /** A separator: a string with nothing from `[a-z0-9]`. */
  predicate IsSeparator(sep: string) {
    forall i :: 0 <= i < |sep| ==> !IsSlugChar(sep[i])
  }

  /** Skipping a run stops exactly where the next word starts. */
  lemma {:induction false} SkipRunStopsAtWord(sep: string, rest: string)
    requires IsSeparator(sep)
    requires rest == "" || IsSlugChar(rest[0])
    ensures SkipRun(sep + rest) == rest
    decreases |sep|
  {
    if |sep| == 0 {
      assert sep + rest == rest;
    } else {
      assert (sep + rest)[0] == sep[0];
      assert (sep + rest)[1..] == sep[1..] + rest;
      SkipRunStopsAtWord(sep[1..], rest);
    }
  }

  /**
   * A word followed by a run of other characters keeps its letters in
   * place and the whole run becomes a single dash before the next word.
   */
  lemma {:induction false} CollapseRunsSeparatesWord(w: string, sep: string, rest: string)
    requires |w| > 0 && IsWord(w)
    requires |sep| > 0 && IsSeparator(sep)
    requires rest == "" || IsSlugChar(rest[0])
    ensures CollapseRuns(w + sep + rest) == w + "-" + CollapseRuns(rest)
    decreases |w|
  {
    var s := w + sep + rest;
    assert s[0] == w[0];
    if |w| == 1 {
      var t := sep + rest;
      assert s[1..] == t;
      assert t[0] == sep[0];
      assert t[1..] == sep[1..] + rest;
      SkipRunStopsAtWord(sep[1..], rest);
      assert w == [w[0]];
    } else {
      assert s[1..] == w[1..] + sep + rest;
      CollapseRunsSeparatesWord(w[1..], sep, rest);
      assert w == [w[0]] + w[1..];
    }
  }

  /** A word alone is left as it is. */
  lemma CollapseRunsKeepsWord(w: string)
    requires IsWord(w)
    ensures CollapseRuns(w) == w
  {
    CollapseRunsKeepsSlugShape(w);
  }

  /** A string with no dash at either end loses nothing to the trim. */
  lemma TrimDashesKeepsEnds(c: string)
    requires |c| > 0 && c[0] != '-' && c[|c| - 1] != '-'
    ensures TrimDashes(c) == c
  {
  }

  /** Joining three strings without foldable characters gives one without them. */
  lemma {:induction false} NoFoldInJoin(a: string, sep: string, b: string)
    requires forall i :: 0 <= i < |a| ==> !FoldsToAscii(a[i])
    requires forall i :: 0 <= i < |sep| ==> !FoldsToAscii(sep[i])
    requires forall i :: 0 <= i < |b| ==> !FoldsToAscii(b[i])
    ensures var s := a + sep + b; forall i :: 0 <= i < |s| ==> !FoldsToAscii(s[i])
  {
    var s := a + sep + b;
    forall i | 0 <= i < |s| ensures !FoldsToAscii(s[i]) {
      if i < |a| {
        assert s[i] == a[i];
      } else if i < |a| + |sep| {
        assert s[i] == sep[i - |a|];
      } else {
        assert s[i] == b[i - |a| - |sep|];
      }
    }
  }

  /** Two words with a run of other, unfoldable characters between them derive `word-word`. */
  lemma SlugifySeparatesWords(a: string, sep: string, b: string)
    requires |a| > 0 && IsWord(a) && |b| > 0 && IsWord(b)
    requires |sep| > 0 && IsSeparator(sep)
    requires forall i :: 0 <= i < |sep| ==> !FoldsToAscii(sep[i])
    ensures Slugify(a + sep + b) == a + "-" + b
  {
    var s := a + sep + b;
    NoFoldInJoin(a, sep, b);
    LowerAllFixes(s);
    CollapseRunsSeparatesWord(a, sep, b);
    CollapseRunsKeepsWord(b);
    var c := a + "-" + b;
    assert CollapseRuns(LowerAll(s)) == c;
    TrimDashesKeepsEnds(c);
  }

  /** `"a b"` derives `"a-b"`. */
  lemma SpaceBecomesDash()
    ensures Slugify("a b") == "a-b"
  {
    assert IsWord("a") && IsWord("b") && IsSeparator(" ");
    assert "a" + " " + "b" == "a b";
    SlugifySeparatesWords("a", " ", "b");
  }

  /** The dotted capital I leaves its `i` in the slug, cut from what follows by a dash. */
  lemma DottedCapitalIKeepsItsI()
    ensures Slugify("\U{0130}s") == "i-s"
  {
    assert LowerAll("\U{0130}s") == "i\U{0307}s";
    assert IsWord("i") && IsWord("s") && IsSeparator("\U{0307}");
    assert "i" + "\U{0307}" + "s" == "i\U{0307}s";
    CollapseRunsSeparatesWord("i", "\U{0307}", "s");
    CollapseRunsKeepsWord("s");
    TrimDashesKeepsEnds("i-s");
  }

  /** Slugs are fixed points: deriving a slug from a slug gives it back. */
  lemma SlugifyFixesSlugs(s: string)
    requires IsSlug(s)
    ensures Slugify(s) == s
  {
    LowerAllFixes(s);
    CollapseRunsKeepsSlugShape(s);
  }

  /** Deriving twice is deriving once. */
  lemma SlugifyIdempotent(title: string)
    ensures Slugify(Slugify(title)) == Slugify(title)
  {
    SlugifyFixesSlugs(Slugify(title));
  }

  /**
   * The form state: field name to value. A field that was never set reads
   * as the empty string, which JavaScript treats like a missing value.
   */
  type Form = map<string, string>

  function Field(form: Form, name: string): string {
    if name in form then form[name] else ""
  }

  /**
   * `handleInputChange`: the edited field takes the new value; editing the
   * title also fills the slug, but only while the slug field is empty.
   */
  function HandleInputChange(form: Form, name: string, value: string): (r: Form)
    ensures Field(r, name) == value
    ensures name == "title" && Field(form, "slug") == "" ==> Field(r, "slug") == Slugify(value)
    ensures name != "slug" && !(name == "title" && Field(form, "slug") == "") ==> Field(r, "slug") == Field(form, "slug")
    ensures forall k :: k != name && k != "slug" ==> Field(r, k) == Field(form, k)
  {
    if name == "title" && Field(form, "slug") == "" then
      form[name := value]["slug" := Slugify(value)]
    else
      form[name := value]
  }

  /** Once the slug is set, no edit of another field changes it. */
  lemma SlugStaysOnceSet(form: Form, name: string, value: string)
    requires Field(form, "slug") != "" && name != "slug"
    ensures Field(HandleInputChange(form, name, value), "slug") == Field(form, "slug")
  {
  }

  /** The slug the title derives is always well formed. */
  lemma DerivedSlugIsSlug(form: Form, value: string)
    requires Field(form, "slug") == ""
    ensures IsSlug(Field(HandleInputChange(form, "title", value), "slug"))
  {
  }

  /** `name.split(".").pop()`: the text after the last dot, or the whole name without one. */
  function FileExtension(name: string): (ext: string)
    ensures '.' !in ext
  {
    var parts := Split(name, '.');
    LastSplitPart(name, '.');
    parts[|parts| - 1]
  }

  /** The last part of a split holds no separator and ends the text, right after the last separator. */
  lemma LastSplitPart(s: string, c: char)
    ensures var parts := Split(s, c); var last := parts[|parts| - 1];
      && c !in last && |last| <= |s| && s[|s| - |last|..] == last
      && (c in s ==> |last| < |s| && s[|s| - |last| - 1] == c)
      && (c !in s ==> last == s)
  {
    LastPartShape(s, c);
  }

  /** `last` is what follows the last `c` in `s`, or all of `s` when there is no `c`. */
  ghost predicate IsLastPart(s: string, c: char, last: string) {
    && c !in last && |last| <= |s| && s[|s| - |last|..] == last
    && (c in s ==> |last| < |s| && s[|s| - |last| - 1] == c)
    && (c !in s ==> last == s)
  }

  lemma {:induction false} LastPartShape(s: string, c: char)
    ensures var parts := Split(s, c); IsLastPart(s, c, parts[|parts| - 1])
    decreases |s|
  {
    if |s| == 0 {
    } else {
      var t := s[1..];
      LastPartShape(t, c);
      SplitLast(s, c);
      SplitHasTwoParts(t, c);
      var rest := Split(t, c);
      if s[0] != c && |rest| == 1 {
        LastPartCons(s, c, rest[0]);
      } else {
        LastPartTail(s, c, rest[|rest| - 1]);
      }
    }
  }

  /** With no separator after the first character, which is not one either, the last part is the whole text. */
  lemma LastPartCons(s: string, c: char, last: string)
    requires |s| > 0 && s[0] != c && c !in s[1..] && IsLastPart(s[1..], c, last)
    ensures IsLastPart(s, c, [s[0]] + last)
  {
    assert [s[0]] + s[1..] == s;
  }

  /** A separator at the front or further on leaves the tail's last part as the last part. */
  lemma LastPartTail(s: string, c: char, last: string)
    requires |s| > 0 && (s[0] == c || c in s[1..]) && IsLastPart(s[1..], c, last)
    ensures IsLastPart(s, c, last)
  {
    var t := s[1..];
    assert t[|t| - |last|..] == s[|s| - |last|..];
    if c in t {
      assert t[|t| - |last| - 1] == s[|s| - |last| - 1];
    } else {
      assert s[0] in s;
    }
  }

  /** How the last part of a split follows from the split of the text's tail. */
  lemma SplitLast(s: string, c: char)
    requires |s| > 0
    ensures var rest := Split(s[1..], c); var parts := Split(s, c);
      parts[|parts| - 1] == if s[0] != c && |rest| == 1 then [s[0]] + rest[0] else rest[|rest| - 1]
  {
  }

  /** The extension is what follows the name's last dot. */
  lemma FileExtensionFollowsLastDot(name: string)
    requires '.' in name
    ensures var ext := FileExtension(name);
      |ext| < |name| && name[|name| - |ext| - 1..] == "." + ext
  {
    LastSplitPart(name, '.');
    var ext := FileExtension(name);
    assert name[|name| - |ext| - 1..] == [name[|name| - |ext| - 1]] + name[|name| - |ext|..];
  }

  /** The text area after an insertion: the new content and where the cursor goes. */
  datatype Edit = Edit(content: string, cursor: nat)

  /**
   * `insertMarkdownToEditor(url, alt)` with the selection `[start, end)`:
   * the selection is replaced by the snippet and a line break, and the
   * cursor lands right after that line break. Without a text area on the
   * page nothing happens.
   */
  function InsertMarkdown(content: string, textarea: bool, start: nat, end: nat, url: string, alt: string): (e: Edit)
    requires start <= end <= |content|
    ensures !textarea ==> e.content == content
    ensures textarea ==> |e.content| == |content| - (end - start) + |ImageMarkdown(alt, url)| + 1
    ensures textarea ==> e.cursor == start + |ImageMarkdown(alt, url)| + 1
    ensures textarea ==> && e.content[..start] == content[..start]
                         && e.content[start..e.cursor] == ImageMarkdown(alt, url) + "\n"
                         && e.content[e.cursor..] == content[end..]
  {
    if !textarea then Edit(content, start)
    else
      var md := ImageMarkdown(alt, url);
      var c := content[..start] + md + "\n" + content[end..];
      assert c[..start] == content[..start];
      assert c[start + |md| + 1..] == content[end..];
      assert c[start..start + |md| + 1] == md + "\n";
      Edit(c, start + |md| + 1)
  }

  /** With a collapsed selection, taking the inserted text out again restores the content. */
  lemma InsertionIsReversible(content: string, pos: nat, url: string, alt: string)
    requires pos <= |content|
    ensures var e := InsertMarkdown(content, true, pos, pos, url, alt);
      e.content[..pos] + e.content[e.cursor..] == content
  {
  }

  /**
   * An image snippet inserted at the start of a line is found again by the
   * scan that runs when the post is saved.
   */
  lemma InsertedSnippetIsExtracted(content: string, start: nat, end: nat, url: string, alt: string)
    requires start <= end <= |content|
    requires start == 0 || IsLineTerminator(content[start - 1])
    requires PlainAlt(alt) && PlainUrl(url) && url != ""
    ensures url in ExtractImageUrls(InsertMarkdown(content, true, start, end, url, alt).content)
  {
    var before := content[..start];
    var after := "\n" + content[end..];
    assert InsertMarkdown(content, true, start, end, url, alt).content == before + ImageMarkdown(alt, url) + after;
    SnippetAtLineStartIsExtracted(before, alt, url, after);
  }
}

=== FILE: scanner.dfy ===
/**
 * `extractImageUrlsFromMarkdown`, written out three times in the source
 * (admin.write.tsx, admin.dashboard.tsx, migrate-images-to-table.ts) with
 * the same body: run the global regular expression `/!\[.*?\]\((.*?)\)/g`
 * over the markdown, and keep every non-empty capture the first time it is
 * seen.
 *
 * The scan is written on suffixes of the content. `MatchHere` is one
 * attempt of the regular expression at the start of a suffix; `Captures` is
 * the `exec` loop, which retries one character later after a failed attempt
 * and resumes right after a successful one. `MatchesAt` is the regular
 * expression's meaning with backtracking, and `MatchHereIsLeastMatch`
 * proves that `MatchHere` picks the match the lazy quantifiers choose.
 */
module MarkdownScanner {
  import opened Base

  /** `pat` occurs in `t` at offset `i`. */
  predicate OccursAt(t: string, i: int, pat: string) {
    0 <= i && i + |pat| <= |t| && t[i..i + |pat|] == pat
  }

  /** A literal the scanner looks for: non-empty, without line terminators. */
  predicate IsLiteral(pat: string) {
    pat != [] && NoLineTerminator(pat)
  }

  /**
   * Where a lazy `.*?` followed by the literal `pat` stops when matched from
   * the start of `t`: the first occurrence of `pat` with no line terminator
   * before it, or `None` when a line terminator or the end comes first.
   */
  function FindOnLine(t: string, pat: string): (r: Option<nat>)
    requires IsLiteral(pat)
    ensures r.Some? ==> OccursAt(t, r.value, pat) && LineFree(t, 0, r.value)
    decreases |t|
  {
    if |t| == 0 || IsLineTerminator(t[0]) then None
    else if OccursAt(t, 0, pat) then Some(0)
    else
      match FindOnLine(t[1..], pat)
      case None => None
      case Some(k) =>
        assert t[1..][k..k + |pat|] == t[k + 1..k + 1 + |pat|];
        Some(k + 1)
  }

  /** `k` is the offset `FindOnLine` is meant to find. */
  ghost predicate FirstOnLine(t: string, pat: string, k: int) {
    OccursAt(t, k, pat) && LineFree(t, 0, k) && forall i :: 0 <= i < k ==> !OccursAt(t, i, pat)
  }

  /** `FindOnLine` finds the first occurrence before a line break, and only fails when there is none. */
  lemma FindOnLineSpec(t: string, pat: string)
    requires IsLiteral(pat)
    ensures FindOnLine(t, pat).Some? ==> FirstOnLine(t, pat, FindOnLine(t, pat).value)
    ensures FindOnLine(t, pat).None? ==> forall i :: OccursAt(t, i, pat) ==> !LineFree(t, 0, i)
  {
    if FindOnLine(t, pat).Some? {
      FindOnLineFirst(t, pat);
    } else {
      forall i | OccursAt(t, i, pat)
        ensures !LineFree(t, 0, i)
      {
        if LineFree(t, 0, i) {
          FindOnLineComplete(t, pat, i);
        }
      }
    }
  }

  /** What `FindOnLine` finds is the first occurrence. */
  lemma {:induction false} FindOnLineFirst(t: string, pat: string)
    requires IsLiteral(pat) && FindOnLine(t, pat).Some?
    ensures FirstOnLine(t, pat, FindOnLine(t, pat).value)
    decreases |t|
  {
    if !OccursAt(t, 0, pat) {
      var k := FindOnLine(t[1..], pat).value;
      FindOnLineFirst(t[1..], pat);
      forall i | 0 <= i < k + 1
        ensures !OccursAt(t, i, pat)
      {
        if i > 0 && OccursAt(t, i, pat) {
          OccursInWhole(t, 1, i, pat);
        }
      }
    }
  }

  /** An occurrence with no line break before it is found, or an earlier one is. */
  lemma {:induction false} FindOnLineComplete(t: string, pat: string, i: int)
    requires IsLiteral(pat) && OccursAt(t, i, pat) && LineFree(t, 0, i)
    ensures FindOnLine(t, pat).Some? && FindOnLine(t, pat).value <= i
    decreases |t|
  {
    if i > 0 && !OccursAt(t, 0, pat) {
      OccursInWhole(t, 1, i, pat);
      assert LineFree(t[1..], 0, i - 1) by {
        forall j | 0 <= j < i - 1
          ensures !IsLineTerminator(t[1..][j])
        {
          assert t[1..][j] == t[j + 1];
        }
      }
      FindOnLineComplete(t[1..], pat, i - 1);
    }
  }

  /** A first occurrence before any line break is what `FindOnLine` returns. */
  lemma FindOnLineUnique(t: string, pat: string, k: int)
    requires IsLiteral(pat)
    requires FirstOnLine(t, pat, k)
    ensures FindOnLine(t, pat) == Some(k)
  {
    FindOnLineComplete(t, pat, k);
    FindOnLineFirst(t, pat);
  }

  /**
   * A search inside a text that ends with a line terminator never looks past
   * it, so whatever follows cannot change its outcome.
   */
  lemma {:induction false} FindOnLineStopsAtLineEnd(x: string, b: string, pat: string)
    requires IsLiteral(pat)
    requires |x| > 0 && IsLineTerminator(x[|x| - 1])
    ensures FindOnLine(x + b, pat) == FindOnLine(x, pat)
    ensures FindOnLine(x, pat).Some? ==> FindOnLine(x, pat).value + |pat| < |x|
    decreases |x|
  {
    var t := x + b;
    assert t[0] == x[0];
    if !IsLineTerminator(x[0]) {
      assert |x| >= 2;
      assert OccursAt(t, 0, pat) <==> OccursAt(x, 0, pat) by {
        PrefixBeforeLineEnd(x, b, pat);
      }
      assert t[1..] == x[1..] + b;
      FindOnLineStopsAtLineEnd(x[1..], b, pat);
    }
  }

  /** A literal found at the start of text that ends a line lies before the line break. */
  lemma PrefixBeforeLineEnd(x: string, b: string, pat: string)
    requires IsLiteral(pat)
    requires |x| > 0 && IsLineTerminator(x[|x| - 1])
    ensures OccursAt(x + b, 0, pat) <==> OccursAt(x, 0, pat)
    ensures OccursAt(x, 0, pat) ==> |pat| < |x|
  {
    var t := x + b;
    assert forall k :: 0 <= k < |pat| && OccursAt(t, 0, pat) ==> pat[k] == t[k];
    assert forall k :: 0 <= k < |x| ==> t[k] == x[k];
    if OccursAt(x, 0, pat) || OccursAt(t, 0, pat) {
      assert t[..|pat|] == x[..|pat|];
    }
  }

  /** One successful attempt: the captured URL and how many characters it consumed. */
  datatype Match = Match(url: string, length: nat)

  /**
   * One attempt of `/!\[.*?\]\((.*?)\)/` at the start of `t`: `![`, then the
   * first `](` on the same line, then the first `)` on the same line.
   */
  function MatchHere(t: string): (r: Option<Match>)
    ensures r.Some? ==> 5 <= r.value.length <= |t|
  {
    if |t| >= 2 && t[0] == '!' && t[1] == '[' then MatchAfterOpen(t[2..]) else None
  }

  /** The rest of an attempt once `![` has matched; `a` is the text after it. */
  function MatchAfterOpen(a: string): (r: Option<Match>)
    ensures r.Some? ==> 5 <= r.value.length <= |a| + 2
  {
    match FindOnLine(a, "](")
    case None => None
    case Some(n) => MatchUrl(a[n + 2..], n)
  }

  /** The URL part of an attempt; `s` follows the `](`, and `n` characters of alt text came before. */
  function MatchUrl(s: string, n: nat): (r: Option<Match>)
    ensures r.Some? ==> r.value.length == n + |r.value.url| + 5 && |r.value.url| < |s|
  {
    match FindOnLine(s, ")")
    case None => None
    case Some(m) => Some(Match(s[..m], n + m + 5))
  }

  /**
   * The regular expression matches `t` at offset `p` along the path that
   * gives `.*?` exactly `n` characters of alt text and `(.*?)` exactly `m`
   * characters of URL.
   */
  ghost predicate MatchesAt(t: string, p: int, n: nat, m: nat) {
    && 0 <= p && p + n + m + 5 <= |t|
    && t[p] == '!' && t[p + 1] == '['
    && LineFree(t, p + 2, p + n + 2)
    && t[p + n + 2] == ']' && t[p + n + 3] == '('
    && LineFree(t, p + n + 4, p + n + m + 4)
    && t[p + n + m + 4] == ')'
  }

  /**
   * `(n, m)` is the match a backtracking engine reports: lazy quantifiers try
   * the shortest alt text first and, for it, the shortest URL first.
   */
  ghost predicate LeastMatch(t: string, n: nat, m: nat) {
    MatchesAt(t, 0, n, m)
    && forall n': nat, m': nat :: MatchesAt(t, 0, n', m') ==> n < n' || (n == n' && m <= m')
  }

  /** When an attempt succeeds, it reports the lazy match, whose URL holds no `)` and no line break. */
  lemma MatchHereIsLeastMatch(t: string)
    requires MatchHere(t).Some?
    ensures exists n: nat :: var u := MatchHere(t).value.url;
      && LeastMatch(t, n, |u|)
      && n + |u| + 4 <= |t| && u == t[n + 4..n + |u| + 4]
      && MatchHere(t).value.length == n + |u| + 5
    ensures ')' !in MatchHere(t).value.url
    ensures NoLineTerminator(MatchHere(t).value.url)
  {
    MatchHereUnfold(t);
    var n := FindOnLine(t[2..], "](").value;
    var s := t[n + 4..];
    var m := FindOnLine(s, ")").value;
    FindOnLineFirst(t[2..], "](");
    FindOnLineFirst(s, ")");
    LazyMatchFound(t, n, m);
    LazyMatchMinimal(t, n, m);
    UrlIsPlain(s, m);
    assert LeastMatch(t, n, m);
  }

  /** A successful attempt, spelled out: the two searches and the URL between them. */
  lemma MatchHereUnfold(t: string)
    requires MatchHere(t).Some?
    ensures FindOnLine(t[2..], "](").Some?
    ensures var n := FindOnLine(t[2..], "](").value;
      && n + 4 <= |t| && FindOnLine(t[n + 4..], ")").Some?
      && var m := FindOnLine(t[n + 4..], ")").value;
      && n + 4 + m <= |t|
      && MatchHere(t).value == Match(t[n + 4..][..m], n + m + 5)
      && t[n + 4..][..m] == t[n + 4..n + 4 + m]
  {
    var n := FindOnLine(t[2..], "](").value;
    DropDrop(t, 2, n + 2);
  }

  /** An occurrence in a suffix is an occurrence in the whole text, shifted. */
  lemma OccursInSuffix(t: string, d: nat, i: int, pat: string)
    requires d <= |t| && OccursAt(t[d..], i, pat)
    ensures OccursAt(t, i + d, pat)
  {
    assert t[d..][i..i + |pat|] == t[i + d..i + d + |pat|];
  }

  /** An occurrence past the start of a suffix is an occurrence in that suffix. */
  lemma OccursInWhole(t: string, d: nat, i: int, pat: string)
    requires d <= i && OccursAt(t, i, pat)
    ensures OccursAt(t[d..], i - d, pat)
  {
    assert t[d..][i - d..i - d + |pat|] == t[i..i + |pat|];
  }

  /** A line-free stretch of a suffix is line-free in the whole text, shifted. */
  lemma LineFreeInSuffix(t: string, d: nat, hi: int)
    requires d <= |t| && hi <= |t| - d && LineFree(t[d..], 0, hi)
    ensures LineFree(t, d, hi + d)
  {
    forall i | d <= i < hi + d
      ensures !IsLineTerminator(t[i])
    {
      assert t[i] == t[d..][i - d];
    }
  }

  /** Two characters at `i` spell a two-character literal. */
  lemma OccursPair(t: string, i: int, pat: string)
    requires |pat| == 2 && 0 <= i && i + 2 <= |t|
    ensures OccursAt(t, i, pat) <==> t[i] == pat[0] && t[i + 1] == pat[1]
  {
    assert t[i..i + 2] == [t[i], t[i + 1]];
  }

  /** One character at `i` spells a one-character literal. */
  lemma OccursSingle(t: string, i: int, pat: string)
    requires |pat| == 1 && 0 <= i && i + 1 <= |t|
    ensures OccursAt(t, i, pat) <==> t[i] == pat[0]
  {
    assert t[i..i + 1] == [t[i]];
  }

  /** The offsets the two searches stop at form a match of the regular expression. */
  lemma LazyMatchFound(t: string, n: nat, m: nat)
    requires |t| >= 2 && t[0] == '!' && t[1] == '['
    requires FirstOnLine(t[2..], "](", n)
    requires FirstOnLine(t[n + 4..], ")", m)
    ensures MatchesAt(t, 0, n, m)
  {
    OccursInSuffix(t, 2, n, "](");
    OccursPair(t, n + 2, "](");
    LineFreeInSuffix(t, 2, n);
    OccursInSuffix(t, n + 4, m, ")");
    OccursSingle(t, n + m + 4, ")");
    LineFreeInSuffix(t, n + 4, m);
  }

  /** No match of the regular expression has shorter alt text, or the same alt text and a shorter URL. */
  lemma LazyMatchMinimal(t: string, n: nat, m: nat)
    requires |t| >= 2
    requires FirstOnLine(t[2..], "](", n)
    requires FirstOnLine(t[n + 4..], ")", m)
    ensures forall n': nat, m': nat :: MatchesAt(t, 0, n', m') ==> n < n' || (n == n' && m <= m')
  {
    forall n': nat, m': nat | MatchesAt(t, 0, n', m')
      ensures n < n' || (n == n' && m <= m')
    {
      OccursPair(t, n' + 2, "](");
      OccursInWhole(t, 2, n' + 2, "](");
      if n == n' {
        OccursSingle(t, n + m' + 4, ")");
        OccursInWhole(t, n + 4, n + m' + 4, ")");
      }
    }
  }

  /** The URL the lazy `(.*?)` captures holds no `)` and no line break. */
  lemma UrlIsPlain(s: string, m: nat)
    requires FirstOnLine(s, ")", m)
    ensures PlainUrl(s[..m])
  {
    var u := s[..m];
    forall i | 0 <= i < |u|
      ensures u[i] != ')' && !IsLineTerminator(u[i])
    {
      assert u[i] == s[i];
      OccursSingle(s, i, ")");
    }
  }

  /** When the regular expression can match at the start of `t` at all, the attempt succeeds. */
  lemma MatchHereComplete(t: string, n: nat, m: nat)
    requires MatchesAt(t, 0, n, m)
    ensures MatchHere(t).Some?
  {
    AltSearchSucceeds(t, n, m);
    var k := FindOnLine(t[2..], "](").value;
    UrlSearchSucceeds(t, n, m, k);
    DropDrop(t, 2, k + 2);
  }

  /** Along a match, the search for `](` stops at or before the match's own `](`. */
  lemma AltSearchSucceeds(t: string, n: nat, m: nat)
    requires MatchesAt(t, 0, n, m)
    ensures FindOnLine(t[2..], "](").Some? && FindOnLine(t[2..], "](").value <= n
  {
    var a := t[2..];
    OccursPair(t, n + 2, "](");
    OccursInWhole(t, 2, n + 2, "](");
    assert LineFree(a, 0, n) by {
      forall i | 0 <= i < n
        ensures !IsLineTerminator(a[i])
      {
        assert a[i] == t[i + 2];
      }
    }
    FindOnLineComplete(a, "](", n);
  }

  /**
   * Along a match, the `)` that ends its URL lies on the same line as any
   * earlier `](`, so the search for `)` from there succeeds.
   */
  lemma UrlSearchSucceeds(t: string, n: nat, m: nat, k: nat)
    requires MatchesAt(t, 0, n, m) && k <= n
    ensures FindOnLine(t[k + 4..], ")").Some?
  {
    var s := t[k + 4..];
    var j := n + m - k;
    OccursSingle(t, n + m + 4, ")");
    OccursInWhole(t, k + 4, n + m + 4, ")");
    assert LineFree(s, 0, j) by {
      forall i | 0 <= i < j
        ensures !IsLineTerminator(s[i])
      {
        var x := k + 4 + i;
        assert s[i] == t[x];
        if x < n + 2 {
          assert LineFree(t, 2, n + 2);
        } else if x == n + 2 {
          assert t[x] == ']';
        } else if x == n + 3 {
          assert t[x] == '(';
        } else {
          assert LineFree(t, n + 4, n + m + 4);
        }
      }
    }
    FindOnLineComplete(s, ")", j);
  }

  lemma DropDrop(t: string, d: nat, e: nat)
    requires d + e <= |t|
    ensures t[d..][e..] == t[d + e..]
  {
  }

  /** The `exec` loop of the global regular expression: every capture, in order. */
  function Captures(t: string): seq<string>
    decreases |t|
  {
    if |t| == 0 then []
    else
      match MatchHere(t)
      case Some(mt) => [mt.url] + Captures(t[mt.length..])
      case None => Captures(t[1..])
  }

  /** The markdown image syntax embeds `u` as its URL at offset `p` of `t`, with `n` characters of alt text. */
  ghost predicate EmbedsAt(t: string, p: int, n: nat, u: string) {
    MatchesAt(t, p, n, |u|) && t[p + n + 4..p + n + |u| + 4] == u
  }

  /** Every capture sits inside image syntax in the content and holds no `)` and no line break. */
  lemma {:induction false} CapturesEmbedded(t: string)
    ensures forall u :: u in Captures(t) ==>
      ')' !in u && NoLineTerminator(u) && exists p: int, n: nat :: EmbedsAt(t, p, n, u)
    decreases |t|
  {
    if |t| > 0 {
      match MatchHere(t)
      case Some(mt) =>
        var rest := t[mt.length..];
        CapturesEmbedded(rest);
        MatchHereIsLeastMatch(t);
        var n: nat :| LeastMatch(t, n, |mt.url|) && mt.url == t[n + 4..n + |mt.url| + 4];
        assert EmbedsAt(t, 0, n, mt.url);
        forall u | u in Captures(rest)
          ensures exists p: int, n: nat :: EmbedsAt(t, p, n, u)
        {
          var p: int, n': nat :| EmbedsAt(rest, p, n', u);
          EmbedsShift(t, mt.length, p, n', u);
        }
      case None =>
        CapturesEmbedded(t[1..]);
        forall u | u in Captures(t[1..])
          ensures exists p: int, n: nat :: EmbedsAt(t, p, n, u)
        {
          var p: int, n': nat :| EmbedsAt(t[1..], p, n', u);
          EmbedsShift(t, 1, p, n', u);
        }
    }
  }

  lemma EmbedsShift(t: string, d: nat, p: int, n: nat, u: string)
    requires d <= |t| && EmbedsAt(t[d..], p, n, u)
    ensures EmbedsAt(t, p + d, n, u)
  {
    assert t[d..][p + n + 4..p + n + |u| + 4] == t[p + d + n + 4..p + d + n + |u| + 4];
  }

  /** First index of `x` in `s`, or `|s|` when it does not occur. */
  function IndexOf<T(==)>(s: seq<T>, x: T): (i: nat)
    ensures i <= |s|
    ensures i < |s| <==> x in s
    ensures i < |s| ==> s[i] == x && x !in s[..i]
    decreases |s|
  {
    if |s| == 0 then 0
    else if s[0] == x then 0
    else
      var i := 1 + IndexOf(s[1..], x);
      assert s[..i] == [s[0]] + s[1..][..i - 1];
      i
  }

  lemma IndexOfAppend<T>(s: seq<T>, y: T, x: T)
    requires x in s
    ensures IndexOf(s + [y], x) == IndexOf(s, x)
  {
    var i := IndexOf(s, x);
    var j := IndexOf(s + [y], x);
    assert (s + [y])[i] == x;
    assert (s + [y])[..j] == s[..j] by {
      assert j <= i;
    }
  }

  /**
   * The accumulation loop of `extractImageUrlsFromMarkdown`: a capture is
   * appended when it is non-empty and not already collected.
   */
  function KeepFirstSeen(caps: seq<string>): seq<string>
    decreases |caps|
  {
    if |caps| == 0 then []
    else
      var urls := KeepFirstSeen(caps[..|caps| - 1]);
      var url := caps[|caps| - 1];
      if url != "" && url !in urls then urls + [url] else urls
  }

  /**
   * What the loop keeps: each non-empty capture exactly once, ordered by
   * where it first occurs among the captures.
   */
  lemma {:induction false} KeepFirstSeenSpec(caps: seq<string>)
    ensures NoDuplicates(KeepFirstSeen(caps))
    ensures forall u :: u in KeepFirstSeen(caps) <==> u in caps && u != ""
    ensures forall i, j :: 0 <= i < j < |KeepFirstSeen(caps)| ==>
      IndexOf(caps, KeepFirstSeen(caps)[i]) < IndexOf(caps, KeepFirstSeen(caps)[j])
    decreases |caps|
  {
    if |caps| > 0 {
      var k := |caps| - 1;
      var prefix := caps[..k];
      assert caps == prefix + [caps[k]];
      KeepFirstSeenSpec(prefix);
      var urls := KeepFirstSeen(prefix);
      var url := caps[k];
      forall u | u in urls
        ensures IndexOf(caps, u) == IndexOf(prefix, u) < k
      {
        IndexOfAppend(prefix, url, u);
      }
      forall u
        ensures u in caps <==> u in prefix || u == url
      {
      }
      if url != "" && url !in urls {
        assert url !in prefix;
        assert IndexOf(caps, url) == k by {
          assert caps[k] == url;
          assert caps[..k] == prefix;
        }
        var r := urls + [url];
        forall i, j | 0 <= i < j < |r|
          ensures IndexOf(caps, r[i]) < IndexOf(caps, r[j])
        {
          assert r[i] in urls;
          if j < |urls| {
            assert r[j] in urls;
          }
        }
      } else {
        forall i, j | 0 <= i < j < |urls|
          ensures IndexOf(caps, urls[i]) < IndexOf(caps, urls[j])
        {
          assert urls[i] in urls && urls[j] in urls;
        }
      }
    }
  }

  /**
   * `extractImageUrlsFromMarkdown(content)` (admin.write.tsx:387-400): the
   * URLs of the image syntax in the content, without empty ones, without
   * repetitions, in order of first appearance.
   */
  function ExtractImageUrls(content: string): (urls: seq<string>)
    ensures NoDuplicates(urls)
    ensures forall u :: u in urls <==> u in Captures(content) && u != ""
    ensures forall i, j :: 0 <= i < j < |urls| ==>
      IndexOf(Captures(content), urls[i]) < IndexOf(Captures(content), urls[j])
  {
    KeepFirstSeenSpec(Captures(content));
    KeepFirstSeen(Captures(content))
  }

  /**
   * Every extracted URL is non-empty, holds no `)` and no line break, and
   * stands in the content right after a `](` that follows a `![` on the
   * same line, closed by a `)`.
   */
  lemma ExtractedUrlsAreEmbedded(content: string)
    ensures forall u :: u in ExtractImageUrls(content) ==>
      && u != "" && ')' !in u && NoLineTerminator(u)
      && exists p: int, n: nat :: EmbedsAt(content, p, n, u)
  {
    CapturesEmbedded(content);
  }

  /** The markdown snippet the editor offers for an uploaded image (admin.write.tsx:355, 360). */
  function ImageMarkdown(alt: string, url: string): string {
    "![" + alt + "](" + url + ")"
  }

  /** Alt text that cannot end the alt part early: no `](` and no line break. */
  predicate PlainAlt(alt: string) {
    NoLineTerminator(alt) && forall i :: 0 <= i < |alt| - 1 ==> !(alt[i] == ']' && alt[i + 1] == '(')
  }

  /** A URL the scanner reads back whole: no `)` and no line break. */
  predicate PlainUrl(url: string) {
    ')' !in url && NoLineTerminator(url)
  }

  /** The alt part of a snippet ends at the `](` the snippet itself writes. */
  lemma AltEndsAtSnippetBracket(alt: string, s: string)
    requires PlainAlt(alt)
    ensures FindOnLine(alt + "](" + s, "](") == Some(|alt|)
  {
    var a := alt + "](" + s;
    assert a[|alt|..|alt| + 2] == "](";
    forall i | 0 <= i < |alt|
      ensures !OccursAt(a, i, "](")
    {
      assert a[i..i + 2] == [a[i], a[i + 1]];
      assert a[i] == alt[i];
      assert i + 1 < |alt| ==> a[i + 1] == alt[i + 1];
      assert i + 1 == |alt| ==> a[i + 1] == ']';
    }
    FindOnLineUnique(a, "](", |alt|);
  }

  /** The URL part of a snippet ends at the `)` the snippet itself writes. */
  lemma UrlEndsAtSnippetParen(url: string, rest: string)
    requires PlainUrl(url)
    ensures FindOnLine(url + ")" + rest, ")") == Some(|url|)
  {
    var s := url + ")" + rest;
    assert s[|url|..|url| + 1] == ")";
    forall i | 0 <= i < |url|
      ensures !OccursAt(s, i, ")")
    {
      assert s[i..i + 1] == [s[i]];
      assert s[i] == url[i];
    }
    FindOnLineUnique(s, ")", |url|);
  }

  /** After `![`, a snippet's alt text, URL and closing parenthesis are read exactly. */
  lemma MatchAfterOpenSnippet(alt: string, url: string, rest: string)
    requires PlainAlt(alt) && PlainUrl(url)
    ensures MatchAfterOpen(alt + "](" + (url + ")" + rest)) == Some(Match(url, |alt| + |url| + 5))
  {
    var tail := url + ")" + rest;
    var a := alt + "](" + tail;
    AltEndsAtSnippetBracket(alt, tail);
    assert a[|alt| + 2..] == tail;
    UrlEndsAtSnippetParen(url, rest);
    assert tail[..|url|] == url;
  }

  /** An attempt at the start of a snippet consumes exactly the snippet, whatever follows it. */
  lemma MatchImageMarkdown(alt: string, url: string, rest: string)
    requires PlainAlt(alt) && PlainUrl(url)
    ensures MatchHere(ImageMarkdown(alt, url) + rest) == Some(Match(url, |ImageMarkdown(alt, url)|))
  {
    var a := alt + "](" + (url + ")" + rest);
    SnippetAfterOpen(alt, url, rest);
    MatchHereAfterOpen(a);
    MatchAfterOpenSnippet(alt, url, rest);
  }

  /** A snippet followed by more text is `![` followed by the rest of the snippet and the text. */
  lemma SnippetAfterOpen(alt: string, url: string, rest: string)
    ensures ImageMarkdown(alt, url) + rest == "![" + (alt + "](" + (url + ")" + rest))
  {
  }

  /** An attempt at a text that starts with `![` continues after it. */
  lemma MatchHereAfterOpen(a: string)
    ensures MatchHere("![" + a) == MatchAfterOpen(a)
  {
    assert ("![" + a)[2..] == a;
  }

  /**
   * Round trip of the upload snippet: scanning `![alt](url)` gives back
   * exactly the URL.
   */
  lemma {:induction false} ImageMarkdownRoundTrip(alt: string, url: string)
    requires PlainAlt(alt) && PlainUrl(url) && url != ""
    ensures ExtractImageUrls(ImageMarkdown(alt, url)) == [url]
  {
    var md := ImageMarkdown(alt, url);
    MatchImageMarkdown(alt, url, "");
    assert md + "" == md;
    assert md[|md|..] == [];
    assert Captures(md) == [url] + Captures([]);
    assert Captures(md) == [url];
    assert KeepFirstSeen([url]) == KeepFirstSeen([url][..0]) + [url];
  }

  /** An attempt inside text that ends with a line break never reaches past it. */
  lemma MatchHereStopsAtLineEnd(a: string, b: string)
    requires |a| > 0 && IsLineTerminator(a[|a| - 1])
    ensures MatchHere(a + b) == MatchHere(a)
    ensures MatchHere(a).Some? ==> MatchHere(a).value.length < |a|
  {
    var t := a + b;
    assert t[0] == a[0];
    assert |a| >= 2 ==> t[1] == a[1];
    if |a| >= 2 && a[0] == '!' && a[1] == '[' {
      assert t[2..] == a[2..] + b;
      MatchAfterOpenStopsAtLineEnd(a[2..], b);
    }
  }

  lemma MatchAfterOpenStopsAtLineEnd(x: string, b: string)
    requires |x| > 0 && IsLineTerminator(x[|x| - 1])
    ensures MatchAfterOpen(x + b) == MatchAfterOpen(x)
    ensures MatchAfterOpen(x).Some? ==> MatchAfterOpen(x).value.length < |x| + 2
  {
    FindOnLineStopsAtLineEnd(x, b, "](");
    var r := FindOnLine(x, "](");
    if r.Some? {
      UrlPartStopsAtLineEnd(x, b, r.value);
    }
  }

  lemma UrlPartStopsAtLineEnd(x: string, b: string, n: nat)
    requires |x| > 0 && IsLineTerminator(x[|x| - 1]) && n + 2 < |x|
    ensures MatchUrl((x + b)[n + 2..], n) == MatchUrl(x[n + 2..], n)
    ensures MatchUrl(x[n + 2..], n).Some? ==> MatchUrl(x[n + 2..], n).value.length < |x| + 2
  {
    var y := x[n + 2..];
    assert y[|y| - 1] == x[|x| - 1];
    assert (x + b)[n + 2..] == y + b;
    MatchUrlStopsAtLineEnd(y, b, n);
  }

  lemma MatchUrlStopsAtLineEnd(y: string, b: string, n: nat)
    requires |y| > 0 && IsLineTerminator(y[|y| - 1])
    ensures MatchUrl(y + b, n) == MatchUrl(y, n)
    ensures MatchUrl(y, n).Some? ==> |MatchUrl(y, n).value.url| + 1 < |y|
  {
    FindOnLineStopsAtLineEnd(y, b, ")");
    var q := FindOnLine(y, ")");
    if q.Some? {
      assert (y + b)[..q.value] == y[..q.value];
    }
  }

  /**
   * The scan never carries a match across a line break: the captures of
   * text that ends a line, followed by more text, are those of the two
   * parts.
   */
  lemma {:induction false} CapturesSplitAtLineEnd(a: string, b: string)
    requires |a| == 0 || IsLineTerminator(a[|a| - 1])
    ensures Captures(a + b) == Captures(a) + Captures(b)
    decreases |a|
  {
    var t := a + b;
    if |a| == 0 {
      assert t == b;
    } else {
      // The attempt at the start ends before the line break, so the scan
      // resumes inside `a`.
      ResumeStopsAtLineEnd(a, b);
      var a' := a[Resume(a)..];
      CapturesUnfold(a);
      CapturesUnfold(t);
      CapturesSplitAtLineEnd(a', b);
      ConcatAssoc(Emitted(a), Captures(a'), Captures(b));
    }
  }

  lemma ConcatAssoc(x: seq<string>, y: seq<string>, z: seq<string>)
    ensures x + (y + z) == (x + y) + z
  {
  }

  /** What the `exec` loop collects from an attempt at the start of `t`. */
  function Emitted(t: string): seq<string> {
    if MatchHere(t).Some? then [MatchHere(t).value.url] else []
  }

  /** Where the `exec` loop resumes after an attempt at the start of non-empty `t`. */
  function Resume(t: string): (d: nat)
    requires |t| > 0
    ensures 0 < d <= |t|
  {
    if MatchHere(t).Some? then MatchHere(t).value.length else 1
  }

  /** An attempt in text that ends a line resumes inside it, whatever follows. */
  lemma ResumeStopsAtLineEnd(a: string, b: string)
    requires |a| > 0 && IsLineTerminator(a[|a| - 1])
    ensures Resume(a + b) == Resume(a) && Emitted(a + b) == Emitted(a)
    ensures (a + b)[Resume(a)..] == a[Resume(a)..] + b
    ensures var a' := a[Resume(a)..]; |a'| == 0 || IsLineTerminator(a'[|a'| - 1])
  {
    MatchHereStopsAtLineEnd(a, b);
    DropConcat(a, b, Resume(a));
    if Resume(a) < |a| {
      LastOfSuffix(a, Resume(a));
    }
  }

  lemma DropConcat(a: string, b: string, d: nat)
    requires d <= |a|
    ensures (a + b)[d..] == a[d..] + b
  {
  }

  lemma LastOfSuffix(a: string, d: nat)
    requires d < |a|
    ensures a[d..][|a| - d - 1] == a[|a| - 1]
  {
  }

  /** One round of the `exec` loop. */
  lemma CapturesUnfold(t: string)
    requires |t| > 0
    ensures Captures(t) == Emitted(t) + Captures(t[Resume(t)..])
  {
  }

  /**
   * A snippet that starts a line is scanned on its own: its URL is among the
   * extracted URLs, whatever the rest of the content holds.
   */
  lemma SnippetAtLineStartIsExtracted(before: string, alt: string, url: string, after: string)
    requires |before| == 0 || IsLineTerminator(before[|before| - 1])
    requires PlainAlt(alt) && PlainUrl(url) && url != ""
    ensures url in ExtractImageUrls(before + ImageMarkdown(alt, url) + after)
  {
    var md := ImageMarkdown(alt, url);
    var t := md + after;
    assert before + md + after == before + t;
    CapturesSplitAtLineEnd(before, t);
    MatchImageMarkdown(alt, url, after);
    assert t[|md|..] == after;
    assert Captures(t) == [url] + Captures(after);
    assert url in Captures(before + t);
  }
}
